=== FILE: README.md ===
# AI image variants: a Dafny model

This project models the core of a tool that puts AI-generated images at the
head of a deal's image gallery. The tool:

- **Replaces position 0.** It fetches the approved AI candidate of an image,
  `images/deal/{deal}/{image_id}00000.jpg`, and draws a new image id. The id
  comes from the image sequence, or from the product sequence when the first
  one fails.
- **Renders the catalogue.** It produces the 14 catalogue variants by
  "uncropping" the image to each target aspect and uploads them under the new
  id.
- **Rewrites the deal's gallery.** This runs as one transaction. The new image
  takes position 0. The replaced image moves to position 2. Position 1 stays.
  Every other active image moves down one place.
- **Fills in missing variants.** It renders the catalogue objects an existing
  image lacks, one image at a time or for a CSV of (deal, image) pairs, and
  counts successes, skips and failures.
- **Promotes approved variants.** It keeps the rows of a review export marked
  "approved" and turns each into a status row with the variant id
  `image_id * 100000`. It copies each approved image inside the object store to
  the key the replacement step later fetches.
- **Runs the older Oracle helpers.** These add a gallery image at a given
  position or at the head of the gallery, and copy a deal's catalogue objects
  to a new image id.
- **Serves the review application.** The prompt manager loads the prompt
  files, normalises their keys and looks up the most specific prompt for a
  deal. The approval store inserts generated rows, lists pending rows newest
  first and records reviews.
- **Provides the generator-script helpers.** These fetch a deal's subject,
  images and highlights, choose the source images, and name the output files.

The model is pure Dafny: tables are sequences of records, the object store is
a map from key to image dimensions or a set of (bucket, key) locations, and
every exchange with the outside world is a parameter:

- what a sequence or a query returns;
- which upload fails;
- which AI candidate exists;
- the current time;
- the random pick.

Python's string operations are modelled one by one in module `Text`:

- `str.replace` replaces every occurrence;
- `split(sep, 1)`;
- `strip` and `rstrip` remove whitespace;
- `lower`;
- `isdigit` and `isalnum` are restricted to ASCII.

Modules, one per file:

| module | models |
|---|---|
| `Wrappers` | `Option` and `Result` |
| `Text` | decimal rendering of ids, substring search, `str.replace`, split, join, strip |
| `Geometry` | `uncrop_image`, `TARGET_SIZES`, `generate_variants` |
| `ObjectKeys` | catalogue keys, AI candidate keys, URL parsing, the staging upload and list entries |
| `Reorder` | the position-0 replacement engine, `update_image_positions_and_insert_new` |
| `OracleImages` | `processImage`, `processMain`, `copy_existing_s3_files`, `insert_variant_image_oracle`, `process_approved_variant` |
| `Replacement` | id allocation, deal lookup, candidate download, upload, `process_image_replacement`, the batch runner, the `.txt` id loader |
| `MissingVariants` | `check_existing_variants`, `upload_missing_variants_to_s3`, `process_single_image`, `process_csv_batch` |
| `ApprovedVariants` | `load_and_filter_approved_images`, `prepare_for_redshift`, `process_single_image`, `copy_approved_variants_to_s3` |
| `Prompts` | `PromptManager` |
| `ApprovalStore` | `insert_generation_rows`, `list_pending`, `update_review` |
| `Generators` | `get_deal_data`, `generate_image`, `generate_variant_from_file`, `generate_variant`, `download_first_image_from_redshift` |

The description of the system says the position-0 policy keeps positions
distinct for every deck with positions `0..N-1`. The code keeps them distinct
only when the replaced image is the one at position 0. When it is elsewhere,
the image at position 0 and the image at position 2 both end up at position 3.
The position-0 engine is modelled as the code behaves: the kept ranking is
stated by `Reorder.RankingPreserved`, and the collision is exhibited by
`Reorder.CollisionWhenReplacedNotAtZero`.

Three helpers have the defects listed under "## Findings": the URL parse, the
key rename of the Oracle copy, and the character clip of the approval store.
The operations that use them take a flag that selects the helper:

- `asWritten` true: the operation does what the code does;
- `asWritten` false: it uses the corrected helper.

`OracleImages.CopyExistingFiles` has the same kind of flag with the opposite
sense: `confined` true is the corrected rename. The `asWritten` flag is taken
by these operations:

- `OracleImages.InsertVariantImage`;
- `OracleImages.ProcessApprovedVariant`, which passes `confined := !asWritten`
  to the copy;
- `ApprovedVariants.CopyOne` and `ApprovedVariants.CopyApprovedVariants`;
- `ApprovalStore.InsertGenerationRows`, through `ApprovalStore.ValuesBy`.

Each finding is shown at operation level by a lemma on the code's input:
`OracleImages.NestedSchemeInsert`, `ApprovedVariants.NestedSchemeCopy`,
`OracleImages.PromotionLeavesDealAsWritten` and
`ApprovalStore.AccentedVerticalRaises`.

## Model

| member | source | states |
|---|---|---|
| Text.ParseDecimal | replace_position_zero_variant.py:719-726 | Reading back the decimal rendering of an id gives the id: `int(str(n)) == n`. |
| Text.DecimalTimes100000 | process_approved_variants.py:85-86 | The decimal rendering of `100000 * n` is the rendering of `n` followed by five zeros exactly when `n > 0`, so the variant id and the `{image_id}00000` candidate name agree except for image 0. |
| Text.IndexOf | oracle_image_functions.py:291 | The index found is an occurrence of the pattern, no occurrence starts earlier, and none is found only when the pattern occurs nowhere. |
| Text.SplitOnce | oracle_image_functions.py:295 | `split(sep, 1)` yields two parts that rebuild the input around the separator, and yields one part exactly when the separator does not occur. |
| Text.SplitJoin | replace_position_zero_variant.py:719-721 | Splitting a joined list of separator-free lines at the separator gives back the lines. |
| Text.ReplaceAllAfter | oracle_image_functions.py:291 | `str.replace` replaces an occurrence at the front and carries on with the rest, so it replaces occurrences after the scheme as well. |
| Geometry.Uncrop | replace_position_zero_variant.py:64-87 | The canvas keeps the image when the aspect already matches. Otherwise it keeps one side and grows the other to the floor of the target aspect. It is never smaller than the image, and the image is centred with a non-negative offset. |
| Geometry.UncropIdempotent | replace_position_zero_variant.py:64-87 | Uncropping an uncropped canvas to the same aspect changes nothing. |
| Geometry.UncropSquare | replace_position_zero_variant.py:114-121 | The square canvas of the avatar variant is square, with side equal to the image's longer side. |
| Geometry.BaseRatioOfCatalogue | replace_position_zero_variant.py:47-62 | The base aspect used for uncropping is the base variant's own size, 777 by 520. |
| Geometry.CatalogueShape | replace_position_zero_variant.py:47-62 | The catalogue has 14 distinct suffixes, and the suffix list and the size table name the same suffixes. |
| Geometry.GenerateVariants | replace_position_zero_variant.py:89-128 | Exactly one variant per catalogue suffix, each at its catalogue size and named `{image_id}{suffix}.jpg`. |
| Geometry.VariantSources | replace_position_zero_variant.py:95-128 | The base variant is resized from the master padded (never cropped) to 777:520. The avatar is resized from a square canvas whose side is the master's longer side. Every other variant is resized from the 777x520 base. |
| Geometry.VariantFileNamesDistinct | replace_position_zero_variant.py:102-111 | Two suffixes give the same variant file name only when they are the same suffix. |
| Geometry.VariantCompleteness | replace_position_zero_variant.py:89-128 | Every one of the 14 catalogue suffixes is rendered, whatever the source image. |
| ObjectKeys.HttpsUrlInjective | replace_position_zero_variant.py:218-232 | Within one bucket, two keys get the same public URL only when they are the same key. |
| ObjectKeys.VariantKeyLayout | replace_position_zero_variant.py:218 | Every catalogue key lies under its deal's folder, and within one image distinct suffixes give distinct keys. |
| ObjectKeys.CandidateKeyIsScaledId | replace_position_zero_variant.py:190-192 | The AI candidate key of an image is the base catalogue key of image `image_id * 100000` exactly when the id is positive. |
| ObjectKeys.BucketAndKey | oracle_image_functions.py:295-297 | The bucket holds no `/`, and the text is the bucket alone or the bucket, a `/` and the key. |
| ObjectKeys.ParseUrl | oracle_image_functions.py:286-302 | A URL is accepted exactly when it starts with `https://` or `s3://`. An `s3://` URL splits into bucket and key after the scheme. |
| ObjectKeys.ParseS3Url | oracle_image_functions.py:298-301 | `s3://bucket/key` parses back to the bucket and key it was built from. |
| ObjectKeys.ParseHttpsUrl | oracle_image_functions.py:288-297 | A path-style `https://bucket/key` URL parses back to its bucket and key. |
| ObjectKeys.ParseHostStyleUrl | oracle_image_functions.py:288-293 | A host-style `https://bucket.s3.amazonaws.com/key` URL parses back to its bucket and key. |
| ObjectKeys.QueryKeptInKey | process_approved_variants.py:119-130 | The approval copy step does not drop a URL's query, so `?query` stays in the source key. |
| ObjectKeys.QueryDropped | oracle_image_functions.py:288-289 | The Oracle helper drops everything from `?` on, so a presigned URL names the object itself. |
| ObjectKeys.QueryKeptByBoth | process_approved_variants.py:119-130 | Both the parse as written and the corrected parse keep the query of a path-style URL in the source key, when the scheme text does not recur. |
| ObjectKeys.ParseUrlAsWritten | oracle_image_functions.py:286-302 | As written, a URL with neither scheme is rejected and an `s3://` URL is always accepted. |
| ObjectKeys.AsWrittenAgrees | oracle_image_functions.py:286-302 | The parse as written and the corrected parse agree on every URL in which the scheme occurs only once. |
| ObjectKeys.RepeatedSchemeMisparsed | oracle_image_functions.py:291-295 | A key that itself contains `https://` loses it in the parse as written but keeps it in the corrected parse. |
| ObjectKeys.RepeatedSchemeExample | oracle_image_functions.py:295 | `https://b/https://k` is read as key `k` as written and as key `https://k` once corrected. |
| ObjectKeys.CopyPathOfStagingUpload | process_approved_variants.py:236-261 | Rewriting the staging upload's public URL gives the `s3://` path of the same object, which parses back to the staging key. |
| ObjectKeys.ListEntryRoundTrip | process_approved_variants.py:326 | A list entry is `:` followed by the id's digits, from which the id can be read back. |
| Reorder.Snapshot | replace_position_zero_variant.py:249-255 | The snapshot holds exactly the deal's active rows. |
| Reorder.SnapshotReposition | replace_position_zero_variant.py:298-338 | Taking the snapshot after moving the deal's rows gives the same result as moving the rows of the snapshot. |
| Reorder.RepositionTwice | replace_position_zero_variant.py:298-338 | Two passes of position updates act as one pass of the combined assignment, the later pass winning. |
| Reorder.TempPassLeavesNoTrace | replace_position_zero_variant.py:298-338 | The temporary `+1000` pass followed by the final pass leaves the same table as the final pass alone. |
| Reorder.ApplyPass | replace_position_zero_variant.py:298-308 | The loop of `UPDATE` statements moves each snapshot row to its planned position and leaves every other row alone. |
| Reorder.RenumberPositions | replace_position_zero_variant.py:298-338 | Both passes together give each snapshot row its final position under the policy. |
| Reorder.FindRow | replace_position_zero_variant.py:284-292 | The replaced row is found exactly when its id is in the snapshot. |
| Reorder.ReplacePositionZero | replace_position_zero_variant.py:263-377 | The gallery is rewritten only when the deal has active images, the replaced image is among them and no statement fails. A failure rolls back to the original table. Success appends the new image at position 0. |
| Reorder.UpdatePositionsAndInsert | replace_position_zero_variant.py:263-377 | The two-pass procedure with its loops computes the same table and flag as the policy. |
| Reorder.InsertedRowFields | replace_position_zero_variant.py:340-361 | The inserted row is built from the replaced row. It is active, in the deal and named by the given file name. Its caption and alt text are `Variant image {new_id}`. Its extension and iPhone flag are never empty. It is marked as created by user 18282217. |
| Reorder.FalsyOr | replace_position_zero_variant.py:359-360 | A non-empty default is never turned into an empty value. The result is either the default or the stored value itself, never anything else. |
| Reorder.OnlySnapshotRowsMove | replace_position_zero_variant.py:298-338 | Rows of other deals, and inactive rows, keep their position. |
| Reorder.FinalSnapshot | replace_position_zero_variant.py:311-361 | After a successful replacement, the deal's active rows are the old ones moved by the policy followed by the new one. |
| Reorder.PolicyKeepsRanking | replace_position_zero_variant.py:311-338 | Applied to a ranked deck with the replaced image at 0, the policy yields a ranked deck. Every row keeps its id, the replaced image goes to 2, position 1 is kept and every other position moves down one. |
| Reorder.RankingPreserved | replace_position_zero_variant.py:263-377 | For a deck ranked `0..N-1` with the replaced image at 0, the replacement succeeds. Afterwards there are N+1 active images at distinct positions, with the new image at 0, position 1 kept, the replaced image at 2 and every other image one place down. |
| Reorder.SingleImageLeavesGap | replace_position_zero_variant.py:315-318 | A deal with one active image ends with positions 0 and 2 and nothing at 1. |
| Reorder.CollisionWhenReplacedNotAtZero | replace_position_zero_variant.py:315-328 | When the replaced image is not at position 0, the other images at positions 0 and 2 both move to position 3, so the positions are no longer a ranking. |
| Reorder.DistinctIdsPreserved | replace_position_zero_variant.py:342-361 | A fresh id keeps the table's ids distinct. |
| OracleImages.ShiftDeal | oracle_image_functions.py:178-184 | Every row of the deal moves down one position, whatever its status. Every other row, and every other field, is unchanged. |
| OracleImages.ProcessImage | oracle_image_functions.py:6-108 | A position above 10 is refused. Otherwise a readable source adds exactly one row. |
| OracleImages.ProcessImageAppendsOnly | oracle_image_functions.py:6-108 | `processImage` never moves an existing row. The row it adds sits at the requested position in the requested deal. |
| OracleImages.ProcessMain | oracle_image_functions.py:111-205 | A readable source adds exactly one row. |
| OracleImages.ShiftInsertKeepsOrder | oracle_image_functions.py:178-202 | Shifting a deal and inserting at 0 leaves other deals untouched, moves each of the deal's rows down one and keeps distinct positions distinct. |
| OracleImages.ProcessMainPutsFirst | oracle_image_functions.py:111-205 | After `processMain`, the new image alone is at position 0 and the deal's positions stay distinct. |
| OracleImages.RenameAsWritten | oracle_image_functions.py:251-253 | As written, a listed key is renamed exactly when it contains the original id's digits anywhere. |
| OracleImages.RenameInDeal | oracle_image_functions.py:232-253 | With the match confined to the file name, every renamed key stays in the deal's folder. |
| OracleImages.RenameCatalogueObject | oracle_image_functions.py:244-253 | A catalogue object of the original image becomes the same catalogue object of the new image. |
| OracleImages.SharedDigitsLeaveDeal | oracle_image_functions.py:251-253 | As written, copying image 5 of deal 512 as image 9 writes `images/deal/912/9.jpg`, outside the deal's folder. |
| OracleImages.SharedDigitsStayInDeal | oracle_image_functions.py:244-253 | With the corrected match, the same copy writes `images/deal/512/9.jpg`. |
| OracleImages.Renames | oracle_image_functions.py:243-271 | The reported pairs are the matched listed keys with their new keys, and every matched key is reported. |
| OracleImages.CopyExistingFiles | oracle_image_functions.py:226-279 | The store only grows, and every new object lies in the bucket. With the corrected match, it also lies in the deal's folder. A listing without contents copies nothing. A copy that fails keeps exactly the copies before it and reports nothing. With no failure, every matched key is copied and reported, in listing order, with its old and new public URL. |
| OracleImages.CopiedIffContains | oracle_image_functions.py:243-275 | As written, with no failure, a listed key is reported exactly when it contains the original id's digits. |
| OracleImages.CopyCoversCatalogue | oracle_image_functions.py:243-275 | With no failure, every listed catalogue object of the original image is copied under the new id. |
| OracleImages.InsertVariantImage | oracle_image_functions.py:281-385 | An unsupported scheme changes nothing, and so does a copy that raises. Insertion succeeds exactly when the URL parses, its object exists, the copy does not raise and the database does not fail. The parse is the source's with `asWritten` and the corrected one otherwise. Success returns the public URL of `images/deal/{deal}/{new_id}.jpg`, and a failure leaves the table alone. |
| OracleImages.NestedSchemeInsert | oracle_image_functions.py:288-297 | With only object `k` of bucket `b` stored, inserting from `https://b/https://k` succeeds as written, because both schemes are deleted. It fails with the corrected parse, which looks for key `https://k`. |
| OracleImages.ProcessApprovedVariant | oracle_image_functions.py:387-426 | With no id there is no change. Every object written lies in the bucket. With the corrected helpers, every object written also lies in the deal's folder. A failure leaves the table alone. Success means the URL parsed, the copy did not raise and the database did not fail, and adds one row: the new image at position 0. |
| OracleImages.PromotionLeavesDealAsWritten | oracle_image_functions.py:400-406 | As written, promoting a variant of image 5 of deal 512 under new id 9 writes `images/deal/912/9.jpg`, into another deal's folder. The corrected promotion does not. |
| OracleImages.ApprovedVariantFirst | oracle_image_functions.py:387-426 | A successful promotion puts the new image alone at position 0 and keeps the deal's positions distinct. |
| Replacement.AllocateId | replace_position_zero_variant.py:130-154 | The image sequence's value is used when it can be read, and the product sequence's value otherwise. Allocation fails only when both fail, and the error names both sequences and what each raised. |
| Replacement.NoSequenceErrorNames | replace_position_zero_variant.py:148 | The allocation error names both sequences and contains what each raised. |
| Replacement.GetDealId | replace_position_zero_variant.py:156-176 | A deal is found exactly when some row has the image id, and it is that row's deal. Otherwise the error names the image. |
| Replacement.DownloadCandidate | replace_position_zero_variant.py:178-205 | The download succeeds exactly when the AI candidate object exists, and it returns that object. |
| Replacement.VariantKeysDistinct | replace_position_zero_variant.py:218 | Distinct suffixes of one image name distinct objects. |
| Replacement.Upload | replace_position_zero_variant.py:216-232 | Uploading adds exactly the listed variants' keys, each holding its variant's size. Objects under other keys keep their contents. |
| Replacement.UploadChangesOnlyVariants | replace_position_zero_variant.py:216-232 | Every object an upload adds or overwrites lies under the key of one of the uploaded suffixes. |
| Replacement.VariantUrls | replace_position_zero_variant.py:216-233 | One public URL per catalogue suffix, naming the new image's object. |
| Replacement.UploadVariants | replace_position_zero_variant.py:207-240 | Only keys of the new image are added. The upload fails exactly when some object's upload fails, with that error, and otherwise returns one URL per suffix. |
| Replacement.ProcessImageReplacement | replace_position_zero_variant.py:379-439 | A failure leaves the table unchanged and carries an error. The store never loses an object. An unknown image fails with the lookup's message. |
| Replacement.ReplacementOutcome | replace_position_zero_variant.py:379-439 | A replacement succeeds exactly when the deal is found, the candidate is present, an id is drawn, every upload completes, the image is among the deal's active ones and the transaction commits. The new image then has its 14 catalogue objects at their sizes, and the gallery is the one the position transaction writes. |
| Replacement.ReplacesFromApprovedCopy | replace_position_zero_variant.py:190-192 | The object a replacement renders from is the one the approval copy wrote for variant id `image_id * 100000`. |
| Replacement.NewFileNameIsBaseVariant | replace_position_zero_variant.py:407 | The new row's file name is the base catalogue object's file name. |
| Replacement.ReplacementKeepsRanking | replace_position_zero_variant.py:379-439 | A successful replacement of the image at position 0 of a ranked deck leaves the deck ranked as the policy promises. |
| Replacement.ReplaceAndSync | replace_position_zero_variant.py:568-594 | The status is reported updated exactly when the update was requested and succeeded and every stage of the replacement succeeded: the deal was found, the approved candidate exists, an id was drawn, every upload went through, the image is active in its deal and the database did not fail. The status is then reported only once the gallery holds the new image at position 0. |
| Replacement.RecordAdds | replace_position_zero_variant.py:627-649 | Each completion adds its image to the successes or to the failures, never both, and keeps what was there. |
| Replacement.TallyOf | replace_position_zero_variant.py:624-652 | Successes and failures together are exactly the completed images, and every success maps to the new id its job returned. |
| Replacement.LastIsNew | replace_position_zero_variant.py:617-627 | Without repeated ids, the last job's id is new. |
| Replacement.RecordCounts | replace_position_zero_variant.py:627-649 | A job with a new id adds one entry to exactly one of the two lists. |
| Replacement.BatchAccounting | replace_position_zero_variant.py:624-691 | With distinct ids, successes plus failures equal the jobs, and the two id sets are disjoint. |
| Replacement.DuplicateIdUndercounts | replace_position_zero_variant.py:617-691 | An id submitted twice with two successes is counted once, so the counts do not add up to the total. |
| Replacement.FailuresCarryMessages | replace_position_zero_variant.py:637-649 | Every recorded failure carries the error its job reported. |
| Replacement.NoUnknownErrorFromReplacement | replace_position_zero_variant.py:379-439 | Every failed replacement names its error, so the `Unknown error` default never appears. |
| Replacement.SubmittedAreCompleted | replace_position_zero_variant.py:617-627 | Each submitted id completes once: the submitted and the completed ids agree, and so do their repeats. |
| Replacement.FoldCompletions | replace_position_zero_variant.py:624-652 | The loop over completions computes the tally of the completed jobs. |
| Replacement.ResultsAreReturned | replace_position_zero_variant.py:627-652 | The tally's `results` list is exactly the returned jobs' dictionaries, in completion order. A job that raised has no entry. |
| Replacement.ProcessBatchWithWorkers | replace_position_zero_variant.py:596-691 | The total is the number of ids, and the counts are the list lengths. Every submitted id is a success or a failure. With distinct ids the counts add up. The status update is reported only after a success. `results` holds the dictionary of every job that returned one, in completion order. |
| Replacement.LineId | replace_position_zero_variant.py:722-726 | A line yields an id exactly when, stripped, it is non-empty and all digits. |
| Replacement.ParseIdLines | replace_position_zero_variant.py:719-726 | At most one id per line. |
| Replacement.IdsTextRoundTrip | replace_position_zero_variant.py:719-726 | Reading back a file that lists ids one per line gives the ids, in order. |
| Replacement.JunkLineIgnored | replace_position_zero_variant.py:722-726 | A blank or non-numeric line contributes nothing. |
| MissingVariants.Absent | generate_missing_variants.py:110-129 | The missing suffixes are exactly those whose object is absent. |
| MissingVariants.CheckExistingVariants | generate_missing_variants.py:110-129 | Each catalogue suffix is either existing or missing, according to whether its object is in the store. |
| MissingVariants.Uploadable | generate_missing_variants.py:154-189 | Only missing suffixes that were rendered are uploaded. |
| MissingVariants.UrlsOf | generate_missing_variants.py:168-180 | One public URL per uploaded suffix. |
| MissingVariants.UploadMissing | generate_missing_variants.py:154-189 | Only missing rendered suffixes' objects change, and their URLs are returned. A failure returns the error of the failing upload. |
| MissingVariants.UploadedAreMissing | generate_missing_variants.py:154-189 | Every object the upload changes is a missing suffix's object. |
| MissingVariants.ProcessSingleImage | generate_missing_variants.py:191-245 | The result names the deal and image. It reports `All variants already exist` exactly when the probe finds nothing missing. |
| MissingVariants.ProcessSingleImageOutcomes | generate_missing_variants.py:191-245 | With nothing missing the store is untouched. With something missing and no main image, the download fails and nothing is written. Every other failure carries the upload's message. |
| MissingVariants.ProcessSingleImageEffects | generate_missing_variants.py:206-245 | No existing object is overwritten. A completed fill reports the probe's findings and one URL per missing suffix, and leaves every catalogue object present. |
| MissingVariants.AbsentNone | generate_missing_variants.py:110-129 | When every probed object is present, the missing list is empty. |
| MissingVariants.Fill | generate_missing_variants.py:206-245 | Existing objects keep their content. On success every missing suffix's object exists. |
| MissingVariants.ExistingUntouched | generate_missing_variants.py:154-189 | Filling never overwrites an existing catalogue object. |
| MissingVariants.FillUploadsAllMissing | generate_missing_variants.py:206-245 | On success, the generated count equals the missing count. |
| MissingVariants.FillIsIdempotent | generate_missing_variants.py:191-245 | A second run after a successful fill finds every variant present. |
| MissingVariants.MissingColumns | generate_missing_variants.py:255-258 | The missing columns are the required ones absent from the CSV. |
| MissingVariants.CleanRows | generate_missing_variants.py:261 | The pairs kept are exactly the rows with both cells filled, without duplicates. |
| MissingVariants.SuccessfulUploadsSnoc | generate_missing_variants.py:285-320 | Each completion adds its generated count to the variant total only when it succeeded. |
| MissingVariants.CountAll | generate_missing_variants.py:285-320 | Successes, skips and failures add up to the completed jobs. |
| MissingVariants.TotalIsSumOfSuccesses | generate_missing_variants.py:285-320 | The variant total is the sum of the successful jobs' generated counts. |
| MissingVariants.ProcessCsvBatch | generate_missing_variants.py:247-348 | The batch fails exactly when a required column is missing, naming the missing columns. Otherwise the counters are those of the completions. The i-th result is the i-th completion's dictionary, or a failure naming its pair and the exception. |
| MissingVariants.BlankCellMissesCatalogue | generate_missing_variants.py:119-121 | As written, when a column had a blank cell its ids print as `123.0`, and the probed key is never a catalogue key. |
| MissingVariants.IntegerIdsProbeCatalogue | generate_missing_variants.py:119-121 | With integer ids, the probed key is the catalogue key. |
| ApprovedVariants.Approved | process_approved_variants.py:56-60 | A row is kept exactly when its review result is `approved`, and each approved row is kept as many times as it occurs in the export. |
| ApprovedVariants.ApprovedConcat | process_approved_variants.py:56-60 | The filter keeps file order: the approved rows of two consecutive parts of an export are those of the first part followed by those of the second. |
| ApprovedVariants.ApprovedSingle | process_approved_variants.py:56-60 | A single row is kept exactly when its review result is `approved`. |
| ApprovedVariants.LoadAndFilterApproved | process_approved_variants.py:44-68 | Loading fails exactly when the review column or a required column is missing. Otherwise it yields the approved rows. |
| ApprovedVariants.ApprovedIdempotent | process_approved_variants.py:56-60 | Filtering the approved rows again keeps them all. |
| ApprovedVariants.PrepareForRedshift | process_approved_variants.py:70-98 | A blank image id makes the integer cast fail. Otherwise each row becomes a status row with variant id `100000 * image_id`, status 1, the batch and list names and the current time. |
| ApprovedVariants.VariantKeyIsCandidate | process_approved_variants.py:141 | The key a status row's copy writes is the AI candidate key the replacement fetches. |
| ApprovedVariants.CopyOne | process_approved_variants.py:100-164 | A row with no URL, or whose URL starts with neither scheme, is skipped. A URL that does not parse, a missing source object or a `copy_object` that raises fails the copy, and the store is unchanged. Otherwise the copy writes the variant key, and the row gets its URL and the `true` status. The parse is the source's with `asWritten`. |
| ApprovedVariants.QueryInUrlFailsCopy | process_approved_variants.py:119-130 | Under both parses, a presigned URL's query stays in the source key, so the copy fails whether or not `copy_object` would raise for another reason. |
| ApprovedVariants.NestedSchemeCopy | process_approved_variants.py:119-135 | With only object `k` of bucket `b` stored, copying from `https://b/https://k` succeeds as written. It fails with the corrected parse. |
| ApprovedVariants.CopyApprovedVariants | process_approved_variants.py:166-209 | Each row's URL and status are those of its own copy, given which rows' `copy_object` raises. The success count counts the copies. The store gains the variant key of every row whose copy succeeded, and nothing else. |
| ApprovedVariants.Collect | process_approved_variants.py:185-209 | Given each row's copy outcome, the URL and status columns follow the outcomes index by index. The count is the number of successes. The store gains every successful copy's target and nothing else. |
| Prompts.NormalizeKey | flask_app/services/prompt_manager.py:54-57 | The key keeps the text's length. Each character is lower-cased, with spaces and hyphens turned into underscores. The result is a normal key. |
| Prompts.NormalizeFixesNormalKeys | flask_app/services/prompt_manager.py:54-57 | Normalising changes a key exactly when it is not already normal. Normalising twice is normalising once. |
| Prompts.FileKey | flask_app/services/prompt_manager.py:46 | A file's key is a normal key. |
| Prompts.FileKeyRoundTrip | flask_app/services/prompt_manager.py:46 | A file named after a normal key without a dot, plus `.txt`, loads under that key. |
| Prompts.LoadStep | flask_app/services/prompt_manager.py:39-52 | A later file overwrites an earlier one with the same key, and an unreadable file changes nothing. |
| Prompts.LoadedKeys | flask_app/services/prompt_manager.py:39-52 | A key is loaded exactly when the folder exists and some readable file has that key. |
| Prompts.LoadedFromLastFile | flask_app/services/prompt_manager.py:39-52 | A loaded prompt is the stripped content of the last readable file with that key. |
| Prompts.RandomSubjectDescription | flask_app/services/prompt_manager.py:59-68 | No subjects give the empty description. Otherwise the result is the picked subject's description. |
| Prompts.DescriptionLines | flask_app/services/prompt_manager.py:63-68 | A description is the subject line followed by the hair line. |
| Prompts.CatalogueSubjectsComplete | flask_app/services/prompt_manager.py:5-29 | Every built-in subject has a type and a hair description. |
| Prompts.Candidates | flask_app/services/prompt_manager.py:71-78 | The lookup order always ends with `default`. |
| Prompts.FirstCached | flask_app/services/prompt_manager.py:80-81 | The candidate chosen is loaded and every earlier candidate is not. No candidate is chosen exactly when none is loaded. |
| Prompts.GetPrompt | flask_app/services/prompt_manager.py:70-88 | With no candidate loaded, the answer is the built-in sentence naming the email subject, labelled `fallback`. Otherwise the first loaded candidate in lookup order is used, with its slots filled. |
| Prompts.DefaultAnswersEverything | flask_app/services/prompt_manager.py:70-88 | With a `default` prompt loaded, every lookup is answered from a loaded prompt. |
| Prompts.SubCategoryFirst | flask_app/services/prompt_manager.py:70-88 | A loaded sub-category prompt wins over every less specific one. |
| Prompts.FillPlain | flask_app/services/prompt_manager.py:83-86 | A template without slots is returned unchanged. |
| Prompts.FillEmailSubject | flask_app/services/prompt_manager.py:83-86 | The email-subject slot is replaced by the deal's subject. |
| Prompts.FillSubject | flask_app/services/prompt_manager.py:83-86 | The subject slot is replaced by the subject description. |
| ApprovalStore.ByteLen | flask_app/services/approval_store.py:4-22 | A text's UTF-8 width lies between its length and four times its length. |
| ApprovalStore.AsciiByteLen | flask_app/services/approval_store.py:52-56 | For ASCII text, bytes and characters agree. |
| ApprovalStore.ClipAsWritten | flask_app/services/approval_store.py:52-56 | As written, a value is cut to a prefix of at most the width in characters, and kept whole when it fits. |
| ApprovalStore.ClipBytes | flask_app/services/approval_store.py:52-56 | The clipped text is the longest prefix whose UTF-8 width fits the column. |
| ApprovalStore.Clip | flask_app/services/approval_store.py:52-56 | A value is cut to a prefix that fits the column in bytes, and kept whole when it fits. |
| ApprovalStore.ClipAgreesOnAscii | flask_app/services/approval_store.py:52-56 | On ASCII text the corrected clip agrees with the clip as written. |
| ApprovalStore.AccentsByteLen | flask_app/services/approval_store.py:52-56 | A run of `é` takes two bytes per character. |
| ApprovalStore.ValuesOf | flask_app/services/approval_store.py:64-78 | With the corrected byte clip, a row is accepted exactly when it has an id, and its ids are passed through unchanged. |
| ApprovalStore.ValuesBy | flask_app/services/approval_store.py:52-78 | Under either clip the ids are passed through, and a row without an id is refused. Only under the byte clip is every row with an id accepted. |
| ApprovalStore.CharClipOverflows | flask_app/services/approval_store.py:52-78 | A vertical of 64 `é` is 128 bytes. It is refused by `VARCHAR(64)` as written and accepted once clipped by bytes. |
| ApprovalStore.Append | flask_app/services/approval_store.py:81-97 | Appending keeps the earlier rows. Each new row is pending, stamped now and numbered in order. The table stays valid. |
| ApprovalStore.AcceptedOnly | flask_app/services/approval_store.py:81-97 | The rows inserted are exactly the accepted ones. |
| ApprovalStore.AcceptedOnlyCounts | flask_app/services/approval_store.py:85-97 | Each accepted value is inserted as many times as it occurs in the batch, and no value the table refuses is inserted. |
| ApprovalStore.AcceptedOnlyConcat | flask_app/services/approval_store.py:85-97 | The fallback inserts in row order: the accepted values of two consecutive parts of a batch are those of the first part followed by those of the second. |
| ApprovalStore.AcceptedOnlySingle | flask_app/services/approval_store.py:85-97 | A single value is inserted exactly when the table accepts it. |
| ApprovalStore.ValuesOfAll | flask_app/services/approval_store.py:64-78 | One value tuple per row, in row order, clipped as the flag selects. Each tuple keeps its row's deal id, and a tuple whose row has no id is refused. |
| ApprovalStore.InsertGenerationRows | flask_app/services/approval_store.py:49-97 | No rows change nothing. The insert raises the batch error exactly when no row's values are accepted, and otherwise appends the accepted rows. The values are clipped by characters with `asWritten` and by bytes otherwise. With the byte clip, it raises exactly when every row lacks an id. |
| ApprovalStore.AppendedArePending | flask_app/services/approval_store.py:81-97 | Every appended row is pending and unreviewed. |
| ApprovalStore.InsertedRowsArePending | flask_app/services/approval_store.py:49-97 | Insertion keeps the earlier rows, and every new row is pending. |
| ApprovalStore.IdentifiedRowsInserted | flask_app/services/approval_store.py:81-97 | With the byte clip, a batch holding a row with an id does not raise, and every such row is inserted. |
| ApprovalStore.RowInsertedIffAccepted | flask_app/services/approval_store.py:81-97 | Under either clip, a row's values are inserted exactly when the table accepts them. |
| ApprovalStore.AppendedIffAccepted | flask_app/services/approval_store.py:81-97 | A value of the batch is among the new rows exactly when it is accepted. |
| ApprovalStore.SingleRowInsert | flask_app/services/approval_store.py:81-97 | A single row raises the batch error exactly when the table refuses its values. |
| ApprovalStore.AccentedVerticalRaises | flask_app/services/approval_store.py:52-97 | As written, inserting one row with an id and a vertical of 64 `é` raises. With the byte clip the row goes in. |
| ApprovalStore.AllAcceptedKept | flask_app/services/approval_store.py:81-97 | When every row is accepted, every row is inserted. |
| ApprovalStore.PendingEntries | flask_app/services/approval_store.py:100-114 | The rows listed are exactly the pending ones. |
| ApprovalStore.Reverse | flask_app/services/approval_store.py:107 | The order is reversed. |
| ApprovalStore.ListPending | flask_app/services/approval_store.py:100-114 | A page holds pending rows of the table, newest first, starting at the offset and at most `limit` long. |
| ApprovalStore.PendingKeepsOrder | flask_app/services/approval_store.py:100-114 | The pending rows keep the table's order by id and creation time. |
| ApprovalStore.ListPendingNewestFirst | flask_app/services/approval_store.py:100-114 | Within a page, each row was created no earlier than every later row and has a larger id, so no row repeats. |
| ApprovalStore.EveryPendingRowListed | flask_app/services/approval_store.py:100-114 | Every pending row appears on some page. |
| ApprovalStore.UpdateReview | flask_app/services/approval_store.py:117-126 | A review fails exactly when a value is too long for its column. Otherwise the row with the given id takes the status, reviewer, notes and review time. Every other row is unchanged, and an unknown id changes nothing. |
| ApprovalStore.UpdateKeepsValid | flask_app/services/approval_store.py:117-126 | Recording a review keeps the table valid. |
| ApprovalStore.ReviewedLeavesPending | flask_app/services/approval_store.py:117-126 | A row reviewed with a status other than `pending` leaves the pending list, and every other pending row stays. |
| Generators.HeroDealData | generate_image.py:17-74 | At most 10 images, in query order, each with its URL, which is NULL when the extension is. The extension, subject and first three highlights are as fetched. |
| Generators.HeroDealFacts | generate_image.py:32-56 | The subject is missing only when its column is NULL, and is `Deal` when the deal row is absent. There are URL entries exactly when the deal has images. The first entry is NULL exactly when the extension is, and otherwise ends with the extension. Without images the extension is `png`. |
| Generators.Take | generate_image.py:59-69 | A prefix of the requested length, or the whole list when it is shorter. |
| Generators.Bullets | generate_image.py:59-69 | One bullet per highlight. |
| Generators.HighlightLines | generate_image.py:59-69 | The formatted highlights are the bullets, one per line. |
| Generators.SelectImages | generate_image.py:135-141 | No images is an error. Otherwise the images used are the first ones in order: all of them when there are at most 16, and exactly 16 when there are more. |
| Generators.HeroUsesEveryImage | generate_image.py:40-47 | The query's limit of 10 means the cap of 16 never binds, and every fetched image is used. |
| Generators.ExistingPaths | generate_variant_from_files.py:28-35 | The kept paths are exactly those that exist, each as many times as it is given. |
| Generators.ExistingPathsConcat | generate_variant_from_files.py:28-35 | The filter keeps input order: the existing paths of two consecutive lists are those of the first list followed by those of the second. |
| Generators.ExistingPathsSingle | generate_variant_from_files.py:28-35 | A single path is kept exactly when it exists. |
| Generators.AllPathsExist | generate_variant_from_files.py:28-35 | When every path exists, every path is kept. |
| Generators.SelectPaths | generate_variant_from_files.py:28-39 | No existing path is an error. Otherwise the paths used are the first existing ones in order: all of them when there are at most 16, and exactly 16 when there are more. |
| Generators.SelectPathsAllPresent | generate_variant_from_files.py:28-39 | With at most 16 paths, all of them present, every path is used, in the given order. |
| Generators.OutputFileName | generate_image.py:126-133 | The name always has an extension. A given name with a dot is kept, and a given name without one gets the original extension. |
| Generators.OutputFileNameStable | generate_image.py:126-133 | A given name with a dot does not depend on the deal or the extension. |
| Generators.StripRightPrefix | simple_image_generator.py:80 | `rstrip` keeps a prefix that does not end in whitespace. |
| Generators.SafeSubject | simple_image_generator.py:80-81 | The safe subject holds only letters, digits, `-` and `_`, and is no longer than the subject. |
| Generators.SafeSubjectIdempotent | simple_image_generator.py:80-81 | Making a safe subject safe again changes nothing. |
| Generators.SafeSubjectIgnoresUnsafe | simple_image_generator.py:80-81 | A character other than a letter, digit, space, `-` or `_` does not affect the safe subject. |
| Generators.SafeSubjectIgnoresTrailingSpace | simple_image_generator.py:80-81 | A trailing space does not affect the safe subject. |
| Generators.VariantFileName | simple_image_generator.py:79-82 | A given name is kept. The default name is `variant_` plus the safe subject, with no space before the extension. The extension is `png` for the single-file generator and `jpg` for the multi-file one. |
| Generators.DefaultNamesCollide | generate_variant_from_files.py:83-86 | Whatever the extension, two different subjects, one ending in `!`, get the same default file name. |
| Generators.FirstImageFacts | simple_image_generator.py:12-52 | There is a URL entry exactly when the deal has an image, and then the image id is reported. The entry is NULL exactly when the extension is, and otherwise it is the image's public URL with that extension. Without images the extension is `png`. |
| Generators.FirstImageOfDeal | simple_image_generator.py:112-120 | The download fails exactly when the deal has no images, with the error naming the deal. Otherwise it fetches the image at the lowest position, with that image's extension. A NULL extension passes the guard, and the download gets no URL. |

## Left out

- Image pixels and resampling: variants are modelled by their size and by which canvas they are resized from. JPEG encoding, Lanczos filtering and the pasted pixels are not modelled.
- Geometry.Uncrop: aspect ratios are exact rationals, where the source compares floats with a `1e-6` tolerance and truncates a float quotient. For the catalogue's ratios the floor of the exact quotient is what the float computation intends.
- The network, the object-store client, the databases and the OpenAI image API are parameters. What a query or a sequence returns, which upload or copy fails, and whether a database statement fails are all inputs.
- Temporary files, downloads to disk, directory clean-up, logging and progress bars have no observable effect on the modelled state and are left out.
- Concurrency: the thread pools are modelled by an arbitrary completion order, given as the sequence of completions. Two replacements of the same deal running at once are not modelled.
- The status-table updates after a replacement (`update_redshift_status_single`, `update_redshift_status_batch`, replace_position_zero_variant.py:441-566) are reduced to a success flag, because they write to a table the rest of the core never reads.
- The CSV and Excel branches of `load_image_ids_from_file` rely on pandas type conversion and are not modelled. Only the `.txt` branch is.
- The staging CSV upload, the `COPY` into the status table and the list update of `process_approved_variants.py` are modelled only through their key and path formats (`ObjectKeys.CopyPathOfStagingUpload`, `ObjectKeys.ListEntryRoundTrip`).
- ApprovedVariants.LoadAndFilterApproved: the deal id column is taken to be present in every row. A blank `id` cell, which pandas would turn into a float, is not modelled.
- `ensure_schema` (flask_app/services/approval_store.py:36-47) creates the table. The model starts from a valid table instead.
- ApprovalStore.ListPending: only the listed rows are modelled, not the column projection. Rows with equal creation times are ordered by id.
- Reorder.Snapshot: the deal's active rows are kept in table order, where the query sorts them by position. The two passes give every row its own target whatever the order, so only the choice among rows sharing the replaced id could differ, and ids are unique.
- Prompt texts: the prose of the built-in fallback prompt and the file contents are opaque strings. Only the slot filling is modelled.
- Prompts.RandomSubjectDescription: the random choice is a parameter `pick`.
- Python's Unicode `isdigit`, `isalnum`, `lower` and `strip` are restricted to ASCII letters, digits and whitespace.
- Cost reporting in the generator scripts uses floating point and is left out.
- ApprovedVariants.CopyApprovedVariants: every copy is checked against the store as it was before the step. The source runs the copies concurrently, so a row whose source is another row's target could see that copy. This case is not modelled.
- Generators.DealSubject, Generators.OriginalExtension, Generators.FirstImageDealData and Generators.FirstImageUrl are the selections `get_deal_data` and `download_first_image_from_redshift` make. What they mean is stated by `Generators.HeroDealFacts`, `Generators.FirstImageFacts` and `Generators.FirstImageOfDeal`.
- Generators.OutputFileName: takes the extension as text. With a NULL extension the source formats `None` into the name (`generated_image_{deal}.None`), and this case is not modelled.
- Generators.HeroDealData: takes the highlights as text. A NULL highlight, which the source renders as the bullet `• None`, is not modelled.
- ApprovalStore.Valid: assumes that ids increase in insertion order. `IDENTITY(1,1)` promises distinct ids but not ordered ones. `ApprovalStore.ListPendingNewestFirst`'s decreasing ids rest on this assumption.
- Prompts.LoadPrompts carries no contract of its own. What it loads is stated by `Prompts.LoadStep`, `Prompts.LoadedKeys` and `Prompts.LoadedFromLastFile`.

## Findings

| source | as written | input that shows it | evidently intended | confidence | as-written member | corrected member |
|---|---|---|---|---|---|---|
| oracle_image_functions.py:291-299 (also process_approved_variants.py:123-133) | `replace('https://', '')` removes the scheme everywhere in the URL, not only at its start | `https://b/https://k` is read as bucket `b`, key `k` | remove only the leading scheme: key `https://k` | medium, not executed | ObjectKeys.RepeatedSchemeMisparsed | ObjectKeys.ParseUrl |
| oracle_image_functions.py:251-253 | a listed key is copied when it contains the original id's digits anywhere, and every occurrence is replaced, including in the deal folder | deal 512, image 5, new id 9: `images/deal/512/5.jpg` is copied to `images/deal/912/9.jpg` | match and rename only the file name inside the deal's folder | high, not executed | OracleImages.SharedDigitsLeaveDeal | OracleImages.SharedDigitsStayInDeal |
| generate_missing_variants.py:119-121, 261 | a blank cell makes pandas read the id column as floats, so `str(id)` renders `123.0` in the probed key | a CSV where one row's `image_id` is blank: image 123 is probed at `images/deal/{deal}/123.0.jpg` | cast the ids to integers after dropping blank rows | medium, not executed | MissingVariants.BlankCellMissesCatalogue | MissingVariants.IntegerIdsProbeCatalogue |
| flask_app/services/approval_store.py:52-56, 64-78 | `_s` clips values to the column width in characters, but `VARCHAR` widths count UTF-8 bytes | a vertical of 64 `é` is 128 bytes and exceeds `VARCHAR(64)` | clip to the column's width in bytes | medium, not executed | ApprovalStore.CharClipOverflows | ApprovalStore.Clip |

=== FILE: approval_store.dfy ===
/**
  The approval queue of the web front end: generated images are inserted as
  `pending` rows of the `image_to_approve` table, listed newest first, and
  marked approved or rejected by a reviewer. The table is a sequence of
  entries with an identity counter; the database's own checks (the NOT NULL
  deal id and the VARCHAR widths, which count UTF-8 bytes) are modelled by
  `Accepted`.
 */
module ApprovalStore {
  import opened Wrappers
  import opened Text

  // ---------------------------------------------------------------------------
  // Text widths
  // ---------------------------------------------------------------------------

  /** The number of bytes UTF-8 spends on one character. */
  function Utf8Width(c: char): (w: nat)
    ensures 1 <= w <= 4
    ensures w == 1 <==> (c as int) < 0x80
  {
    if (c as int) < 0x80 then 1 else if (c as int) < 0x800 then 2 else if (c as int) < 0x1_0000 then 3 else 4
  }

  /** The UTF-8 length of a text: what a VARCHAR width limits. */
  function ByteLen(s: string): (n: nat)
    ensures |s| <= n <= 4 * |s|
    decreases |s|
  {
    if |s| == 0 then 0 else Utf8Width(s[0]) + ByteLen(s[1..])
  }

  predicate IsAscii(s: string) {
    forall i :: 0 <= i < |s| ==> (s[i] as int) < 0x80
  }

  lemma {:induction false} AsciiByteLen(s: string)
    requires IsAscii(s)
    ensures ByteLen(s) == |s|
    decreases |s|
  {
    if |s| > 0 {
      assert IsAscii(s[1..]) by {
        forall i | 0 <= i < |s| - 1 ensures (s[1..][i] as int) < 0x80 {
          assert s[1..][i] == s[i + 1];
        }
      }
      AsciiByteLen(s[1..]);
    }
  }

  /** `_s` as written: `None` stays `None`, text keeps its first `maxlen` characters. */
  function ClipAsWritten(v: Option<string>, maxlen: nat): (r: Option<string>)
    ensures r.None? <==> v.None?
    ensures r.Some? ==> IsPrefix(r.value, v.value) && |r.value| <= maxlen
    ensures r.Some? && |v.value| <= maxlen ==> r == v
  {
    match v
    case None => None
    case Some(s) => if |s| <= maxlen then Some(s) else Some(s[..maxlen])
  }

  /** The longest prefix of `s` whose UTF-8 form fits in `budget` bytes. */
  function ClipBytes(s: string, budget: nat): (r: string)
    ensures IsPrefix(r, s)
    ensures ByteLen(r) <= budget
    ensures |r| < |s| ==> ByteLen(s[..|r| + 1]) > budget
    decreases |s|
  {
    if |s| == 0 || Utf8Width(s[0]) > budget then
      assert |s| > 0 ==> s[..1][1..] == [];
      ""
    else
      var rest := ClipBytes(s[1..], budget - Utf8Width(s[0]));
      var r := [s[0]] + rest;
      assert r[1..] == rest;
      assert |r| < |s| ==> s[..|r| + 1][1..] == s[1..][..|rest| + 1];
      r
  }

  /**
    `_s` with the width counted in bytes: `None` stays `None`, text keeps the
    longest prefix that fits the column.
   */
  function Clip(v: Option<string>, width: nat): (r: Option<string>)
    ensures r.None? <==> v.None?
    ensures r.Some? ==> IsPrefix(r.value, v.value) && ByteLen(r.value) <= width
    ensures r.Some? && ByteLen(v.value) <= width ==> r == v
  {
    match v
    case None => None
    case Some(s) =>
      var c := ClipBytes(s, width);
      assert ByteLen(s) <= width ==> c == s by {
        if ByteLen(s) <= width && |c| < |s| {
          ByteLenPrefix(s, |c| + 1);
        }
      }
      Some(c)
  }

  /** A prefix costs no more bytes than the whole. */
  lemma {:induction false} ByteLenPrefix(s: string, k: nat)
    requires k <= |s|
    ensures ByteLen(s[..k]) <= ByteLen(s)
    decreases k
  {
    if k > 0 {
      assert s[..k][1..] == s[1..][..k - 1];
      ByteLenPrefix(s[1..], k - 1);
    }
  }

  /** On ASCII text the two clips agree: the width is then a character count. */
  lemma ClipAgreesOnAscii(s: string, width: nat)
    requires IsAscii(s)
    ensures Clip(Some(s), width) == ClipAsWritten(Some(s), width)
  {
    var c := ClipBytes(s, width);
    var w := ClipAsWritten(Some(s), width).value;
    assert IsAscii(c) by {
      forall i | 0 <= i < |c| ensures (c[i] as int) < 0x80 { assert c[i] == s[i]; }
    }
    AsciiByteLen(c);
    if |c| < |s| {
      var d := s[..|c| + 1];
      assert IsAscii(d) by {
        forall i | 0 <= i < |d| ensures (d[i] as int) < 0x80 { assert d[i] == s[i]; }
      }
      AsciiByteLen(d);
    }
    assert c == s[..|c|];
  }

  /** `n` copies of the two-byte letter `é`. */
  function Accents(n: nat): (s: string)
    ensures |s| == n
    ensures forall i :: 0 <= i < n ==> s[i] == 'é'
  {
    seq(n, i => 'é')
  }

  lemma {:induction false} AccentsByteLen(n: nat)
    ensures ByteLen(Accents(n)) == 2 * n
    decreases n
  {
    if n > 0 {
      assert Accents(n)[1..] == Accents(n - 1);
      AccentsByteLen(n - 1);
    }
  }

  // ---------------------------------------------------------------------------
  // Inserting generated rows
  // ---------------------------------------------------------------------------

  const UrlWidth := 1024
  const PromptSourceWidth := 256
  const PromptWidth := 65535
  const TokenInfoWidth := 65535
  const VerticalWidth := 64
  const CategoryWidth := 256
  const SubCategoryWidth := 256
  const StatusWidth := 32
  const ReviewerWidth := 128
  const ReviewNotesWidth := 2048
  /** The status column's default, which every inserted row takes. */
  const Pending := "pending"

  /** A generated row as the generator hands it over; an absent key is `None`. */
  datatype GenerationRow = GenerationRow(
    id: Option<nat>, imageIdPos0: Option<nat>, imageUrlPos0: Option<string>, s3Url: Option<string>,
    promptSource: Option<string>, prompt: Option<string>, tokenInfo: Option<string>,
    vertical: Option<string>, categoryName: Option<string>, subCategoryName: Option<string>)

  /** The ten values of one INSERT, in column order. */
  datatype InsertValues = InsertValues(
    dealVoucherId: Option<nat>, imageIdPos0: Option<nat>, originalUrl: Option<string>, variantS3Url: Option<string>,
    promptSource: Option<string>, prompt: Option<string>, tokenInfo: Option<string>,
    vertical: Option<string>, categoryName: Option<string>, subCategoryName: Option<string>)

  predicate Fits(v: Option<string>, width: nat) {
    v.None? || ByteLen(v.value) <= width
  }

  /** The checks the table applies to one row: the NOT NULL deal id and every column width. */
  predicate Accepted(v: InsertValues) {
    && v.dealVoucherId.Some?
    && Fits(v.originalUrl, UrlWidth) && Fits(v.variantS3Url, UrlWidth)
    && Fits(v.promptSource, PromptSourceWidth) && Fits(v.prompt, PromptWidth) && Fits(v.tokenInfo, TokenInfoWidth)
    && Fits(v.vertical, VerticalWidth) && Fits(v.categoryName, CategoryWidth) && Fits(v.subCategoryName, SubCategoryWidth)
  }

  /** The values of one row, every text clipped to its column: the only row the table can refuse is one without a deal id. */
  function ValuesOf(r: GenerationRow): (v: InsertValues)
    ensures Accepted(v) <==> r.id.Some?
    ensures v.dealVoucherId == r.id && v.imageIdPos0 == r.imageIdPos0
  {
    InsertValues(r.id, r.imageIdPos0, Clip(r.imageUrlPos0, UrlWidth), Clip(r.s3Url, UrlWidth),
      Clip(r.promptSource, PromptSourceWidth), Clip(r.prompt, PromptWidth), Clip(r.tokenInfo, TokenInfoWidth),
      Clip(r.vertical, VerticalWidth), Clip(r.categoryName, CategoryWidth), Clip(r.subCategoryName, SubCategoryWidth))
  }

  /** The values as the insert builds them, clipped by characters. */
  function ValuesAsWritten(r: GenerationRow): InsertValues {
    InsertValues(r.id, r.imageIdPos0, ClipAsWritten(r.imageUrlPos0, UrlWidth), ClipAsWritten(r.s3Url, UrlWidth),
      ClipAsWritten(r.promptSource, PromptSourceWidth), ClipAsWritten(r.prompt, PromptWidth), ClipAsWritten(r.tokenInfo, TokenInfoWidth),
      ClipAsWritten(r.vertical, VerticalWidth), ClipAsWritten(r.categoryName, CategoryWidth), ClipAsWritten(r.subCategoryName, SubCategoryWidth))
  }

  /**
    The values an insert sends: clipped by characters as the source does
    (`asWritten`), or by bytes. Either way a row without a deal id is
    refused; only the byte clip makes every row with one acceptable.
   */
  function ValuesBy(r: GenerationRow, asWritten: bool): (v: InsertValues)
    ensures v.dealVoucherId == r.id && v.imageIdPos0 == r.imageIdPos0
    ensures Accepted(v) ==> r.id.Some?
    ensures !asWritten ==> (Accepted(v) <==> r.id.Some?)
  {
    if asWritten then ValuesAsWritten(r) else ValuesOf(r)
  }

  /**
    A vertical of 64 accented letters passes the character clip unchanged but
    needs 128 bytes, so the table refuses the row; byte clipping keeps 32 of
    the letters and the row goes in.
   */
  lemma CharClipOverflows(id: nat)
    ensures var r := GenerationRow(Some(id), None, None, None, None, None, None, Some(Accents(64)), None, None);
            && ValuesAsWritten(r).vertical == Some(Accents(64))
            && ByteLen(ValuesAsWritten(r).vertical.value) == 128
            && !Accepted(ValuesAsWritten(r))
            && Accepted(ValuesOf(r))
  {
    AccentsByteLen(64);
  }

  /** One table row; `createdTs` and `reviewedTs` are the database clock's readings. */
  datatype Entry = Entry(
    id: nat, values: InsertValues, status: string, reviewer: Option<string>, reviewNotes: Option<string>,
    createdTs: int, reviewedTs: Option<int>)

  /** The table and its identity counter. */
  datatype Table = Table(entries: seq<Entry>, nextId: nat)

  /** Identity values increase along the table and stay below the counter; creation times do not decrease. */
  predicate Valid(t: Table) {
    && (forall i :: 0 <= i < |t.entries| ==> t.entries[i].id < t.nextId)
    && (forall i, j :: 0 <= i < j < |t.entries| ==> t.entries[i].id < t.entries[j].id)
    && (forall i, j :: 0 <= i < j < |t.entries| ==> t.entries[i].createdTs <= t.entries[j].createdTs)
  }

  predicate NotBefore(t: Table, now: int) {
    forall i :: 0 <= i < |t.entries| ==> t.entries[i].createdTs <= now
  }

  /** The rows a statement inserts, numbered from the counter onwards. */
  function Append(t: Table, vs: seq<InsertValues>, now: int): (r: Table)
    ensures |r.entries| == |t.entries| + |vs| && r.entries[..|t.entries|] == t.entries
    ensures r.nextId == t.nextId + |vs|
    ensures forall i :: 0 <= i < |vs| ==> r.entries[|t.entries| + i] == Entry(t.nextId + i, vs[i], Pending, None, None, now, None)
    ensures Valid(t) && NotBefore(t, now) ==> Valid(r) && NotBefore(r, now)
    decreases |vs|
  {
    if |vs| == 0 then t
    else
      var r := Append(Table(t.entries + [Entry(t.nextId, vs[0], Pending, None, None, now, None)], t.nextId + 1), vs[1..], now);
      assert r.entries[..|t.entries|] == (t.entries + [Entry(t.nextId, vs[0], Pending, None, None, now, None)])[..|t.entries|];
      r
  }

  /** The values the table accepts, in order. */
  function AcceptedOnly(vs: seq<InsertValues>): (r: seq<InsertValues>)
    ensures forall v :: v in r <==> v in vs && Accepted(v)
    ensures |r| <= |vs|
    decreases |vs|
  {
    if |vs| == 0 then []
    else
      assert forall v :: v in vs <==> v == vs[0] || v in vs[1..];
      (if Accepted(vs[0]) then [vs[0]] else []) + AcceptedOnly(vs[1..])
  }

  /** Each accepted value is inserted as many times as it occurs in the batch, and no other value is. */
  lemma {:induction false} AcceptedOnlyCounts(vs: seq<InsertValues>)
    ensures forall v :: multiset(AcceptedOnly(vs))[v] == if Accepted(v) then multiset(vs)[v] else 0
    decreases |vs|
  {
    if |vs| != 0 {
      assert vs == [vs[0]] + vs[1..];
      AcceptedOnlyCounts(vs[1..]);
    }
  }

  /**
    The fallback loop inserts in row order: the accepted values of two parts
    of a batch are those of the first followed by those of the second.
   */
  lemma {:induction false} AcceptedOnlyConcat(a: seq<InsertValues>, b: seq<InsertValues>)
    ensures AcceptedOnly(a + b) == AcceptedOnly(a) + AcceptedOnly(b)
    decreases |a|
  {
    if |a| == 0 {
      assert a + b == b;
    } else {
      var ab := a + b;
      assert ab[0] == a[0] && ab[1..] == a[1..] + b;
      AcceptedOnlyConcat(a[1..], b);
      var h := if Accepted(a[0]) then [a[0]] else [];
      assert AcceptedOnly(ab) == h + (AcceptedOnly(a[1..]) + AcceptedOnly(b));
      ConcatAssoc(h, AcceptedOnly(a[1..]), AcceptedOnly(b));
    }
  }

  /** A single value is kept exactly when the table accepts it. */
  lemma AcceptedOnlySingle(x: InsertValues)
    ensures AcceptedOnly([x]) == if Accepted(x) then [x] else []
  {
    assert [x][1..] == [];
  }

  const BatchInsertError := "batch insert failed"

  function ValuesOfAll(rows: seq<GenerationRow>, asWritten: bool): (vs: seq<InsertValues>)
    ensures |vs| == |rows| && forall i :: 0 <= i < |rows| ==> vs[i] == ValuesBy(rows[i], asWritten)
    ensures forall i :: 0 <= i < |rows| ==> vs[i].dealVoucherId == rows[i].id && (Accepted(vs[i]) ==> rows[i].id.Some?)
  {
    seq(|rows|, i requires 0 <= i < |rows| => ValuesBy(rows[i], asWritten))
  }

  /**
    `insert_generation_rows`: nothing for no rows; otherwise one batch insert,
    which is all or nothing; when it fails, each row is inserted on its own,
    the refused ones are skipped, and only when none went in does the
    batch's error surface. With `asWritten` the values are clipped by
    characters, as the source does; otherwise by bytes.
   */
  function InsertGenerationRows(t: Table, rows: seq<GenerationRow>, now: int, asWritten: bool): (r: Result<Table>)
    ensures |rows| == 0 ==> r == Ok(t)
    ensures r.Err? <==> 0 < |rows| && forall i :: 0 <= i < |rows| ==> !Accepted(ValuesBy(rows[i], asWritten))
    ensures r.Err? ==> r.error == BatchInsertError
    ensures !asWritten ==> (r.Err? <==> 0 < |rows| && forall i :: 0 <= i < |rows| ==> rows[i].id.None?)
    ensures r.Ok? ==> r.value == Append(t, AcceptedOnly(ValuesOfAll(rows, asWritten)), now)
  {
    var vs := ValuesOfAll(rows, asWritten);
    if |rows| == 0 then Ok(t)
    else if forall i :: 0 <= i < |rows| ==> Accepted(vs[i]) then
      AllAcceptedKept(vs);
      Ok(Append(t, vs, now))
    else if AcceptedOnly(vs) == [] then
      assert forall i :: 0 <= i < |rows| ==> vs[i] in vs;
      Err(BatchInsertError)
    else
      assert AcceptedOnly(vs)[0] in AcceptedOnly(vs);
      Ok(Append(t, AcceptedOnly(vs), now))
  }

  /** Appended accepted values become pending rows with a deal id. */
  lemma AppendedArePending(t: Table, vs: seq<InsertValues>, now: int)
    requires forall v :: v in vs ==> Accepted(v)
    ensures var u := Append(t, vs, now);
            forall i :: |t.entries| <= i < |u.entries| ==> u.entries[i].status == Pending && u.entries[i].values.dealVoucherId.Some?
  {
    var u := Append(t, vs, now);
    forall i | |t.entries| <= i < |u.entries| ensures u.entries[i].status == Pending && u.entries[i].values.dealVoucherId.Some? {
      var k := i - |t.entries|;
      assert u.entries[|t.entries| + k] == Entry(t.nextId + k, vs[k], Pending, None, None, now, None);
      assert vs[k] in vs;
    }
  }

  /** The inserted rows are pending rows with a deal id, after the rows already there. */
  lemma InsertedRowsArePending(t: Table, rows: seq<GenerationRow>, now: int, asWritten: bool)
    requires InsertGenerationRows(t, rows, now, asWritten).Ok?
    ensures InsertGenerationRows(t, rows, now, asWritten).value.entries[..|t.entries|] == t.entries
    ensures var u := InsertGenerationRows(t, rows, now, asWritten).value;
            forall i :: |t.entries| <= i < |u.entries| ==> u.entries[i].status == Pending && u.entries[i].values.dealVoucherId.Some?
  {
    var a := AcceptedOnly(ValuesOfAll(rows, asWritten));
    assert InsertGenerationRows(t, rows, now, asWritten).value == Append(t, a, now);
    AppendedArePending(t, a, now);
  }

  /** A row's values go in exactly when the table accepts them. */
  lemma RowInsertedIffAccepted(t: Table, rows: seq<GenerationRow>, now: int, i: nat, asWritten: bool)
    requires InsertGenerationRows(t, rows, now, asWritten).Ok?
    requires i < |rows|
    ensures var u := InsertGenerationRows(t, rows, now, asWritten).value;
            (exists j :: |t.entries| <= j < |u.entries| && u.entries[j].values == ValuesBy(rows[i], asWritten))
            <==> Accepted(ValuesBy(rows[i], asWritten))
  {
    var vs := ValuesOfAll(rows, asWritten);
    assert InsertGenerationRows(t, rows, now, asWritten).value == Append(t, AcceptedOnly(vs), now);
    assert vs[i] in vs;
    AppendedIffAccepted(t, vs, now, vs[i]);
  }

  /** Appending the accepted values of `vs`: a value of `vs` is among the new rows exactly when it is accepted. */
  lemma AppendedIffAccepted(t: Table, vs: seq<InsertValues>, now: int, v: InsertValues)
    requires v in vs
    ensures var u := Append(t, AcceptedOnly(vs), now);
            (exists j :: |t.entries| <= j < |u.entries| && u.entries[j].values == v) <==> Accepted(v)
  {
    var a := AcceptedOnly(vs);
    var u := Append(t, a, now);
    if Accepted(v) {
      var k :| 0 <= k < |a| && a[k] == v;
      assert u.entries[|t.entries| + k].values == a[k];
    }
    if exists j :: |t.entries| <= j < |u.entries| && u.entries[j].values == v {
      var j :| |t.entries| <= j < |u.entries| && u.entries[j].values == v;
      assert u.entries[|t.entries| + (j - |t.entries|)].values == a[j - |t.entries|];
      assert a[j - |t.entries|] in a;
    }
  }

  /** With the values clipped by bytes, every row with a deal id goes in. */
  lemma IdentifiedRowsInserted(t: Table, rows: seq<GenerationRow>, now: int, i: nat)
    requires i < |rows| && rows[i].id.Some?
    ensures InsertGenerationRows(t, rows, now, false).Ok?
    ensures var u := InsertGenerationRows(t, rows, now, false).value;
            exists j :: |t.entries| <= j < |u.entries| && u.entries[j].values == ValuesOf(rows[i])
  {
    RowInsertedIffAccepted(t, rows, now, i, false);
  }

  /** A row with a deal id and a vertical of `n` accented letters. */
  function AccentedRow(id: nat, n: nat): GenerationRow {
    GenerationRow(Some(id), None, None, None, None, None, None, Some(Accents(n)), None, None)
  }

  /**
    As written, a single row with a deal id and a vertical of 64 `é` is
    refused by the batch and by the retry, so the insert raises; clipped by
    bytes, the same row goes in.
   */
  lemma AccentedVerticalRaises(t: Table, id: nat, now: int)
    ensures InsertGenerationRows(t, [AccentedRow(id, 64)], now, true) == Err(BatchInsertError)
    ensures InsertGenerationRows(t, [AccentedRow(id, 64)], now, false).Ok?
  {
    CharClipOverflows(id);
    assert AccentedRow(id, 64) == GenerationRow(Some(id), None, None, None, None, None, None, Some(Accents(64)), None, None);
    SingleRowInsert(t, AccentedRow(id, 64), now, true);
    SingleRowInsert(t, AccentedRow(id, 64), now, false);
  }

  /** A single row raises exactly when the table refuses its values. */
  lemma SingleRowInsert(t: Table, r: GenerationRow, now: int, asWritten: bool)
    ensures InsertGenerationRows(t, [r], now, asWritten).Err? <==> !Accepted(ValuesBy(r, asWritten))
    ensures InsertGenerationRows(t, [r], now, asWritten).Err? ==> InsertGenerationRows(t, [r], now, asWritten) == Err(BatchInsertError)
  {
    assert [r][0] == r;
  }

  /** The batch path and the row-by-row path agree when every row is accepted. */
  lemma {:induction false} AllAcceptedKept(vs: seq<InsertValues>)
    requires forall i :: 0 <= i < |vs| ==> Accepted(vs[i])
    ensures AcceptedOnly(vs) == vs
    decreases |vs|
  {
    if |vs| > 0 {
      AllAcceptedKept(vs[1..]);
      assert [vs[0]] + vs[1..] == vs;
    }
  }

  // ---------------------------------------------------------------------------
  // Listing and reviewing
  // ---------------------------------------------------------------------------

  function PendingEntries(es: seq<Entry>): (r: seq<Entry>)
    ensures forall e :: e in r <==> e in es && e.status == Pending
    decreases |es|
  {
    if |es| == 0 then []
    else
      assert forall e :: e in es <==> e == es[0] || e in es[1..];
      (if es[0].status == Pending then [es[0]] else []) + PendingEntries(es[1..])
  }

  function Reverse<T>(s: seq<T>): (r: seq<T>)
    ensures |r| == |s| && forall i :: 0 <= i < |s| ==> r[i] == s[|s| - 1 - i]
  {
    seq(|s|, i requires 0 <= i < |s| => s[|s| - 1 - i])
  }

  /**
    `list_pending`: one page (`LIMIT limit OFFSET offset`) of the pending
    rows, newest first; rows created at the same instant come newest
    inserted first.
   */
  function ListPending(t: Table, limit: nat, offset: nat): (r: seq<Entry>)
    ensures var p := PendingEntries(t.entries);
            |r| == if offset >= |p| then 0 else if limit < |p| - offset then limit else |p| - offset
    ensures forall i :: 0 <= i < |r| ==> r[i] in t.entries && r[i].status == Pending
    ensures forall i :: 0 <= i < |r| ==> r[i] == Reverse(PendingEntries(t.entries))[offset + i]
  {
    var p := Reverse(PendingEntries(t.entries));
    if offset >= |p| then [] else if limit < |p| - offset then p[offset..offset + limit] else p[offset..]
  }

  /** Identity values increase and creation times do not decrease along `es`. */
  predicate Ordered(es: seq<Entry>) {
    forall i, j :: 0 <= i < j < |es| ==> es[i].id < es[j].id && es[i].createdTs <= es[j].createdTs
  }

  lemma OrderedTail(es: seq<Entry>)
    requires Ordered(es) && 0 < |es|
    ensures Ordered(es[1..])
    ensures forall e :: e in es[1..] ==> es[0].id < e.id && es[0].createdTs <= e.createdTs
  {
    forall i, j | 0 <= i < j < |es| - 1 ensures es[1..][i].id < es[1..][j].id && es[1..][i].createdTs <= es[1..][j].createdTs {
      assert es[1..][i] == es[i + 1] && es[1..][j] == es[j + 1];
    }
    forall e | e in es[1..] ensures es[0].id < e.id && es[0].createdTs <= e.createdTs {
      var k :| 0 <= k < |es[1..]| && es[1..][k] == e;
      assert es[k + 1] == e;
    }
  }

  lemma OrderedCons(x: Entry, rest: seq<Entry>)
    requires Ordered(rest)
    requires forall e :: e in rest ==> x.id < e.id && x.createdTs <= e.createdTs
    ensures Ordered([x] + rest)
  {
    var p := [x] + rest;
    forall i, j | 0 <= i < j < |p| ensures p[i].id < p[j].id && p[i].createdTs <= p[j].createdTs {
      assert p[j] == rest[j - 1];
      if i == 0 {
        assert p[j] in rest;
      } else {
        assert p[i] == rest[i - 1];
      }
    }
  }

  /** The pending rows keep the table's order. */
  lemma {:induction false} PendingKeepsOrder(es: seq<Entry>)
    requires Ordered(es)
    ensures Ordered(PendingEntries(es))
    decreases |es|
  {
    if |es| > 0 {
      OrderedTail(es);
      PendingKeepsOrder(es[1..]);
      var rest := PendingEntries(es[1..]);
      if es[0].status == Pending {
        OrderedCons(es[0], rest);
      } else {
        assert PendingEntries(es) == [] + rest;
      }
    }
  }

  /** A page of a valid table is ordered newest first, without repeats. */
  lemma ListPendingNewestFirst(t: Table, limit: nat, offset: nat)
    requires Valid(t)
    ensures var r := ListPending(t, limit, offset);
            forall i, j :: 0 <= i < j < |r| ==> r[i].createdTs >= r[j].createdTs && r[i].id > r[j].id
  {
    var p := PendingEntries(t.entries);
    PendingKeepsOrder(t.entries);
    var r := ListPending(t, limit, offset);
    forall i, j | 0 <= i < j < |r| ensures r[i].createdTs >= r[j].createdTs && r[i].id > r[j].id {
      assert r[i] == p[|p| - 1 - (offset + i)];
      assert r[j] == p[|p| - 1 - (offset + j)];
    }
  }

  /** Every pending row appears on the page that starts at its position. */
  lemma EveryPendingRowListed(t: Table, e: Entry)
    requires e in t.entries && e.status == Pending
    ensures exists offset: nat :: offset < |PendingEntries(t.entries)| && ListPending(t, 1, offset) == [e]
  {
    var p := PendingEntries(t.entries);
    var k :| 0 <= k < |p| && p[k] == e;
    var offset := |p| - 1 - k;
    assert Reverse(p)[offset] == e;
    assert ListPending(t, 1, offset) == [e];
  }

  /** The value too long for its column, if any, among the review's three. */
  predicate ReviewFits(status: string, reviewer: string, notes: string) {
    ByteLen(status) <= StatusWidth && ByteLen(reviewer) <= ReviewerWidth && ByteLen(notes) <= ReviewNotesWidth
  }

  const ValueTooLongError := "value too long for type character varying"

  /**
    `update_review`: the row with the given id takes the status, reviewer,
    notes and review time; an unknown id changes nothing; a value wider than
    its column makes the statement fail.
   */
  function UpdateReview(t: Table, itemId: nat, status: string, reviewer: string, notes: string, now: int): (r: Result<Table>)
    ensures r.Err? <==> !ReviewFits(status, reviewer, notes)
    ensures r.Ok? ==> && r.value.nextId == t.nextId && |r.value.entries| == |t.entries|
                      && forall i :: 0 <= i < |t.entries| ==>
                           var e := t.entries[i];
                           r.value.entries[i] == if e.id == itemId then e.(status := status, reviewer := Some(reviewer), reviewNotes := Some(notes), reviewedTs := Some(now)) else e
  {
    if !ReviewFits(status, reviewer, notes) then Err(ValueTooLongError)
    else Ok(Table(seq(|t.entries|, i requires 0 <= i < |t.entries| =>
      var e := t.entries[i];
      if e.id == itemId then e.(status := status, reviewer := Some(reviewer), reviewNotes := Some(notes), reviewedTs := Some(now)) else e), t.nextId))
  }

  /** Reviewing keeps the table valid. */
  lemma UpdateKeepsValid(t: Table, itemId: nat, status: string, reviewer: string, notes: string, now: int)
    requires Valid(t) && UpdateReview(t, itemId, status, reviewer, notes, now).Ok?
    ensures Valid(UpdateReview(t, itemId, status, reviewer, notes, now).value)
  {
  }

  /** An approved or rejected row leaves the pending list; the other pending rows stay. */
  lemma ReviewedLeavesPending(t: Table, itemId: nat, status: string, reviewer: string, notes: string, now: int)
    requires status != Pending && UpdateReview(t, itemId, status, reviewer, notes, now).Ok?
    ensures var u := UpdateReview(t, itemId, status, reviewer, notes, now).value;
            forall e :: e in PendingEntries(u.entries) <==> e in PendingEntries(t.entries) && e.id != itemId
  {
    var u := UpdateReview(t, itemId, status, reviewer, notes, now).value;
    forall e ensures e in u.entries && e.status == Pending <==> e in t.entries && e.status == Pending && e.id != itemId {
      if e in u.entries && e.status == Pending {
        var i :| 0 <= i < |u.entries| && u.entries[i] == e;
        assert t.entries[i].id != itemId;
      }
      if e in t.entries && e.status == Pending && e.id != itemId {
        var i :| 0 <= i < |t.entries| && t.entries[i] == e;
        assert u.entries[i] == e;
      }
    }
  }
}

=== FILE: approved_variants.dfy ===
/**
  The promotion of reviewed AI images: keep the approved rows of the review
  export, turn each into a status row with the variant id `image_id * 100000`,
  and copy each approved image inside the store to
  `images/deal/{deal}/{variant_id}.jpg`, counting the copies made. The object
  store is a set of (bucket, key) locations, as in the copy step of the Oracle
  helpers.
 */
module ApprovedVariants {
  import opened Wrappers
  import opened Text
  import opened ObjectKeys

  // ---------------------------------------------------------------------------
  // load_and_filter_approved_images
  // ---------------------------------------------------------------------------

  /** One row of the review export; a blank cell is `None`. */
  datatype ReviewRow = ReviewRow(
    id: nat, reviewResult: Option<string>, imageIdPos0: Option<nat>, s3Url: Option<string>, imageUrlPos0: Option<string>)

  const RequiredColumns: seq<string> := ["id", "image_id_pos_0", "s3_url", "image_url_pos_0"]

  /** The approved rows, in file order. */
  function Approved(rows: seq<ReviewRow>): (r: seq<ReviewRow>)
    ensures forall x :: x in r <==> x in rows && x.reviewResult == Some("approved")
    ensures forall x :: multiset(r)[x] == if x.reviewResult == Some("approved") then multiset(rows)[x] else 0
    ensures |r| <= |rows|
    decreases |rows|
  {
    if |rows| == 0 then []
    else
      assert rows == [rows[0]] + rows[1..];
      assert forall x :: x in rows <==> x == rows[0] || x in rows[1..];
      (if rows[0].reviewResult == Some("approved") then [rows[0]] else []) + Approved(rows[1..])
  }

  /**
    The mask keeps file order: filtering two parts of an export one after the
    other gives the approved rows of the first followed by those of the second.
   */
  lemma {:induction false} ApprovedConcat(a: seq<ReviewRow>, b: seq<ReviewRow>)
    ensures Approved(a + b) == Approved(a) + Approved(b)
    decreases |a|
  {
    if |a| == 0 {
      assert a + b == b;
    } else {
      var ab := a + b;
      assert ab[0] == a[0] && ab[1..] == a[1..] + b;
      ApprovedConcat(a[1..], b);
      var h := if a[0].reviewResult == Some("approved") then [a[0]] else [];
      assert Approved(ab) == h + (Approved(a[1..]) + Approved(b));
      ConcatAssoc(h, Approved(a[1..]), Approved(b));
    }
  }

  /** A single row is kept exactly when it is approved. */
  lemma ApprovedSingle(x: ReviewRow)
    ensures Approved([x]) == if x.reviewResult == Some("approved") then [x] else []
  {
    assert [x][1..] == [];
  }

  /**
    `load_and_filter_approved_images`: `None` when the export has no
    `review_result` column or lacks a required column (the error is caught and
    reported), otherwise the approved rows.
   */
  function LoadAndFilterApproved(columns: seq<string>, rows: seq<ReviewRow>): (r: Option<seq<ReviewRow>>)
    ensures r.None? <==> "review_result" !in columns || exists c :: c in RequiredColumns && c !in columns
    ensures r.Some? ==> r.value == Approved(rows)
  {
    if "review_result" !in columns then None
    else if exists c :: c in RequiredColumns && c !in columns then None
    else Some(Approved(rows))
  }

  /** Filtering twice keeps the same rows: the approved rows are all approved. */
  lemma {:induction false} ApprovedIdempotent(rows: seq<ReviewRow>)
    ensures Approved(Approved(rows)) == Approved(rows)
    decreases |rows|
  {
    if |rows| > 0 {
      ApprovedIdempotent(rows[1..]);
      var rest := Approved(rows[1..]);
      if rows[0].reviewResult == Some("approved") {
        assert ([rows[0]] + rest)[1..] == rest;
      } else {
        assert ([] + rest) == rest;
      }
    }
  }

  // ---------------------------------------------------------------------------
  // prepare_for_redshift
  // ---------------------------------------------------------------------------

  const BatchName := "OPEN AI Images"
  const ListName := "imgv_list_wow_uk"
  /** A status row enters the test as status 1 (active). */
  const EnteredStatus := 1
  /** The error `astype(int)` raises on a blank image id. */
  const IntCastError := "Cannot convert non-finite values (NA or inf) to integer"

  /** One status row, with the two URLs kept alongside for the copy step. */
  datatype StatusRow = StatusRow(
    dealVoucherId: nat, claidPrompt: string, status: int, originalImageId: nat, variantImageId: nat,
    batchName: string, enterTestTs: string, exitTestTs: Option<string>, listName: string,
    s3Url: Option<string>, originalUrl: Option<string>)

  function StatusRowOf(row: ReviewRow, imageId: nat, now: string): StatusRow {
    StatusRow(row.id, "", EnteredStatus, imageId, imageId * 100000, BatchName, now, None, ListName, row.s3Url, row.imageUrlPos0)
  }

  /**
    `prepare_for_redshift`: one status row per input row, all stamped `now`;
    a blank image id makes the integer cast raise.
   */
  function PrepareForRedshift(rows: seq<ReviewRow>, now: string): (r: Result<seq<StatusRow>>)
    ensures r.Err? <==> exists i :: 0 <= i < |rows| && rows[i].imageIdPos0.None?
    ensures r.Err? ==> r.error == IntCastError
    ensures r.Ok? ==> |r.value| == |rows| && forall i :: 0 <= i < |rows| ==>
      var s := r.value[i];
      && s.dealVoucherId == rows[i].id && s.originalImageId == rows[i].imageIdPos0.value
      && s.variantImageId == 100000 * rows[i].imageIdPos0.value
      && s.status == EnteredStatus && s.claidPrompt == "" && s.batchName == BatchName && s.listName == ListName
      && s.enterTestTs == now && s.exitTestTs.None? && s.s3Url == rows[i].s3Url && s.originalUrl == rows[i].imageUrlPos0
  {
    if exists i :: 0 <= i < |rows| && rows[i].imageIdPos0.None? then Err(IntCastError)
    else Ok(seq(|rows|, i requires 0 <= i < |rows| => StatusRowOf(rows[i], rows[i].imageIdPos0.value, now)))
  }

  /**
    The variant id renders as the original id followed by five zeros, so the
    object written by the copy is the AI candidate the replacement job fetches.
   */
  lemma VariantKeyIsCandidate(s: StatusRow)
    requires s.originalImageId > 0 && s.variantImageId == s.originalImageId * 100000
    ensures Decimal(s.variantImageId) == Decimal(s.originalImageId) + "00000"
    ensures VariantKey(s.dealVoucherId, s.variantImageId, "") == CandidateKey(s.dealVoucherId, s.originalImageId)
  {
    DecimalTimes100000(s.originalImageId);
    CandidateKeyIsScaledId(s.dealVoucherId, s.originalImageId);
  }

  // ---------------------------------------------------------------------------
  // process_single_image and copy_approved_variants_to_s3
  // ---------------------------------------------------------------------------

  /** `(index, final_url, status)`: `status` is `None` for a skipped row, `false` for a failed copy. */
  datatype CopyOutcome = CopyOutcome(index: nat, finalUrl: Option<string>, status: Option<bool>)

  /**
    `process_single_image`: a row without an image URL or with an unsupported
    scheme is skipped; a URL that does not split or a source that is not in
    the store makes the copy raise, and so does a `copy_object` that raises
    for any other reason (`copyFault`: access denied, throttling, the network);
    otherwise the object is copied to `images/deal/{deal}/{variant_id}.jpg` in
    `bucket`. The URL is parsed with the query kept in the key, as the source
    does (`asWritten`) or with the corrected parse.
   */
  function CopyOne(index: nat, row: StatusRow, store: set<Location>, bucket: string, copyFault: bool, asWritten: bool)
    : (r: (CopyOutcome, set<Location>))
    ensures r.0.index == index
    ensures r.0.finalUrl.Some? <==> row.s3Url.Some? && ParseUrlBy(row.s3Url.value, false, asWritten).Some?
                                    && ParseUrlBy(row.s3Url.value, false, asWritten).value in store && !copyFault
    ensures r.0.finalUrl.Some? ==> && r.0.finalUrl == Some(HttpsUrl(bucket, VariantKey(row.dealVoucherId, row.variantImageId, "")))
                                   && r.0.status == Some(true)
                                   && r.1 == store + {Location(bucket, VariantKey(row.dealVoucherId, row.variantImageId, ""))}
    ensures r.0.finalUrl.None? ==> r.1 == store
    ensures r.0.status.None? <==> row.s3Url.None? || (!IsPrefix(Https, row.s3Url.value) && !IsPrefix(S3Scheme, row.s3Url.value))
  {
    match row.s3Url
    case None => (CopyOutcome(index, None, None), store)
    case Some(url) =>
      if !IsPrefix(Https, url) && !IsPrefix(S3Scheme, url) then (CopyOutcome(index, None, None), store)
      else
        match ParseUrlBy(url, false, asWritten)
        case None => (CopyOutcome(index, None, Some(false)), store)
        case Some(src) =>
          if src !in store || copyFault then (CopyOutcome(index, None, Some(false)), store)
          else
            var key := VariantKey(row.dealVoucherId, row.variantImageId, "");
            (CopyOutcome(index, Some(HttpsUrl(bucket, key)), Some(true)), store + {Location(bucket, key)})
  }

  /**
    A presigned URL's query stays in the source key, so the copy reads an
    object that does not exist. This holds for both parses when the scheme
    text does not recur in the URL.
   */
  lemma QueryInUrlFailsCopy(row: StatusRow, store: set<Location>, bucket: string, srcBucket: string, key: string, query: string,
                            copyFault: bool, asWritten: bool)
    requires '/' !in srcBucket && !Contains(srcBucket + "/" + key + "?" + query, HostSuffix)
    requires !Contains(srcBucket + "/" + key + "?" + query, Https)
    requires row.s3Url == Some(HttpsUrl(srcBucket, key) + "?" + query)
    requires Location(srcBucket, key + "?" + query) !in store
    ensures CopyOne(0, row, store, bucket, copyFault, asWritten).0 == CopyOutcome(0, None, Some(false))
  {
    QueryKeptByBoth(srcBucket, key, query, asWritten);
  }

  /**
    A variant URL whose key itself starts with `https://`: as written the copy
    reads object `k` of bucket `b` and succeeds when only that object exists;
    the corrected parse reads `https://k`, which is missing, and the copy fails.
   */
  lemma NestedSchemeCopy(row: StatusRow, store: set<Location>, bucket: string, copyFault: bool)
    requires row.s3Url == Some(HttpsUrl("b", Https + "k")) && store == {Location("b", "k")}
    ensures CopyOne(0, row, store, bucket, false, true).0.finalUrl.Some?
    ensures CopyOne(0, row, store, bucket, copyFault, false).0 == CopyOutcome(0, None, Some(false))
  {
    RepeatedSchemeExample(false);
    assert |Https + "k"| != |"k"|;
    assert IsPrefix(Https, HttpsUrl("b", Https + "k"));
  }

  function CountCopied(outcomes: seq<CopyOutcome>): nat
    decreases |outcomes|
  {
    if |outcomes| == 0 then 0
    else CountCopied(outcomes[..|outcomes| - 1]) + (if outcomes[|outcomes| - 1].finalUrl.Some? then 1 else 0)
  }

  lemma CountCopiedSnoc(outcomes: seq<CopyOutcome>, i: nat)
    requires i < |outcomes|
    ensures CountCopied(outcomes[..i + 1]) == CountCopied(outcomes[..i]) + (if outcomes[i].finalUrl.Some? then 1 else 0)
  {
    assert outcomes[..i + 1][..i] == outcomes[..i];
  }

  /** The summary of the copy step: the URL and status columns, and the number of copies. */
  datatype CopySummary = CopySummary(finalUrls: seq<Option<string>>, processed: seq<bool>, successCount: nat, store: set<Location>)

  /**
    `copy_approved_variants_to_s3`: every row is processed once; a row gets a
    URL and the `true` status exactly when its copy succeeded, and
    `success_count` counts those rows. The store gains exactly the variant
    keys of the rows whose copy succeeded. `copyFaults` holds the indexes of
    the rows whose `copy_object` raises. The rows touch distinct indexes, so
    the order in which the copies complete does not change the columns.
   */
  method CopyApprovedVariants(rows: seq<StatusRow>, store: set<Location>, bucket: string, copyFaults: set<nat>, asWritten: bool)
    returns (s: CopySummary)
    ensures |s.finalUrls| == |s.processed| == |rows|
    ensures forall i :: 0 <= i < |rows| ==>
      var o := CopyOne(i, rows[i], store, bucket, i in copyFaults, asWritten).0;
      && s.finalUrls[i] == o.finalUrl && (s.processed[i] <==> o.finalUrl.Some?)
    ensures s.successCount == CountCopied(seq(|rows|, i requires 0 <= i < |rows| => CopyOne(i, rows[i], store, bucket, i in copyFaults, asWritten).0))
    ensures s.successCount <= |rows|
    ensures store <= s.store
    ensures forall i :: 0 <= i < |rows| && s.processed[i] ==>
      Location(bucket, VariantKey(rows[i].dealVoucherId, rows[i].variantImageId, "")) in s.store
    ensures forall l :: l in s.store - store ==>
      exists i :: 0 <= i < |rows| && s.processed[i] && l == Location(bucket, VariantKey(rows[i].dealVoucherId, rows[i].variantImageId, ""))
  {
    var outcomes := seq(|rows|, i requires 0 <= i < |rows| => CopyOne(i, rows[i], store, bucket, i in copyFaults, asWritten).0);
    var targets := seq(|rows|, i requires 0 <= i < |rows| => Location(bucket, VariantKey(rows[i].dealVoucherId, rows[i].variantImageId, "")));
    s := Collect(outcomes, targets, store);
  }

  /**
    The bookkeeping of the copy step over outcomes already computed: the
    columns follow the outcomes index by index, the count is the number of
    successes, and the store gains exactly the targets of the successes.
   */
  method Collect(outcomes: seq<CopyOutcome>, targets: seq<Location>, store: set<Location>) returns (s: CopySummary)
    requires |targets| == |outcomes|
    ensures |s.finalUrls| == |s.processed| == |outcomes|
    ensures forall i :: 0 <= i < |outcomes| ==> s.finalUrls[i] == outcomes[i].finalUrl && (s.processed[i] <==> outcomes[i].finalUrl.Some?)
    ensures s.successCount == CountCopied(outcomes) && s.successCount <= |outcomes|
    ensures store <= s.store
    ensures forall i :: 0 <= i < |outcomes| && outcomes[i].finalUrl.Some? ==> targets[i] in s.store
    ensures forall l :: l in s.store - store ==> exists i :: 0 <= i < |outcomes| && outcomes[i].finalUrl.Some? && l == targets[i]
  {
    var urls: seq<Option<string>> := [];
    var processed: seq<bool> := [];
    var count := 0;
    var current := store;
    for i := 0 to |outcomes|
      invariant |urls| == |processed| == i
      invariant forall j :: 0 <= j < i ==> urls[j] == outcomes[j].finalUrl && (processed[j] <==> outcomes[j].finalUrl.Some?)
      invariant count == CountCopied(outcomes[..i]) && count <= i
      invariant store <= current
      invariant forall j :: 0 <= j < i && outcomes[j].finalUrl.Some? ==> targets[j] in current
      invariant forall l :: l in current - store ==> exists j :: 0 <= j < i && outcomes[j].finalUrl.Some? && l == targets[j]
    {
      var o := outcomes[i];
      CountCopiedSnoc(outcomes, i);
      urls := urls + [o.finalUrl];
      processed := processed + [o.finalUrl.Some?];
      if o.finalUrl.Some? {
        count := count + 1;
        forall l | l in current + {targets[i]} - store
          ensures exists j :: 0 <= j < i + 1 && outcomes[j].finalUrl.Some? && l == targets[j]
        {
          if l == targets[i] {
            assert 0 <= i < i + 1 && outcomes[i].finalUrl.Some? && l == targets[i];
          } else {
            assert l in current - store;
            var j :| 0 <= j < i && outcomes[j].finalUrl.Some? && l == targets[j];
            assert 0 <= j < i + 1 && outcomes[j].finalUrl.Some? && l == targets[j];
          }
        }
        current := current + {targets[i]};
      }
    }
    assert outcomes[..|outcomes|] == outcomes;
    s := CopySummary(urls, processed, count, current);
  }
}

=== FILE: generators.dfy ===
/**
  The argument and file-name helpers of the three image-generator scripts:
  the deal facts they read (subject, image URLs, extension), the highlight
  bullets, the selection of at most 16 source images, and the output file
  names. The database rows and the file system's answers are parameters; the
  calls to the image API are not modelled.
 */
module Generators {
  import opened Wrappers
  import opened Text

  // ---------------------------------------------------------------------------
  // Deal facts
  // ---------------------------------------------------------------------------

  const DefaultSubject := "Deal"
  const DefaultExtension := "png"
  const StaticImageBase := "https://static.wowcher.co.uk/images/deal/"
  /** The image query of the hero generator returns at most this many rows. */
  const HeroImageLimit := 10
  /** The image API takes at most this many source images. */
  const MaxSourceImages := 16

  /**
    The subject read for a deal: `fetched` is `None` when the deal row is
    absent, and `Some(v)` carries the column, itself `None` when it is NULL.
   */
  function DealSubject(fetched: Option<Option<string>>): Option<string> {
    match fetched
    case None => Some(DefaultSubject)
    case Some(v) => v
  }

  /** One row of a deal's image query, in position order; `extension` is `None` when the column is NULL. */
  datatype ImageRow = ImageRow(dealId: nat, imageId: nat, extension: Option<string>)

  /**
    The URL the query builds for an image row with SQL's `||`, which yields
    NULL when any operand is NULL: no URL for a NULL extension.
   */
  function ImageUrl(row: ImageRow): Option<string> {
    match row.extension
    case None => None
    case Some(ext) => Some(StaticImageBase + Decimal(row.dealId) + "/" + Decimal(row.imageId) + "." + ext)
  }

  /** The extension of the first image, or `png` for a deal without images. */
  function OriginalExtension(rows: seq<ImageRow>): Option<string> {
    if |rows| == 0 then Some(DefaultExtension) else rows[0].extension
  }

  /** The facts `get_deal_data` returns, without the prompt prose. */
  datatype DealData = DealData(emailSubject: Option<string>, imageUrls: seq<Option<string>>, originalExtension: Option<string>,
                               highlights: string)

  /**
    `get_deal_data` of the hero generator: the first ten images by
    position, the subject (defaulting to `Deal`), the first image's
    extension, and up to three highlights as bullets. `rows` is the deal's
    image rows in position order, `highlightRows` the highlight rows.
   */
  function HeroDealData(fetched: Option<Option<string>>, rows: seq<ImageRow>, highlightRows: seq<string>): (d: DealData)
    ensures |d.imageUrls| <= HeroImageLimit
    ensures |d.imageUrls| == if |rows| < HeroImageLimit then |rows| else HeroImageLimit
    ensures forall i :: 0 <= i < |d.imageUrls| ==> d.imageUrls[i] == ImageUrl(rows[i])
    ensures d.originalExtension == OriginalExtension(rows)
    ensures d.emailSubject == DealSubject(fetched)
    ensures d.highlights == FormatHighlights(Take(highlightRows, 3))
  {
    var limited := Take(rows, HeroImageLimit);
    DealData(DealSubject(fetched), seq(|limited|, i requires 0 <= i < |limited| => ImageUrl(limited[i])),
      OriginalExtension(rows), FormatHighlights(Take(highlightRows, 3)))
  }

  /** SQL's `LIMIT n` and Python's `xs[:n]`. */
  function Take<T(==)>(xs: seq<T>, n: nat): (r: seq<T>)
    ensures |r| == if |xs| < n then |xs| else n
    ensures r == xs[..|r|]
  {
    if |xs| < n then xs else xs[..n]
  }

  // ---------------------------------------------------------------------------
  // Highlights
  // ---------------------------------------------------------------------------

  function Bullet(h: string): string {
    "• " + h
  }

  function Bullets(hs: seq<string>): (r: seq<string>)
    ensures |r| == |hs| && forall i :: 0 <= i < |hs| ==> r[i] == Bullet(hs[i])
  {
    seq(|hs|, i requires 0 <= i < |hs| => Bullet(hs[i]))
  }

  /** The highlights as one bullet line each, or the empty text for none. */
  function FormatHighlights(hs: seq<string>): string {
    if |hs| == 0 then "" else Join(Bullets(hs), "\n")
  }

  /** Read back line by line, the bullets give each highlight once, in order. */
  lemma HighlightLines(hs: seq<string>)
    requires 0 < |hs|
    requires forall i :: 0 <= i < |hs| ==> '\n' !in hs[i]
    ensures var lines := SplitOn(FormatHighlights(hs), '\n');
            |lines| == |hs| && forall i :: 0 <= i < |hs| ==> lines[i] == Bullet(hs[i])
  {
    var b := Bullets(hs);
    forall i | 0 <= i < |b| ensures '\n' !in b[i] {
      forall k | 0 <= k < |b[i]| ensures b[i][k] != '\n' {
        if k >= 2 { assert b[i][k] == hs[i][k - 2]; }
      }
    }
    SplitJoin(b, '\n');
  }

  lemma NoHighlights()
    ensures FormatHighlights([]) == ""
  {
  }

  // ---------------------------------------------------------------------------
  // Selecting the source images
  // ---------------------------------------------------------------------------

  const NoImagesError := "No images found for this deal"
  const NoValidFilesError := "No valid image files found"

  /** The hero generator's sources: an error for no images, otherwise the first 16 URLs. */
  function SelectImages<T(==)>(urls: seq<T>): (r: Result<seq<T>>)
    ensures r.Err? <==> |urls| == 0
    ensures r.Err? ==> r.error == NoImagesError
    ensures r.Ok? ==> 0 < |r.value| <= MaxSourceImages && IsPrefixSeq(r.value, urls)
    ensures r.Ok? ==> |r.value| == if |urls| < MaxSourceImages then |urls| else MaxSourceImages
  {
    if |urls| == 0 then Err(NoImagesError) else Ok(Take(urls, MaxSourceImages))
  }

  predicate IsPrefixSeq<T(==)>(p: seq<T>, s: seq<T>) {
    |p| <= |s| && s[..|p|] == p
  }

  /** As the query returns at most ten images, the cap of 16 never drops one. */
  lemma HeroUsesEveryImage(fetched: Option<Option<string>>, rows: seq<ImageRow>, highlightRows: seq<string>)
    requires 0 < |rows|
    ensures var d := HeroDealData(fetched, rows, highlightRows);
            SelectImages(d.imageUrls) == Ok(d.imageUrls)
  {
  }

  /** The paths that exist, in input order. */
  function ExistingPaths(paths: seq<string>, existing: set<string>): (r: seq<string>)
    ensures forall p :: p in r <==> p in paths && p in existing
    ensures forall p :: multiset(r)[p] == if p in existing then multiset(paths)[p] else 0
    ensures |r| <= |paths|
    decreases |paths|
  {
    if |paths| == 0 then []
    else
      assert paths == [paths[0]] + paths[1..];
      assert forall p :: p in paths <==> p == paths[0] || p in paths[1..];
      (if paths[0] in existing then [paths[0]] else []) + ExistingPaths(paths[1..], existing)
  }

  /**
    The comprehension keeps input order: the existing paths of two lists one
    after the other are those of the first followed by those of the second.
   */
  lemma {:induction false} ExistingPathsConcat(a: seq<string>, b: seq<string>, existing: set<string>)
    ensures ExistingPaths(a + b, existing) == ExistingPaths(a, existing) + ExistingPaths(b, existing)
    decreases |a|
  {
    if |a| == 0 {
      assert a + b == b;
    } else {
      var ab := a + b;
      assert ab[0] == a[0] && ab[1..] == a[1..] + b;
      ExistingPathsConcat(a[1..], b, existing);
      var h := if a[0] in existing then [a[0]] else [];
      assert ExistingPaths(ab, existing) == h + (ExistingPaths(a[1..], existing) + ExistingPaths(b, existing));
      ConcatAssoc(h, ExistingPaths(a[1..], existing), ExistingPaths(b, existing));
    }
  }

  /** A single path is kept exactly when it exists. */
  lemma ExistingPathsSingle(p: string, existing: set<string>)
    ensures ExistingPaths([p], existing) == if p in existing then [p] else []
  {
    assert [p][1..] == [];
  }

  /** With every path present, nothing is filtered out. */
  lemma {:induction false} AllPathsExist(paths: seq<string>, existing: set<string>)
    requires forall i :: 0 <= i < |paths| ==> paths[i] in existing
    ensures ExistingPaths(paths, existing) == paths
    decreases |paths|
  {
    if |paths| > 0 {
      AllPathsExist(paths[1..], existing);
      assert [paths[0]] + paths[1..] == paths;
    }
  }

  /**
    `generate_variant`'s sources: the existing paths, an error when there are
    none, and at most the first 16 of them.
   */
  function SelectPaths(paths: seq<string>, existing: set<string>): (r: Result<seq<string>>)
    ensures r.Err? <==> forall i :: 0 <= i < |paths| ==> paths[i] !in existing
    ensures r.Err? ==> r.error == NoValidFilesError
    ensures r.Ok? ==> 0 < |r.value| <= MaxSourceImages && IsPrefixSeq(r.value, ExistingPaths(paths, existing))
    ensures r.Ok? ==> forall p :: p in r.value ==> p in paths && p in existing
    ensures r.Ok? ==> var n := |ExistingPaths(paths, existing)|;
                      |r.value| == if n < MaxSourceImages then n else MaxSourceImages
  {
    var valid := ExistingPaths(paths, existing);
    if |valid| == 0 then
      assert forall i :: 0 <= i < |paths| ==> paths[i] in paths;
      Err(NoValidFilesError)
    else
      assert valid[0] in valid;
      var r := Take(valid, MaxSourceImages);
      assert forall p :: p in r ==> p in valid;
      Ok(r)
  }

  /** With at most 16 paths, all present, `generate_variant` sends every one of them, in order. */
  lemma SelectPathsAllPresent(paths: seq<string>, existing: set<string>)
    requires 0 < |paths| <= MaxSourceImages
    requires forall i :: 0 <= i < |paths| ==> paths[i] in existing
    ensures SelectPaths(paths, existing) == Ok(paths)
  {
    AllPathsExist(paths, existing);
    assert paths[0] in existing;
    var r := SelectPaths(paths, existing);
    assert r.Ok? && |r.value| == |paths| && r.value == paths[..|paths|];
    assert paths[..|paths|] == paths;
  }

  // ---------------------------------------------------------------------------
  // Output file names
  // ---------------------------------------------------------------------------

  /**
    The hero generator's output name: `generated_image_{deal}.{ext}` by
    default; a given name without a dot gets `.{ext}`; a given name with a
    dot is kept.
   */
  function OutputFileName(dealId: nat, given: Option<string>, ext: string): (r: string)
    ensures '.' in r
    ensures given.None? ==> r == "generated_image_" + Decimal(dealId) + "." + ext
    ensures given.Some? && '.' in given.value ==> r == given.value
    ensures given.Some? && '.' !in given.value ==> r == given.value + "." + ext
  {
    match given
    case None =>
      var r := "generated_image_" + Decimal(dealId) + "." + ext;
      assert r[|r| - |ext| - 1] == '.';
      r
    case Some(name) =>
      if '.' in name then name
      else
        var r := name + "." + ext;
        assert r[|name|] == '.';
        r
  }

  /** Handing a derived name back in keeps it: every derived name has a dot. */
  lemma OutputFileNameStable(dealId: nat, given: Option<string>, ext: string, otherDeal: nat, otherExt: string)
    ensures var r := OutputFileName(dealId, given, ext);
            OutputFileName(otherDeal, Some(r), otherExt) == r
  {
  }

  /** The letters and digits `str.isalnum` accepts among ASCII. */
  predicate IsAlnum(c: char) {
    'a' <= c <= 'z' || 'A' <= c <= 'Z' || '0' <= c <= '9'
  }

  predicate SafeChar(c: char) {
    IsAlnum(c) || c == ' ' || c == '-' || c == '_'
  }

  /** Right-stripping leaves a prefix that does not end in white space. */
  lemma {:induction false} StripRightPrefix(s: string)
    ensures IsPrefix(StripRight(s), s)
    ensures |StripRight(s)| > 0 ==> !IsSpace(StripRight(s)[|StripRight(s)| - 1])
    decreases |s|
  {
    if 0 < |s| && IsSpace(s[|s| - 1]) {
      StripRightPrefix(s[..|s| - 1]);
      assert s[..|s| - 1][..|StripRight(s)|] == s[..|StripRight(s)|];
    }
  }

  /**
    The subject as a file-name fragment: only letters, digits, spaces,
    hyphens and underscores kept, trailing spaces dropped, the remaining
    spaces turned into underscores.
   */
  function SafeSubject(subject: string): (r: string)
    ensures forall i :: 0 <= i < |r| ==> SafeChar(r[i]) && r[i] != ' '
    ensures |r| <= |subject|
  {
    var kept := FilterChars(subject, SafeChar);
    StripRightPrefix(kept);
    var stripped := StripRight(kept);
    assert forall i :: 0 <= i < |stripped| ==> stripped[i] == kept[i];
    ReplaceChar(stripped, ' ', '_')
  }

  lemma {:induction false} FilterKeepsAll(s: string, keep: char -> bool)
    requires forall i :: 0 <= i < |s| ==> keep(s[i])
    ensures FilterChars(s, keep) == s
    decreases |s|
  {
    if |s| > 0 {
      FilterKeepsAll(s[1..], keep);
      assert [s[0]] + s[1..] == s;
    }
  }

  /** A safe fragment is its own fragment. */
  lemma SafeSubjectIdempotent(subject: string)
    ensures SafeSubject(SafeSubject(subject)) == SafeSubject(subject)
  {
    var s := SafeSubject(subject);
    FilterKeepsAll(s, SafeChar);
    assert |s| > 0 ==> !IsSpace(s[|s| - 1]);
    assert StripRight(s) == s;
    assert ReplaceChar(s, ' ', '_') == s;
  }

  lemma {:induction false} FilterConcat(a: string, b: string, keep: char -> bool)
    ensures FilterChars(a + b, keep) == FilterChars(a, keep) + FilterChars(b, keep)
    decreases |a|
  {
    if |a| > 0 {
      assert (a + b)[1..] == a[1..] + b;
      FilterConcat(a[1..], b, keep);
    } else {
      assert a + b == b;
    }
  }

  /** A character the fragment cannot hold leaves no trace. */
  lemma SafeSubjectIgnoresUnsafe(a: string, c: char, b: string)
    requires !SafeChar(c)
    ensures SafeSubject(a + [c] + b) == SafeSubject(a + b)
  {
    FilterConcat(a + [c], b, SafeChar);
    FilterConcat(a, [c], SafeChar);
    FilterConcat(a, b, SafeChar);
    assert FilterChars([c], SafeChar) == "" by {
      assert [c][1..] == "";
    }
    assert FilterChars(a + [c] + b, SafeChar) == FilterChars(a + b, SafeChar);
  }

  /** Trailing spaces leave no trace either. */
  lemma SafeSubjectIgnoresTrailingSpace(s: string)
    ensures SafeSubject(s + " ") == SafeSubject(s)
  {
    FilterConcat(s, " ", SafeChar);
    assert FilterChars(" ", SafeChar) == " " by {
      assert " "[1..] == "";
    }
    var kept := FilterChars(s, SafeChar);
    assert (kept + " ")[..|kept + " "| - 1] == kept;
  }

  /** The default name of an AI variant, `variant_{safe subject}.{ext}`; a given name is used as is. */
  function VariantFileName(subject: string, given: Option<string>, ext: string): (r: string)
    ensures given.Some? ==> r == given.value
    ensures given.None? ==> r == "variant_" + SafeSubject(subject) + "." + ext && ' ' !in r[..|r| - |ext|]
  {
    match given
    case Some(name) => name
    case None =>
      var r := "variant_" + SafeSubject(subject) + "." + ext;
      assert forall i :: 0 <= i < |r| - |ext| ==> r[i] != ' ' by {
        var safe := SafeSubject(subject);
        forall i | 0 <= i < |r| - |ext| ensures r[i] != ' ' {
          if 8 <= i < 8 + |safe| { assert r[i] == safe[i - 8]; }
        }
      }
      r
  }

  /** The default extension of `generate_variant_from_file`'s output. */
  const SingleFileExtension := "png"
  /** The default extension of `generate_variant`'s output. */
  const MultiFileExtension := "jpg"

  /** Two subjects that differ only by a punctuation mark share a default name, so one output overwrites the other. */
  lemma DefaultNamesCollide(subject: string, ext: string)
    ensures VariantFileName(subject + "!", None, ext) == VariantFileName(subject, None, ext)
    ensures subject + "!" != subject
  {
    SafeSubjectIgnoresUnsafe(subject, '!', "");
    assert subject + ['!'] + "" == subject + "!";
    assert subject + "" == subject;
    assert |subject + "!"| != |subject|;
  }

  // ---------------------------------------------------------------------------
  // The single-image generator's deal facts
  // ---------------------------------------------------------------------------

  /** What `get_deal_data_for_image` returns: the first image only. */
  datatype FirstImageData = FirstImageData(
    emailSubject: Option<string>, imageUrls: seq<Option<string>>, originalExtension: Option<string>, originalImageId: Option<nat>)

  function FirstImageDealData(fetched: Option<Option<string>>, rows: seq<ImageRow>): (d: FirstImageData)
    ensures |d.imageUrls| <= 1
  {
    if |rows| == 0 then FirstImageData(DealSubject(fetched), [], Some(DefaultExtension), None)
    else FirstImageData(DealSubject(fetched), [ImageUrl(rows[0])], rows[0].extension, Some(rows[0].imageId))
  }

  /**
    `download_first_image_from_redshift`'s guard: the first URL, or an error
    naming the deal. The list is non-empty even when its URL is NULL, so a
    NULL URL passes the guard and reaches the download.
   */
  function FirstImageUrl(dealId: nat, d: FirstImageData): Result<Option<string>> {
    if |d.imageUrls| == 0 then Err("No images found for deal " + Decimal(dealId)) else Ok(d.imageUrls[0])
  }

  /**
    The single-image generator's facts fit together: there is a URL entry
    exactly when the deal has an image, and then the image id is reported. The
    entry is NULL exactly when the extension is, and otherwise it is that
    image's public URL with the reported extension. Without an image the id is
    absent and the extension is `png`.
   */
  lemma FirstImageFacts(dealId: nat, fetched: Option<Option<string>>, rows: seq<ImageRow>)
    requires forall i :: 0 <= i < |rows| ==> rows[i].dealId == dealId
    ensures var d := FirstImageDealData(fetched, rows);
      && (d.originalImageId.Some? <==> |d.imageUrls| == 1) && (|d.imageUrls| == 1 <==> |rows| > 0) && |d.imageUrls| <= 1
      && (|rows| == 0 ==> d.originalExtension == Some(DefaultExtension))
      && (|rows| > 0 ==> (d.imageUrls[0].None? <==> d.originalExtension.None?))
      && (|rows| > 0 && d.originalExtension.Some? ==>
            d.imageUrls[0] == Some(StaticImageBase + Decimal(dealId) + "/" + Decimal(d.originalImageId.value) + "." + d.originalExtension.value))
      && (d.emailSubject.None? <==> fetched == Some(None))
  {
  }

  /**
    `download_first_image_from_redshift` fails exactly for a deal without
    images, naming the deal; otherwise it fetches the image at the lowest
    position, with that image's extension. When that extension is NULL, the
    guard passes and the download is handed no URL.
   */
  lemma FirstImageOfDeal(dealId: nat, fetched: Option<Option<string>>, rows: seq<ImageRow>)
    ensures var r := FirstImageUrl(dealId, FirstImageDealData(fetched, rows));
      && (r.Err? <==> |rows| == 0)
      && (r.Err? ==> r.error == "No images found for deal " + Decimal(dealId))
      && (r.Ok? ==> r.value == ImageUrl(rows[0]) && FirstImageDealData(fetched, rows).originalExtension == rows[0].extension)
      && (r.Ok? ==> (r.value.None? <==> rows[0].extension.None?))
  {
  }

  /** `s` ends with `suffix`. */
  predicate EndsWith(s: string, suffix: string) {
    |suffix| <= |s| && s[|s| - |suffix|..] == suffix
  }

  /**
    The hero generator's facts fit together: the subject is missing only when
    its column is NULL and is `Deal` when the deal row is absent; there are
    URL entries exactly when the deal has images. The first entry is NULL
    exactly when the extension is, and otherwise ends with the extension.
    Without images the extension is `png`.
   */
  lemma HeroDealFacts(fetched: Option<Option<string>>, rows: seq<ImageRow>, highlightRows: seq<string>)
    ensures var d := HeroDealData(fetched, rows, highlightRows);
      && (d.emailSubject.None? <==> fetched == Some(None))
      && (fetched.None? ==> d.emailSubject == Some(DefaultSubject))
      && (|d.imageUrls| == 0 <==> |rows| == 0)
      && (|rows| == 0 ==> d.originalExtension == Some(DefaultExtension))
      && (|rows| > 0 ==> (d.imageUrls[0].None? <==> d.originalExtension.None?))
      && (|rows| > 0 && d.originalExtension.Some? ==> EndsWith(d.imageUrls[0].value, "." + d.originalExtension.value))
  {
    if |rows| > 0 && rows[0].extension.Some? {
      var d := HeroDealData(fetched, rows, highlightRows);
      assert d.imageUrls[0] == ImageUrl(rows[0]);
      UrlEndsWithExtension(rows[0]);
    }
  }

  /** An image's public URL ends with its extension. */
  lemma UrlEndsWithExtension(row: ImageRow)
    requires row.extension.Some?
    ensures EndsWith(ImageUrl(row).value, "." + row.extension.value)
  {
    var ext := row.extension.value;
    var head := StaticImageBase + Decimal(row.dealId) + "/" + Decimal(row.imageId);
    assert ImageUrl(row).value == head + ("." + ext);
    assert (head + ("." + ext))[|head|..] == "." + ext;
  }
}

=== FILE: geometry.dfy ===
/**
  The variant renderer, with an image reduced to its pixel dimensions: the
  uncrop-to-aspect padding step, the fixed size catalogue, and the derivation of
  every catalogue variant from one master image. Resampling, pasting and JPEG
  encoding are not modelled; a resize yields exactly the requested size.
 */
module Geometry {
  import opened Text

  type pos = n: nat | 0 < n witness 1

  /** An image, as far as the renderer's geometry is concerned. */
  datatype Dims = Dims(width: pos, height: pos)

  /** An aspect ratio width:height, as an exact fraction. */
  datatype Ratio = Ratio(num: pos, den: pos)

  /** A white canvas of `size` with the source image pasted at (`pasteX`, `pasteY`). */
  datatype Canvas = Canvas(size: Dims, pasteX: nat, pasteY: nat)

  predicate SameAspect(d: Dims, r: Ratio) {
    d.width * r.den == d.height * r.num
  }

  predicate WiderThan(d: Dims, r: Ratio) {
    d.width * r.den > d.height * r.num
  }

  lemma MulMonotone(x: nat, y: nat, c: nat)
    requires x <= y
    ensures x * c <= y * c
  {
    assert y * c == x * c + (y - x) * c;
  }

  /** Integer division by `c` is the floor: `q*c <= a < (q+1)*c`. */
  lemma FloorDiv(a: nat, c: pos)
    ensures (a / c) * c <= a < (a / c + 1) * c
  {
    assert a == (a / c) * c + a % c;
  }

  lemma DivAtLeast(a: nat, b: nat, c: pos)
    requires b * c <= a
    ensures b <= a / c
  {
    FloorDiv(a, c);
    if a / c < b {
      MulMonotone(a / c + 1, b, c);
    }
  }

  /**
    `uncrop_image`: pad with white to reach aspect `r`, never cropping. A wider
    image keeps its width and grows to height floor(width/r); a narrower one keeps
    its height and grows to width floor(height*r); the source is centred.
   */
  function Uncrop(img: Dims, r: Ratio): (c: Canvas)
    // already at the target aspect: returned unchanged
    ensures SameAspect(img, r) ==> c == Canvas(img, 0, 0)
    // padding never crops: the source fits inside the canvas at the paste offset
    ensures c.pasteX + img.width <= c.size.width && c.pasteY + img.height <= c.size.height
    // too wide: width kept, height is the floor of width/r, centred vertically
    ensures WiderThan(img, r) ==>
      && c.size.width == img.width && c.pasteX == 0
      && c.size.height * r.num <= img.width * r.den < (c.size.height + 1) * r.num
      && c.pasteY <= c.size.height - img.height - c.pasteY <= c.pasteY + 1
    // too tall: height kept, width is the floor of height*r, centred horizontally
    ensures !SameAspect(img, r) && !WiderThan(img, r) ==>
      && c.size.height == img.height && c.pasteY == 0
      && c.size.width * r.den <= img.height * r.num < (c.size.width + 1) * r.den
      && c.pasteX <= c.size.width - img.width - c.pasteX <= c.pasteX + 1
  {
    if SameAspect(img, r) then Canvas(img, 0, 0)
    else if WiderThan(img, r) then
      var h := img.width * r.den / r.num;
      DivAtLeast(img.width * r.den, img.height, r.num);
      FloorDiv(img.width * r.den, r.num);
      Canvas(Dims(img.width, h), 0, (h - img.height) / 2)
    else
      var w := img.height * r.num / r.den;
      DivAtLeast(img.height * r.num, img.width, r.den);
      FloorDiv(img.height * r.num, r.den);
      Canvas(Dims(w, img.height), (w - img.width) / 2, 0)
  }

  /** Padding an already padded canvas to the same aspect adds nothing more. */
  lemma UncropIdempotent(img: Dims, r: Ratio)
    ensures Uncrop(Uncrop(img, r).size, r).size == Uncrop(img, r).size
  {
    var c := Uncrop(img, r).size;
    if WiderThan(img, r) {
      FloorDiv(c.width * r.den, r.num);
      assert !WiderThan(c, r) || c.height == c.width * r.den / r.num;
    } else if !SameAspect(img, r) {
      FloorDiv(c.height * r.num, r.den);
      assert SameAspect(c, r) || WiderThan(c, r) || c.width == c.height * r.num / r.den;
    }
  }

  const SquareRatio := Ratio(1, 1)

  /** Padding to 1:1 yields the square whose side is the longer side of the image. */
  lemma UncropSquare(img: Dims)
    ensures Uncrop(img, SquareRatio).size.width == Uncrop(img, SquareRatio).size.height
    ensures Uncrop(img, SquareRatio).size.width == if img.width >= img.height then img.width else img.height
  {
  }

  // ---------------------------------------------------------------------------
  // The size catalogue (TARGET_SIZES)
  // ---------------------------------------------------------------------------

  /** The catalogue suffixes in the order the renderer and the checker visit them. */
  const Suffixes: seq<string> := [
    "", "-cashback-promo", "-email", "-thumb", "-promo", "-user", "-deal-bonus",
    "-iphone-medium", "-iphone-small", "-iphone-promo", "-iphone-thumb",
    "-travel-main", "-2-per-row", "-3-per-row"
  ]

  const TargetSizes: map<string, Dims> := map[
    "" := Dims(777, 520),
    "-cashback-promo" := Dims(126, 90),
    "-email" := Dims(640, 428),
    "-thumb" := Dims(105, 70),
    "-promo" := Dims(172, 115),
    "-user" := Dims(50, 50),
    "-deal-bonus" := Dims(278, 182),
    "-iphone-medium" := Dims(151, 106),
    "-iphone-small" := Dims(80, 53),
    "-iphone-promo" := Dims(640, 428),
    "-iphone-thumb" := Dims(210, 140),
    "-travel-main" := Dims(777, 520),
    "-2-per-row" := Dims(470, 315),
    "-3-per-row" := Dims(310, 210)
  ]

  /** The base aspect ratio is the aspect of the "" entry, 777:520. */
  const BaseRatio := Ratio(777, 520)

  /** The base aspect ratio is the aspect of the catalogue's "" entry. */
  lemma BaseRatioOfCatalogue()
    ensures TargetSizes[""].width == BaseRatio.num && TargetSizes[""].height == BaseRatio.den
  {
  }

  lemma SuffixesDistinct()
    ensures forall i, j :: 0 <= i < j < |Suffixes| ==> Suffixes[i] != Suffixes[j]
  {
  }

  lemma SuffixesAreKeys()
    ensures TargetSizes.Keys == set s | s in Suffixes
    ensures forall s :: s in Suffixes <==> s in TargetSizes
  {
    assert forall s :: s in Suffixes ==> s in TargetSizes;
    assert forall s :: s in TargetSizes ==> s in Suffixes;
  }

  /** The suffix list enumerates the catalogue keys, each exactly once: 14 of them. */
  lemma CatalogueShape()
    ensures forall s :: s in Suffixes <==> s in TargetSizes
    ensures forall i, j :: 0 <= i < j < |Suffixes| ==> Suffixes[i] != Suffixes[j]
    ensures |Suffixes| == |TargetSizes| == 14
  {
    SuffixesDistinct();
    SuffixesAreKeys();
    DistinctSeqCard(Suffixes);
    CatalogueSize();
  }

  lemma CatalogueSize()
    ensures |TargetSizes.Keys| == |TargetSizes|
  {
  }

  lemma {:induction false} DistinctSeqCard(xs: seq<string>)
    requires forall i, j :: 0 <= i < j < |xs| ==> xs[i] != xs[j]
    ensures |set x | x in xs| == |xs|
    decreases |xs|
  {
    if |xs| > 0 {
      var rest := xs[1..];
      DistinctSeqCard(rest);
      assert (set x | x in xs) == {xs[0]} + (set x | x in rest);
      assert xs[0] !in (set x | x in rest);
    }
  }

  // ---------------------------------------------------------------------------
  // generate_variants
  // ---------------------------------------------------------------------------

  /** One rendered derivative: its file name, its size, and the size of the image it was resized from. */
  datatype Variant = Variant(fileName: string, size: Dims, resizedFrom: Dims)

  /** `{image_id}{suffix}.jpg` */
  function VariantFileName(imageId: nat, suffix: string): string {
    Decimal(imageId) + suffix + ".jpg"
  }

  /**
    `generate_variants`: the base variant is the master padded to 777:520; the
    avatar is the master padded to a square; every other suffix is resized from
    the base variant after it has been resized to 777x520.
   */
  function GenerateVariants(imageId: nat, original: Dims): (r: map<string, Variant>)
    ensures r.Keys == TargetSizes.Keys
    ensures forall s :: s in r ==> r[s].size == TargetSizes[s] && r[s].fileName == VariantFileName(imageId, s)
  {
    var base := Uncrop(original, BaseRatio).size;
    var square := if SameAspect(original, SquareRatio) then original else Uncrop(original, SquareRatio).size;
    map s | s in TargetSizes ::
      Variant(VariantFileName(imageId, s), TargetSizes[s],
              if s == "" then base else if s == "-user" then square else TargetSizes[""])
  }

  /** Where each rendered variant is resized from. */
  lemma VariantSources(imageId: nat, original: Dims)
    ensures var r := GenerateVariants(imageId, original);
      && "" in r && "-user" in r
      // the base variant comes from the master padded (never cropped) to the base aspect
      && r[""].resizedFrom == Uncrop(original, BaseRatio).size
      && original.width <= r[""].resizedFrom.width && original.height <= r[""].resizedFrom.height
      // the avatar comes from the master padded to a square of side max(width, height)
      && r["-user"].resizedFrom.width == r["-user"].resizedFrom.height
      && r["-user"].resizedFrom.width == (if original.width >= original.height then original.width else original.height)
      // every other derivative is a rescale of the 777x520 base variant
      && forall s :: s in r && s != "" && s != "-user" ==> r[s].resizedFrom == TargetSizes[""]
  {
    UncropSquare(original);
  }

  /** Distinct suffixes give distinct file names, so no variant overwrites another. */
  lemma VariantFileNamesDistinct(imageId: nat, s: string, t: string)
    requires VariantFileName(imageId, s) == VariantFileName(imageId, t)
    ensures s == t
  {
    var d := Decimal(imageId);
    var a := VariantFileName(imageId, s);
    assert |s| == |t|;
    assert s == a[|d|..|d| + |s|];
    assert t == VariantFileName(imageId, t)[|d|..|d| + |t|];
  }

  /** `generate_variants` yields exactly one file per catalogue entry: 14 distinct files. */
  lemma VariantCompleteness(imageId: nat, original: Dims)
    ensures |GenerateVariants(imageId, original)| == 14
    ensures var r := GenerateVariants(imageId, original);
      forall s, t :: s in r && t in r && s != t ==> r[s].fileName != r[t].fileName
  {
    CatalogueShape();
    var r := GenerateVariants(imageId, original);
    assert r.Keys == TargetSizes.Keys;
    assert |r| == |r.Keys|;
    forall s, t | s in r && t in r && r[s].fileName == r[t].fileName ensures s == t {
      VariantFileNamesDistinct(imageId, s, t);
    }
  }
}

=== FILE: missing_variants.dfy ===
/**
  Missing-variant reconciliation: probe the catalogue objects of an image,
  render the catalogue again from the main image when some are absent, and
  upload only the absent ones; then the CSV batch driver with its counters.
  The store is the one-bucket key-to-size map of the replacement model.
 */
module MissingVariants {
  import opened Wrappers
  import opened Text
  import opened Geometry
  import opened ObjectKeys
  import Replacement

  type Store = Replacement.Store

  predicate Distinct(xs: seq<string>) {
    forall i, j :: 0 <= i < j < |xs| ==> xs[i] != xs[j]
  }

  // ---------------------------------------------------------------------------
  // check_existing_variants
  // ---------------------------------------------------------------------------

  /** The suffixes whose object is absent, in the given order. */
  function Absent(store: Store, deal: nat, imageId: nat, suffixes: seq<string>): (r: seq<string>)
    ensures forall s :: s in r <==> s in suffixes && VariantKey(deal, imageId, s) !in store
    ensures Distinct(suffixes) ==> Distinct(r)
    decreases |suffixes|
  {
    if |suffixes| == 0 then []
    else
      var rest := Absent(store, deal, imageId, suffixes[1..]);
      assert forall s :: s in suffixes <==> s == suffixes[0] || s in suffixes[1..];
      assert Distinct(suffixes) ==> suffixes[0] !in suffixes[1..] && Distinct(suffixes[1..]);
      if VariantKey(deal, imageId, suffixes[0]) in store then rest else [suffixes[0]] + rest
  }

  /** With every probed object present, nothing is absent. */
  lemma {:induction false} AbsentNone(store: Store, deal: nat, imageId: nat, suffixes: seq<string>)
    requires forall s :: s in suffixes ==> VariantKey(deal, imageId, s) in store
    ensures Absent(store, deal, imageId, suffixes) == []
    decreases |suffixes|
  {
    if |suffixes| > 0 {
      assert suffixes[0] in suffixes;
      assert forall s :: s in suffixes[1..] ==> s in suffixes;
      AbsentNone(store, deal, imageId, suffixes[1..]);
    }
  }

  /**
    `check_existing_variants`: probe `images/deal/{deal}/{image}{suffix}.jpg`
    for every catalogue suffix; each lands in exactly one of the existing set
    and the missing list.
   */
  function CheckExistingVariants(store: Store, deal: nat, imageId: nat): (r: (set<string>, seq<string>))
    ensures forall s :: s in r.0 <==> s in Suffixes && VariantKey(deal, imageId, s) in store
    ensures forall s :: s in r.1 <==> s in Suffixes && VariantKey(deal, imageId, s) !in store
    ensures forall s :: s in Suffixes ==> (s in r.0 <==> s !in r.1)
    ensures Distinct(r.1)
  {
    SuffixesDistinct();
    var existing := set s | s in Suffixes && VariantKey(deal, imageId, s) in store;
    (existing, Absent(store, deal, imageId, Suffixes))
  }

  // ---------------------------------------------------------------------------
  // upload_missing_variants_to_s3
  // ---------------------------------------------------------------------------

  /** The missing suffixes that have a rendered file, in order. */
  function Uploadable(missing: seq<string>, variants: map<string, Variant>): (r: seq<string>)
    ensures forall s :: s in r <==> s in missing && s in variants
    ensures Distinct(missing) ==> Distinct(r)
    decreases |missing|
  {
    if |missing| == 0 then []
    else
      var rest := Uploadable(missing[1..], variants);
      assert forall s :: s in missing <==> s == missing[0] || s in missing[1..];
      assert Distinct(missing) ==> missing[0] !in missing[1..] && Distinct(missing[1..]);
      if missing[0] in variants then [missing[0]] + rest else rest
  }

  function UrlsOf(bucket: string, deal: nat, imageId: nat, suffixes: seq<string>): (r: map<string, string>)
    ensures r.Keys == set s | s in suffixes
    ensures forall s :: s in r ==> r[s] == HttpsUrl(bucket, VariantKey(deal, imageId, s))
  {
    map s | s in suffixes :: HttpsUrl(bucket, VariantKey(deal, imageId, s))
  }

  /**
    `upload_missing_variants_to_s3`: upload, in order, each missing suffix
    that has a rendered file; an upload raising at index `i` ends the loop
    with the objects before it stored.
   */
  function UploadMissing(store: Store, bucket: string, deal: nat, imageId: nat, variants: map<string, Variant>,
                         missing: seq<string>, fault: Option<(nat, string)>): (r: (Store, Result<map<string, string>>))
    ensures store.Keys <= r.0.Keys
    ensures forall k :: k in r.0 && (k !in store || r.0[k] != store[k]) ==>
      exists s :: s in missing && s in variants && k == VariantKey(deal, imageId, s)
    ensures r.1.Ok? ==> r.1.value.Keys == set s | s in missing && s in variants
    ensures r.1.Ok? ==> forall s :: s in r.1.value ==> r.1.value[s] == HttpsUrl(bucket, VariantKey(deal, imageId, s))
    ensures r.1.Ok? ==> forall s :: s in r.1.value ==>
      s in variants && VariantKey(deal, imageId, s) in r.0 && r.0[VariantKey(deal, imageId, s)] == variants[s].size
    ensures r.1.Err? ==> fault.Some? && r.1.error == fault.value.1
  {
    var todo := Uploadable(missing, variants);
    if fault.Some? && fault.value.0 < |todo| then
      (UploadSome(store, deal, imageId, variants, todo[..fault.value.0], missing), Err(fault.value.1))
    else
      assert (set s | s in todo) == (set s | s in missing && s in variants);
      (UploadSome(store, deal, imageId, variants, todo, missing), Ok(UrlsOf(bucket, deal, imageId, todo)))
  }

  /** Upload some of the missing suffixes: only their objects change, and each holds its rendered size. */
  function UploadSome(store: Store, deal: nat, imageId: nat, variants: map<string, Variant>, done: seq<string>,
                      missing: seq<string>): (r: Store)
    requires forall s :: s in done ==> s in missing && s in variants
    ensures store.Keys <= r.Keys
    ensures forall k :: k in r && (k !in store || r[k] != store[k]) ==>
      exists s :: s in missing && s in variants && k == VariantKey(deal, imageId, s)
    ensures forall s :: s in done ==> VariantKey(deal, imageId, s) in r && r[VariantKey(deal, imageId, s)] == variants[s].size
  {
    var after := Replacement.Upload(store, deal, imageId, variants, done);
    Replacement.UploadChangesOnlyVariants(store, deal, imageId, variants, done);
    UploadedAreMissing(store, after, deal, imageId, variants, done, missing);
    after
  }

  lemma UploadedAreMissing(store: Store, after: Store, deal: nat, imageId: nat, variants: map<string, Variant>,
                           done: seq<string>, missing: seq<string>)
    requires forall s :: s in done ==> s in missing && s in variants
    requires forall k :: k in after && (k !in store || after[k] != store[k]) ==> exists s :: s in done && k == VariantKey(deal, imageId, s)
    ensures forall k :: k in after && (k !in store || after[k] != store[k]) ==>
      exists s :: s in missing && s in variants && k == VariantKey(deal, imageId, s)
  {
    forall k | k in after && (k !in store || after[k] != store[k])
      ensures exists s :: s in missing && s in variants && k == VariantKey(deal, imageId, s)
    {
      var s :| s in done && k == VariantKey(deal, imageId, s);
    }
  }

  // ---------------------------------------------------------------------------
  // process_single_image
  // ---------------------------------------------------------------------------

  /** What the store client does: its message for a missing object, and an upload that raises (index and message). */
  datatype Faults = Faults(notFound: string, uploadFault: Option<(nat, string)>)

  /** The result dictionary of one image. */
  datatype ImageResult =
    | AllExist(dealId: nat, imageId: nat)
    | Filled(dealId: nat, imageId: nat, existing: set<string>, missingCount: nat, uploadedUrls: map<string, string>)
    | ImageFailed(dealId: nat, imageId: nat, error: string)
  {
    predicate Success() {
      !ImageFailed?
    }

    /** `generated_count`: the number of uploaded URLs, 0 when nothing was missing. */
    function GeneratedCount(): nat {
      if Filled? then |uploadedUrls| else 0
    }
  }

  const AllExistMessage := "All variants already exist"

  /**
    `process_single_image`: when nothing is missing, report so without
    touching the store; otherwise download the main image, render the whole
    catalogue from it, and upload the missing objects. A missing main image or
    a raising upload is a failure.
   */
  function ProcessSingleImage(store: Store, bucket: string, deal: nat, imageId: nat, faults: Faults): (r: (ImageResult, Store))
    ensures r.0.dealId == deal && r.0.imageId == imageId
    ensures r.0.AllExist? <==> |CheckExistingVariants(store, deal, imageId).1| == 0
  {
    var probe := CheckExistingVariants(store, deal, imageId);
    if |probe.1| == 0 then (AllExist(deal, imageId), store)
    else Probed(store, bucket, deal, imageId, faults, probe.0, probe.1)
  }

  /**
    How one image can end: with nothing missing the store is untouched; with
    something missing and no main image the download fails; any other failure
    is the upload's.
   */
  lemma ProcessSingleImageOutcomes(store: Store, bucket: string, deal: nat, imageId: nat, faults: Faults)
    ensures var r := ProcessSingleImage(store, bucket, deal, imageId, faults);
      r.0.AllExist? ==> r.1 == store
    ensures var r := ProcessSingleImage(store, bucket, deal, imageId, faults);
      |CheckExistingVariants(store, deal, imageId).1| > 0 && VariantKey(deal, imageId, "") !in store ==>
        r.0 == ImageFailed(deal, imageId, faults.notFound) && r.1 == store
    ensures var r := ProcessSingleImage(store, bucket, deal, imageId, faults);
      r.0.ImageFailed? ==> r.0.error == faults.notFound || (faults.uploadFault.Some? && r.0.error == faults.uploadFault.value.1)
  {
  }

  /**
    What one image does to the store: no existing object is re-uploaded, and
    a completed fill leaves every catalogue object present, reporting the
    probe's findings and one URL per missing suffix.
   */
  lemma ProcessSingleImageEffects(store: Store, bucket: string, deal: nat, imageId: nat, faults: Faults)
    ensures var r := ProcessSingleImage(store, bucket, deal, imageId, faults);
      && store.Keys <= r.1.Keys
      && (forall s :: VariantKey(deal, imageId, s) in store ==> r.1[VariantKey(deal, imageId, s)] == store[VariantKey(deal, imageId, s)])
    ensures var r := ProcessSingleImage(store, bucket, deal, imageId, faults);
      var (existing, missing) := CheckExistingVariants(store, deal, imageId);
      r.0.Filled? ==>
        && VariantKey(deal, imageId, "") in store
        && r.0 == Filled(deal, imageId, existing, |missing|, UrlsOf(bucket, deal, imageId, missing))
        && |missing| > 0
        && forall s :: s in Suffixes ==> VariantKey(deal, imageId, s) in r.1
  {
    var (existing, missing) := CheckExistingVariants(store, deal, imageId);
    var r := ProcessSingleImage(store, bucket, deal, imageId, faults);
    if r.0.Filled? {
      forall s | s in Suffixes ensures VariantKey(deal, imageId, s) in r.1 {
        if s !in missing {
          assert VariantKey(deal, imageId, s) in store;
        }
      }
    }
  }

  /** Some object is absent: fail without the main image, otherwise fill. */
  function Probed(store: Store, bucket: string, deal: nat, imageId: nat, faults: Faults, existing: set<string>,
                  missing: seq<string>): (r: (ImageResult, Store))
    requires forall s :: s in missing ==> s in Suffixes && VariantKey(deal, imageId, s) !in store
    ensures r.0.ImageFailed? || r.0 == Filled(deal, imageId, existing, |missing|, UrlsOf(bucket, deal, imageId, missing))
    ensures r.0.dealId == deal && r.0.imageId == imageId
    ensures store.Keys <= r.1.Keys
    ensures forall s :: VariantKey(deal, imageId, s) in store ==> r.1[VariantKey(deal, imageId, s)] == store[VariantKey(deal, imageId, s)]
    ensures VariantKey(deal, imageId, "") !in store ==> r.0 == ImageFailed(deal, imageId, faults.notFound) && r.1 == store
    ensures r.0.ImageFailed? ==> r.0.error == faults.notFound || (faults.uploadFault.Some? && r.0.error == faults.uploadFault.value.1)
    ensures r.0.Filled? ==> VariantKey(deal, imageId, "") in store
    ensures r.0.Filled? ==> forall s :: s in missing ==> VariantKey(deal, imageId, s) in r.1
  {
    if VariantKey(deal, imageId, "") !in store then (ImageFailed(deal, imageId, faults.notFound), store)
    else Fill(store, bucket, deal, imageId, existing, missing, faults.uploadFault)
  }

  /** Render the catalogue from the main image and upload the missing objects. */
  function Fill(store: Store, bucket: string, deal: nat, imageId: nat, existing: set<string>, missing: seq<string>,
                fault: Option<(nat, string)>): (r: (ImageResult, Store))
    requires VariantKey(deal, imageId, "") in store
    requires forall s :: s in missing ==> s in Suffixes && VariantKey(deal, imageId, s) !in store
    ensures r.0.Filled? || r.0.ImageFailed?
    ensures r.0.dealId == deal && r.0.imageId == imageId
    ensures store.Keys <= r.1.Keys
    ensures forall s :: VariantKey(deal, imageId, s) in store ==> r.1[VariantKey(deal, imageId, s)] == store[VariantKey(deal, imageId, s)]
    ensures r.0.ImageFailed? ==> fault.Some? && r.0.error == fault.value.1
    ensures r.0.Filled? ==> r.0 == Filled(deal, imageId, existing, |missing|, UrlsOf(bucket, deal, imageId, missing))
    ensures r.0.Filled? ==> forall s :: s in missing ==> VariantKey(deal, imageId, s) in r.1
  {
    var variants := GenerateVariants(imageId, store[VariantKey(deal, imageId, "")]);
    SuffixesAreKeys();
    UploadableAll(missing, variants);
    var (uploaded, urls) := UploadMissing(store, bucket, deal, imageId, variants, missing, fault);
    ExistingUntouched(store, uploaded, deal, imageId, missing, variants);
    match urls
    case Err(e) => (ImageFailed(deal, imageId, e), uploaded)
    case Ok(u) =>
      assert u.Keys == UrlsOf(bucket, deal, imageId, missing).Keys;
      (Filled(deal, imageId, existing, |missing|, u), uploaded)
  }

  lemma {:induction false} UploadableAll(missing: seq<string>, variants: map<string, Variant>)
    requires forall s :: s in missing ==> s in variants
    ensures Uploadable(missing, variants) == missing
    decreases |missing|
  {
    if |missing| > 0 {
      UploadableAll(missing[1..], variants);
      assert [missing[0]] + missing[1..] == missing;
    }
  }

  /** An upload of missing suffixes leaves the objects of present suffixes as they were. */
  lemma ExistingUntouched(store: Store, after: Store, deal: nat, imageId: nat, missing: seq<string>, variants: map<string, Variant>)
    requires forall s :: s in missing ==> VariantKey(deal, imageId, s) !in store
    requires store.Keys <= after.Keys
    requires forall k :: k in after && (k !in store || after[k] != store[k]) ==>
      exists s :: s in missing && s in variants && k == VariantKey(deal, imageId, s)
    ensures forall s :: VariantKey(deal, imageId, s) in store ==> after[VariantKey(deal, imageId, s)] == store[VariantKey(deal, imageId, s)]
  {
  }

  /** A completed fill uploads every missing object: `generated_count == missing_count`. */
  lemma FillUploadsAllMissing(store: Store, bucket: string, deal: nat, imageId: nat, faults: Faults)
    requires ProcessSingleImage(store, bucket, deal, imageId, faults).0.Filled?
    ensures var r := ProcessSingleImage(store, bucket, deal, imageId, faults).0;
      r.GeneratedCount() == r.missingCount && r.uploadedUrls.Keys <= TargetSizes.Keys
  {
    var missing := CheckExistingVariants(store, deal, imageId).1;
    ProcessSingleImageEffects(store, bucket, deal, imageId, faults);
    DistinctCard(missing);
    SuffixesAreKeys();
  }

  lemma {:induction false} DistinctCard(xs: seq<string>)
    requires Distinct(xs)
    ensures |set x | x in xs| == |xs|
    decreases |xs|
  {
    if |xs| > 0 {
      DistinctCard(xs[1..]);
      assert (set x | x in xs) == {xs[0]} + (set x | x in xs[1..]);
      assert xs[0] !in xs[1..];
      assert forall i :: 0 <= i < |xs[1..]| ==> xs[1..][i] == xs[i + 1];
    }
  }

  /** After a completed fill the catalogue is complete: a second run finds nothing missing. */
  lemma FillIsIdempotent(store: Store, bucket: string, deal: nat, imageId: nat, faults: Faults, again: Faults)
    requires ProcessSingleImage(store, bucket, deal, imageId, faults).0.Filled?
    ensures var after := ProcessSingleImage(store, bucket, deal, imageId, faults).1;
      ProcessSingleImage(after, bucket, deal, imageId, again) == (AllExist(deal, imageId), after)
  {
    ProcessSingleImageEffects(store, bucket, deal, imageId, faults);
    var after := ProcessSingleImage(store, bucket, deal, imageId, faults).1;
    ProcessSingleImageOutcomes(after, bucket, deal, imageId, again);
    AbsentNone(after, deal, imageId, Suffixes);
  }

  // ---------------------------------------------------------------------------
  // process_csv_batch
  // ---------------------------------------------------------------------------

  const RequiredColumns: seq<string> := ["deal_id", "image_id"]

  /** The required columns absent from the header, in order. */
  function MissingColumns(columns: seq<string>): (r: seq<string>)
    ensures forall c :: c in r <==> c in RequiredColumns && c !in columns
  {
    (if "deal_id" in columns then [] else ["deal_id"]) + (if "image_id" in columns then [] else ["image_id"])
  }

  /** Python's rendering of a list of strings, `['a', 'b']`. */
  function ListText(xs: seq<string>): string {
    "[" + Join(seq(|xs|, i requires 0 <= i < |xs| => "'" + xs[i] + "'"), ", ") + "]"
  }

  function MissingColumnsError(missing: seq<string>): string {
    "CSV missing required columns: " + ListText(missing)
  }

  /** One CSV row as far as the batch reads it: a blank cell is `None`. */
  datatype CsvRow = CsvRow(dealId: Option<nat>, imageId: Option<nat>)

  /** `dropna` then `drop_duplicates` on the two id columns: complete rows, first occurrence of each pair, in file order. */
  function CleanRows(rows: seq<CsvRow>): (r: seq<(nat, nat)>)
    ensures forall p :: p in r <==> CsvRow(Some(p.0), Some(p.1)) in rows
    ensures forall i, j :: 0 <= i < j < |r| ==> r[i] != r[j]
    ensures |r| <= |rows|
    decreases |rows|
  {
    if |rows| == 0 then []
    else
      var init := rows[..|rows| - 1];
      var last := rows[|rows| - 1];
      var r := CleanRows(init);
      assert forall x :: x in rows <==> x in init || x == last;
      if last.dealId.Some? && last.imageId.Some? && (last.dealId.value, last.imageId.value) !in r then
        r + [(last.dealId.value, last.imageId.value)]
      else r
  }

  /** How one submitted image completed: with its result dictionary, or by raising. */
  datatype Completion = Returned(result: ImageResult) | Raised(message: string)

  datatype Counters = Counters(successful: nat, skipped: nat, failed: nat, totalVariants: nat)

  /** One completion counted: a success with uploads, a success without, or a failure. */
  function Count(c: Counters, done: Completion): Counters {
    match done
    case Raised(_) => c.(failed := c.failed + 1)
    case Returned(res) =>
      if !res.Success() then c.(failed := c.failed + 1)
      else if res.GeneratedCount() > 0 then c.(successful := c.successful + 1, totalVariants := c.totalVariants + res.GeneratedCount())
      else c.(skipped := c.skipped + 1)
  }

  function Successful(c: Completion): bool {
    c.Returned? && c.result.Success() && c.result.GeneratedCount() > 0
  }

  /** The variants uploaded by the images counted as successful. */
  function SuccessfulUploads(done: seq<Completion>): nat
    decreases |done|
  {
    if |done| == 0 then 0
    else (if Successful(done[0]) then done[0].result.GeneratedCount() else 0) + SuccessfulUploads(done[1..])
  }

  lemma {:induction false} SuccessfulUploadsSnoc(done: seq<Completion>, c: Completion)
    ensures SuccessfulUploads(done + [c]) == SuccessfulUploads(done) + (if Successful(c) then c.result.GeneratedCount() else 0)
    decreases |done|
  {
    if |done| == 0 {
      assert [c][1..] == [];
    } else {
      assert (done + [c])[1..] == done[1..] + [c];
      SuccessfulUploadsSnoc(done[1..], c);
    }
  }

  /** The counters after the completions of `done`, in that order. */
  function CountAll(done: seq<Completion>): (c: Counters)
    ensures c.successful + c.skipped + c.failed == |done|
    ensures c.totalVariants >= c.successful
    decreases |done|
  {
    if |done| == 0 then Counters(0, 0, 0, 0) else Count(CountAll(done[..|done| - 1]), done[|done| - 1])
  }

  /** `total_variants_generated` is the sum of `generated_count` over the images counted as successful. */
  lemma {:induction false} TotalIsSumOfSuccesses(done: seq<Completion>)
    ensures CountAll(done).totalVariants == SuccessfulUploads(done)
    decreases |done|
  {
    if |done| > 0 {
      var init := done[..|done| - 1];
      TotalIsSumOfSuccesses(init);
      SuccessfulUploadsSnoc(init, done[|done| - 1]);
      assert init + [done[|done| - 1]] == done;
    }
  }

  /** The dictionary `process_csv_batch` returns. */
  datatype CsvSummary = CsvSummary(totalProcessed: nat, counters: Counters, results: seq<ImageResult>)

  /** The result recorded for a completion: the one returned, or a failure naming the pair and the exception. */
  function ResultOf(p: (nat, nat), c: Completion): ImageResult {
    match c
    case Returned(res) => res
    case Raised(m) => ImageFailed(p.0, p.1, m)
  }

  /**
    `process_csv_batch`: a header without both id columns is an error;
    otherwise the clean rows are submitted and each completion, in the order
    given (`done`, one per clean row), increments exactly one counter.
   */
  method ProcessCsvBatch(columns: seq<string>, rows: seq<CsvRow>, done: seq<((nat, nat), Completion)>)
    returns (r: Result<CsvSummary>)
    requires |MissingColumns(columns)| == 0 ==>
      multiset(seq(|done|, i requires 0 <= i < |done| => done[i].0)) == multiset(CleanRows(rows))
    ensures r.Err? <==> |MissingColumns(columns)| > 0
    ensures r.Err? ==> r.error == MissingColumnsError(MissingColumns(columns))
    ensures r.Ok? ==>
      var c := r.value.counters;
      && r.value.totalProcessed == |CleanRows(rows)| == |done| == |r.value.results|
      && c.successful + c.skipped + c.failed == r.value.totalProcessed
      && c == CountAll(seq(|done|, i requires 0 <= i < |done| => done[i].1))
      && c.totalVariants == SuccessfulUploads(seq(|done|, i requires 0 <= i < |done| => done[i].1))
      && forall i :: 0 <= i < |done| ==> r.value.results[i] == ResultOf(done[i].0, done[i].1)
  {
    var missing := MissingColumns(columns);
    if |missing| > 0 {
      return Err(MissingColumnsError(missing));
    }
    var completions := seq(|done|, i requires 0 <= i < |done| => done[i].1);
    var ids := seq(|done|, i requires 0 <= i < |done| => done[i].0);
    assert |ids| == |multiset(ids)| == |multiset(CleanRows(rows))| == |CleanRows(rows)|;
    var counters := Counters(0, 0, 0, 0);
    for i := 0 to |done|
      invariant counters == CountAll(completions[..i])
    {
      assert completions[..i + 1][..i] == completions[..i];
      counters := Count(counters, done[i].1);
    }
    var results := seq(|done|, i requires 0 <= i < |done| => ResultOf(done[i].0, done[i].1));
    assert completions[..|done|] == completions;
    TotalIsSumOfSuccesses(completions);
    return Ok(CsvSummary(|CleanRows(rows)|, counters, results));
  }

  // ---------------------------------------------------------------------------
  // Ids read from a column that had a blank cell
  // ---------------------------------------------------------------------------

  /**
    The text of an id read from a CSV column. A column with any blank cell is
    read as floating point, and stays so after the blank rows are dropped:
    its ids print as `123.0`.
   */
  function ColumnValueText(v: nat, columnHadBlank: bool): string {
    if columnHadBlank then Decimal(v) + ".0" else Decimal(v)
  }

  /** The probed key as the batch formats it from the row's values. */
  function ProbedKeyAsWritten(dealText: string, imageText: string, suffix: string): string {
    "images/deal/" + dealText + "/" + imageText + suffix + ".jpg"
  }

  function CountChar(s: string, c: char): nat
    decreases |s|
  {
    if |s| == 0 then 0 else (if s[0] == c then 1 else 0) + CountChar(s[1..], c)
  }

  lemma {:induction false} CountCharConcat(a: string, b: string, c: char)
    ensures CountChar(a + b, c) == CountChar(a, c) + CountChar(b, c)
    decreases |a|
  {
    if |a| > 0 {
      assert (a + b)[1..] == a[1..] + b;
      CountCharConcat(a[1..], b, c);
    } else {
      assert a + b == b;
    }
  }

  lemma {:induction false} CountCharAbsent(s: string, c: char)
    requires c !in s
    ensures CountChar(s, c) == 0
    decreases |s|
  {
    if |s| > 0 {
      assert s[1..] <= s[1..];
      assert forall x :: x in s[1..] ==> x in s;
      CountCharAbsent(s[1..], c);
    }
  }

  lemma NoDotInDecimal(n: nat)
    ensures CountChar(Decimal(n), '.') == 0
  {
    assert '.' !in Decimal(n) by {
      forall i | 0 <= i < |Decimal(n)| ensures Decimal(n)[i] != '.' {
        assert IsDigit(Decimal(n)[i]);
      }
    }
    CountCharAbsent(Decimal(n), '.');
  }

  /** No catalogue suffix holds a dot. */
  lemma SuffixesDotless()
    ensures forall i :: 0 <= i < |Suffixes| ==> '.' !in Suffixes[i]
  {
  }

  /** The dots of a probed key: those of its parts, and the one before `jpg`. */
  lemma KeyDots(a: string, b: string, suffix: string)
    ensures CountChar(ProbedKeyAsWritten(a, b, suffix), '.') == CountChar(a, '.') + CountChar(b, '.') + CountChar(suffix, '.') + 1
  {
    var p := "images/deal/";
    var x1 := p + a;
    var x2 := x1 + "/";
    var x3 := x2 + b;
    var x4 := x3 + suffix;
    assert ProbedKeyAsWritten(a, b, suffix) == x4 + ".jpg";
    KeyTemplateDots();
    CountCharConcat(p, a, '.');
    CountCharConcat(x1, "/", '.');
    CountCharConcat(x2, b, '.');
    CountCharConcat(x3, suffix, '.');
    CountCharConcat(x4, ".jpg", '.');
  }

  /** The fixed parts of a key: one dot, before the extension. */
  lemma KeyTemplateDots()
    ensures CountChar("images/deal/", '.') == 0 && CountChar("/", '.') == 0 && CountChar(".jpg", '.') == 1
  {
    PrefixDotless();
    CountCharAbsent("/", '.');
    ExtensionDot();
  }

  lemma PrefixDotless()
    ensures CountChar("images/deal/", '.') == 0
  {
    var p := "images/deal/";
    assert '.' !in p;
    CountCharAbsent(p, '.');
  }

  lemma ExtensionDot()
    ensures CountChar(".jpg", '.') == 1
  {
    var e := ".jpg";
    assert e[1..] == "jpg";
    CountCharAbsent("jpg", '.');
  }

  lemma TextDots(v: nat, blank: bool)
    ensures CountChar(ColumnValueText(v, blank), '.') == if blank then 1 else 0
  {
    NoDotInDecimal(v);
    if blank {
      CountCharConcat(Decimal(v), ".0", '.');
      assert CountChar(".0", '.') == 1;
    }
  }

  /**
    With a blank cell in either id column, every probed key carries a second
    dot, so it is no catalogue key of any image: in a store of catalogue
    objects every probe misses, and the image is reported as failed.
   */
  lemma BlankCellMissesCatalogue(deal: nat, imageId: nat, k: nat, dealBlank: bool, imageBlank: bool,
                                 d2: nat, i2: nat, k2: nat)
    requires dealBlank || imageBlank
    requires k < |Suffixes| && k2 < |Suffixes|
    ensures ProbedKeyAsWritten(ColumnValueText(deal, dealBlank), ColumnValueText(imageId, imageBlank), Suffixes[k])
         != VariantKey(d2, i2, Suffixes[k2])
  {
    SuffixesDotless();
    CountCharAbsent(Suffixes[k], '.');
    CountCharAbsent(Suffixes[k2], '.');
    TextDots(deal, dealBlank);
    TextDots(imageId, imageBlank);
    NoDotInDecimal(d2);
    NoDotInDecimal(i2);
    KeyDots(ColumnValueText(deal, dealBlank), ColumnValueText(imageId, imageBlank), Suffixes[k]);
    KeyDots(Decimal(d2), Decimal(i2), Suffixes[k2]);
    assert VariantKey(d2, i2, Suffixes[k2]) == ProbedKeyAsWritten(Decimal(d2), Decimal(i2), Suffixes[k2]);
  }

  /** With integer ids, the probe is the catalogue key itself. */
  lemma IntegerIdsProbeCatalogue(deal: nat, imageId: nat, suffix: string)
    ensures ProbedKeyAsWritten(ColumnValueText(deal, false), ColumnValueText(imageId, false), suffix) == VariantKey(deal, imageId, suffix)
  {
  }
}

=== FILE: object_keys.dfy ===
/**
  Object-store naming: the key layout of deal images and their variants, the
  public URL of an object, the parsing of the source URLs of generated variants
  (`https://bucket.s3.amazonaws.com/key`, `https://bucket/key`, `s3://bucket/key`),
  the rewrite of an upload URL into the `s3://` path of a warehouse COPY, and the
  `:id` entries of the list API.
 */
module ObjectKeys {
  import opened Wrappers
  import opened Text

  /** `images/deal/{deal_id}/{image_id}{suffix}.jpg` */
  function VariantKey(dealId: nat, imageId: nat, suffix: string): string {
    "images/deal/" + Decimal(dealId) + "/" + Decimal(imageId) + suffix + ".jpg"
  }

  /** The folder holding every object of one deal. */
  function DealPrefix(dealId: nat): string {
    "images/deal/" + Decimal(dealId) + "/"
  }

  /** The AI candidate of an image is stored as `{image_id}00000.jpg`. */
  function CandidateKey(dealId: nat, imageId: nat): string {
    "images/deal/" + Decimal(dealId) + "/" + Decimal(imageId) + "00000.jpg"
  }

  /** The public URL of an object: `https://{bucket}/{key}`. */
  function HttpsUrl(bucket: string, key: string): string {
    "https://" + bucket + "/" + key
  }

  /** Within one bucket, distinct keys have distinct public URLs. */
  lemma HttpsUrlInjective(bucket: string, k1: string, k2: string)
    ensures HttpsUrl(bucket, k1) == HttpsUrl(bucket, k2) <==> k1 == k2
  {
    var n := |"https://" + bucket + "/"|;
    if HttpsUrl(bucket, k1) == HttpsUrl(bucket, k2) {
      assert k1 == HttpsUrl(bucket, k1)[n..];
      assert k2 == HttpsUrl(bucket, k2)[n..];
    }
  }

  function S3Url(bucket: string, key: string): string {
    "s3://" + bucket + "/" + key
  }

  /** Every key of a deal lies in the deal's folder; within it, distinct suffixes name distinct objects. */
  lemma VariantKeyLayout(dealId: nat, imageId: nat, s: string, t: string)
    ensures IsPrefix(DealPrefix(dealId), VariantKey(dealId, imageId, s))
    ensures VariantKey(dealId, imageId, s) == VariantKey(dealId, imageId, t) <==> s == t
  {
    var p := DealPrefix(dealId) + Decimal(imageId);
    assert VariantKey(dealId, imageId, s) == p + s + ".jpg";
    assert VariantKey(dealId, imageId, t) == p + t + ".jpg";
    assert VariantKey(dealId, imageId, s)[..|DealPrefix(dealId)|] == DealPrefix(dealId);
    if VariantKey(dealId, imageId, s) == VariantKey(dealId, imageId, t) {
      SameMiddle(p, s, t, ".jpg");
    }
  }

  /**
    The candidate key of image `i` is the base variant key of the scaled id
    `i * 100000` exactly when `i > 0`: the scaled id of 0 is written "0", not "000000".
   */
  lemma CandidateKeyIsScaledId(dealId: nat, imageId: nat)
    ensures CandidateKey(dealId, imageId) == VariantKey(dealId, imageId * 100000, "") <==> imageId > 0
  {
    var p := "images/deal/" + Decimal(dealId) + "/";
    DecimalTimes100000(imageId);
    assert CandidateKey(dealId, imageId) == p + (Decimal(imageId) + "00000") + ".jpg";
    assert VariantKey(dealId, imageId * 100000, "") == p + Decimal(imageId * 100000) + ".jpg";
    if CandidateKey(dealId, imageId) == VariantKey(dealId, imageId * 100000, "") {
      SameMiddle(p, Decimal(imageId) + "00000", Decimal(imageId * 100000), ".jpg");
    }
  }

  // ---------------------------------------------------------------------------
  // Source URL parsing
  // ---------------------------------------------------------------------------

  /** Where a variant to be copied lives. */
  datatype Location = Location(bucket: string, key: string)

  const Https := "https://"
  const S3Scheme := "s3://"
  const HostSuffix := ".s3.amazonaws.com/"

  /** `rest.split('/', 1)`: bucket, then key ("" when there is no '/'). */
  function BucketAndKey(rest: string): (l: Location)
    ensures '/' !in l.bucket
    ensures rest == l.bucket || rest == l.bucket + "/" + l.key
  {
    match SplitOnce(rest, "/")
    case None =>
      assert '/' !in rest by {
        if '/' in rest {
          var i :| 0 <= i < |rest| && rest[i] == '/';
          assert rest[i..i + 1] == "/";
          assert OccursAt(rest, "/", i);
        }
      }
      Location(rest, "")
    case Some(parts) =>
      FirstPieceLacksSeparator(rest, '/');
      Location(parts.0, parts.1)
  }

  lemma FirstPieceLacksSeparator(s: string, c: char)
    requires SplitOnce(s, [c]).Some?
    ensures c !in SplitOnce(s, [c]).value.0
  {
    var i := IndexOf(s, [c]).value;
    assert SplitOnce(s, [c]).value.0 == s[..i];
    forall j | 0 <= j < i ensures s[j] != c {
      if s[j] == c {
        assert s[j..j + 1] == [c];
        assert OccursAt(s, [c], j);
      }
    }
  }

  /** The URL the scheme tests look at: cut at '?' in the Oracle path, whole in the approved-variant path. */
  function Cleaned(url: string, dropQuery: bool): string {
    if dropQuery then Before(url, "?") else url
  }

  lemma CleanedKeepsScheme(url: string, dropQuery: bool)
    requires IsPrefix(Https, url)
    ensures Cleaned(url, dropQuery) == Https + Cleaned(url[|Https|..], dropQuery)
  {
    assert url == Https + url[|Https|..];
    if dropQuery {
      BeforePastPrefix(Https, url[|Https|..], '?');
    }
  }

  /**
    Source URL parsing with the scheme removed as a prefix only (the evidently
    intended behaviour). `dropQuery` selects the Oracle path, which discards a
    `?query` first; the approved-variant path keeps it. `None` is an unsupported
    scheme.
   */
  function ParseUrl(url: string, dropQuery: bool): (r: Option<Location>)
    ensures r.None? <==> !IsPrefix(Https, url) && !IsPrefix(S3Scheme, url)
    ensures IsPrefix(S3Scheme, url) ==> r == Some(BucketAndKey(url[|S3Scheme|..]))
  {
    if IsPrefix(Https, url) then
      var clean := Cleaned(url, dropQuery);
      var rest := Cleaned(url[|Https|..], dropQuery);
      CleanedKeepsScheme(url, dropQuery);
      assert url[0] == 'h';
      if Contains(clean, HostSuffix) then
        ContainsPastPrefix(Https, rest, HostSuffix);
        var parts := SplitOnce(rest, HostSuffix).value;
        Some(Location(parts.0, parts.1))
      else
        Some(BucketAndKey(rest))
    else if IsPrefix(S3Scheme, url) then
      Some(BucketAndKey(url[|S3Scheme|..]))
    else
      None
  }

  /**
    The parsing as the source writes it: `url.replace('https://', '')` and
    `url.replace('s3://', '')` delete EVERY occurrence of the scheme, not only
    the leading one. `None` is an unsupported scheme or a failed split.
   */
  function ParseUrlAsWritten(url: string, dropQuery: bool): (r: Option<Location>)
    ensures !IsPrefix(Https, url) && !IsPrefix(S3Scheme, url) ==> r.None?
    ensures !IsPrefix(Https, url) && IsPrefix(S3Scheme, url) ==> r.Some?
  {
    if IsPrefix(Https, url) then
      var clean := Cleaned(url, dropQuery);
      var stripped := ReplaceAll(clean, Https, "");
      if Contains(clean, HostSuffix) then
        match SplitOnce(stripped, HostSuffix)
        case None => None
        case Some(parts) => Some(Location(parts.0, parts.1))
      else
        Some(BucketAndKey(stripped))
    else if IsPrefix(S3Scheme, url) then
      Some(BucketAndKey(ReplaceAll(url, S3Scheme, "")))
    else
      None
  }

  /**
    The parse an operation performs: the one the source writes (`asWritten`)
    or the corrected one. Either way a URL with neither scheme is refused and
    an `s3://` URL is read.
   */
  function ParseUrlBy(url: string, dropQuery: bool, asWritten: bool): (r: Option<Location>)
    ensures !IsPrefix(Https, url) && !IsPrefix(S3Scheme, url) ==> r.None?
    ensures !IsPrefix(Https, url) && IsPrefix(S3Scheme, url) ==> r.Some?
    ensures !asWritten ==> (r.None? <==> !IsPrefix(Https, url) && !IsPrefix(S3Scheme, url))
  {
    if asWritten then ParseUrlAsWritten(url, dropQuery) else ParseUrl(url, dropQuery)
  }

  /** Round trip: an `s3://bucket/key` URL yields its bucket and key, whatever the key holds. */
  lemma ParseS3Url(bucket: string, key: string, dropQuery: bool)
    requires '/' !in bucket
    ensures ParseUrl(S3Url(bucket, key), dropQuery) == Some(Location(bucket, key))
  {
    var url := S3Url(bucket, key);
    assert url[..|S3Scheme|] == S3Scheme;
    assert url[|S3Scheme|..] == bucket + "/" + key;
    SplitOnceAt(bucket, "/", key);
  }

  /** Text holding no '?' (when the query is dropped) is unaffected by the cut. */
  lemma CleanedNoQuery(s: string, dropQuery: bool)
    requires dropQuery ==> '?' !in s
    ensures Cleaned(s, dropQuery) == s
  {
    if dropQuery {
      MissingCharNotContained(s, "?", 0);
      BeforeAbsent(s, "?");
    }
  }

  /**
    Round trip: a path-style URL `https://bucket/key` yields its bucket and key,
    provided the text after the scheme does not look host-style.
   */
  lemma ParseHttpsUrl(bucket: string, key: string, dropQuery: bool)
    requires '/' !in bucket
    requires dropQuery ==> '?' !in bucket && '?' !in key
    requires !Contains(bucket + "/" + key, HostSuffix)
    ensures ParseUrl(HttpsUrl(bucket, key), dropQuery) == Some(Location(bucket, key))
  {
    var x := bucket + "/" + key;
    var url := HttpsUrl(bucket, key);
    assert url == Https + x;
    assert url[..|Https|] == Https;
    assert url[|Https|..] == x;
    CleanedNoQuery(x, dropQuery);
    CleanedKeepsScheme(url, dropQuery);
    if Contains(Https + x, HostSuffix) {
      ContainsPastPrefix(Https, x, HostSuffix);
    }
    SplitOnceAt(bucket, "/", key);
  }

  /** Round trip: a host-style URL `https://bucket.s3.amazonaws.com/key` yields its bucket and key. */
  lemma ParseHostStyleUrl(bucket: string, key: string, dropQuery: bool)
    requires '/' !in bucket
    requires dropQuery ==> '?' !in bucket && '?' !in key
    ensures ParseUrl(Https + bucket + HostSuffix + key, dropQuery) == Some(Location(bucket, key))
  {
    var x := bucket + HostSuffix + key;
    var url := Https + bucket + HostSuffix + key;
    assert url == Https + x;
    assert url[..|Https|] == Https;
    assert url[|Https|..] == x;
    assert dropQuery ==> '?' !in x;
    CleanedNoQuery(x, dropQuery);
    CleanedKeepsScheme(url, dropQuery);
    assert url[|Https| + |bucket|..|Https| + |bucket| + |HostSuffix|] == HostSuffix;
    assert OccursAt(url, HostSuffix, |Https| + |bucket|);
    SplitOnceAt(bucket, HostSuffix, key);
  }

  /** The approved-variant path keeps a query string after a path-style URL as part of the key. */
  lemma QueryKeptInKey(bucket: string, key: string, query: string)
    requires '/' !in bucket
    requires !Contains(bucket + "/" + key + "?" + query, HostSuffix)
    ensures ParseUrl(HttpsUrl(bucket, key) + "?" + query, false) == Some(Location(bucket, key + "?" + query))
  {
    assert HttpsUrl(bucket, key) + "?" + query == HttpsUrl(bucket, key + "?" + query);
    assert bucket + "/" + (key + "?" + query) == bucket + "/" + key + "?" + query;
    ParseHttpsUrl(bucket, key + "?" + query, false);
  }

  /** A path-style URL with a query is the https scheme followed by the bucket, key and query. */
  lemma HttpsWithQuery(bucket: string, key: string, query: string)
    ensures IsPrefix(Https, HttpsUrl(bucket, key) + "?" + query)
    ensures !IsPrefix(S3Scheme, HttpsUrl(bucket, key) + "?" + query)
    ensures (HttpsUrl(bucket, key) + "?" + query)[|Https|..] == bucket + "/" + key + "?" + query
  {
    var url := HttpsUrl(bucket, key) + "?" + query;
    var path := bucket + "/" + key;
    assert HttpsUrl(bucket, key) == Https + path;
    assert url == Https + (path + "?" + query);
    assert url[..|Https|] == Https;
    assert url[0] == 'h' && S3Scheme[0] == 's';
  }

  /** Both parses keep the query of a path-style URL in which the scheme text does not recur. */
  lemma QueryKeptByBoth(bucket: string, key: string, query: string, asWritten: bool)
    requires '/' !in bucket
    requires !Contains(bucket + "/" + key + "?" + query, HostSuffix)
    requires !Contains(bucket + "/" + key + "?" + query, Https)
    ensures IsPrefix(Https, HttpsUrl(bucket, key) + "?" + query)
    ensures ParseUrlBy(HttpsUrl(bucket, key) + "?" + query, false, asWritten) == Some(Location(bucket, key + "?" + query))
  {
    QueryKeptInKey(bucket, key, query);
    HttpsWithQuery(bucket, key, query);
    AsWrittenAgrees(HttpsUrl(bucket, key) + "?" + query, false);
  }

  /** The Oracle path discards a query string after a path-style URL. */
  lemma QueryDropped(bucket: string, key: string, query: string)
    requires '/' !in bucket && '?' !in bucket && '?' !in key
    requires !Contains(bucket + "/" + key, HostSuffix)
    ensures ParseUrl(HttpsUrl(bucket, key) + "?" + query, true) == ParseUrl(HttpsUrl(bucket, key), true)
    ensures ParseUrl(HttpsUrl(bucket, key) + "?" + query, true) == Some(Location(bucket, key))
  {
    var x := bucket + "/" + key;
    var url := HttpsUrl(bucket, key) + "?" + query;
    assert url == Https + (x + "?" + query);
    assert url[..|Https|] == Https;
    assert url[|Https|..] == x + "?" + query;
    assert '?' !in x;
    SplitOnceAfter(x, "?", query);
    assert Cleaned(url[|Https|..], true) == x;
    CleanedKeepsScheme(url, true);
    ParseHttpsUrl(bucket, key, true);
    CleanedNoQuery(x, true);
    assert HttpsUrl(bucket, key) == Https + x;
    assert HttpsUrl(bucket, key)[|Https|..] == x;
    CleanedKeepsScheme(HttpsUrl(bucket, key), true);
  }

  /**
    When the scheme text does not recur after the leading scheme, the parse as
    written and the corrected parse agree.
   */
  lemma AsWrittenAgrees(url: string, dropQuery: bool)
    requires IsPrefix(Https, url) ==> !Contains(url[|Https|..], Https)
    requires IsPrefix(S3Scheme, url) ==> !Contains(url[|S3Scheme|..], S3Scheme)
    ensures ParseUrlAsWritten(url, dropQuery) == ParseUrl(url, dropQuery)
  {
    if IsPrefix(Https, url) {
      var x := url[|Https|..];
      var y := Cleaned(x, dropQuery);
      CleanedKeepsScheme(url, dropQuery);
      if Contains(y, Https) {
        BeforeIsPrefix(x, "?");
        ContainsInPrefix(y, x, Https);
      }
      ReplaceAllLeading(Https, y, "");
      ReplaceAllAbsent(y, Https, "");
      assert ReplaceAll(Cleaned(url, dropQuery), Https, "") == y;
      if Contains(Cleaned(url, dropQuery), HostSuffix) {
        ContainsPastPrefix(Https, y, HostSuffix);
      }
    } else if IsPrefix(S3Scheme, url) {
      var x := url[|S3Scheme|..];
      assert url == S3Scheme + x;
      ReplaceAllLeading(S3Scheme, x, "");
      ReplaceAllAbsent(x, S3Scheme, "");
      assert ReplaceAll(url, S3Scheme, "") == x;
      assert url[0] == 's';
    }
  }

  /** The as-written parse of a path-style `https://` URL. */
  lemma AsWrittenPathStyle(url: string, dropQuery: bool)
    requires IsPrefix(Https, url) && !Contains(Cleaned(url, dropQuery), HostSuffix)
    ensures ParseUrlAsWritten(url, dropQuery) == Some(BucketAndKey(ReplaceAll(Cleaned(url, dropQuery), Https, "")))
  {
  }

  /** Deleting every `https://` from `https://{bucket}/https://{key}` leaves `{bucket}/{key}`. */
  lemma DeleteBothSchemes(bucket: string, key: string)
    requires 'h' !in bucket && !Contains(key, Https)
    ensures ReplaceAll(HttpsUrl(bucket, Https + key), Https, "") == bucket + "/" + key
  {
    var x := bucket + "/" + Https + key;
    assert HttpsUrl(bucket, Https + key) == Https + x;
    ReplaceAllLeading(Https, x, "");
    assert x == (bucket + "/") + Https + key;
    SplitOnceAfter(bucket + "/", Https, key);
    assert x[|bucket + "/"| + |Https|..] == key;
    ReplaceAllAbsent(key, Https, "");
  }

  /**
    The scheme deleted mid-URL: for an object whose key itself starts with
    `https://`, the corrected parse names that object, while the parse as
    written drops the inner scheme and names a different object.
   */
  lemma RepeatedSchemeMisparsed(bucket: string, key: string, dropQuery: bool)
    requires '/' !in bucket && 'h' !in bucket
    requires dropQuery ==> '?' !in bucket && '?' !in key
    requires !Contains(bucket + "/" + Https + key, HostSuffix) && !Contains(key, Https)
    ensures ParseUrl(HttpsUrl(bucket, Https + key), dropQuery) == Some(Location(bucket, Https + key))
    ensures ParseUrlAsWritten(HttpsUrl(bucket, Https + key), dropQuery) == Some(Location(bucket, key))
  {
    assert bucket + "/" + (Https + key) == bucket + "/" + Https + key;
    ParseHttpsUrl(bucket, Https + key, dropQuery);
    NestedSchemePathStyle(bucket, key, dropQuery);
    DeleteBothSchemes(bucket, key);
    SplitOnceAt(bucket, "/", key);
  }

  /** The URL with a nested scheme is path-style and unaffected by the query cut. */
  lemma NestedSchemePathStyle(bucket: string, key: string, dropQuery: bool)
    requires dropQuery ==> '?' !in bucket && '?' !in key
    requires !Contains(bucket + "/" + Https + key, HostSuffix)
    ensures ParseUrlAsWritten(HttpsUrl(bucket, Https + key), dropQuery)
            == Some(BucketAndKey(ReplaceAll(HttpsUrl(bucket, Https + key), Https, "")))
  {
    var url := HttpsUrl(bucket, Https + key);
    var x := bucket + "/" + Https + key;
    assert url == Https + x;
    assert dropQuery ==> '?' !in x;
    CleanedNoQuery(x, dropQuery);
    CleanedKeepsScheme(url, dropQuery);
    assert url[|Https|..] == x;
    assert !Contains(url, HostSuffix) by {
      if Contains(url, HostSuffix) {
        ContainsPastPrefix(Https, x, HostSuffix);
      }
    }
    AsWrittenPathStyle(url, dropQuery);
  }

  /** A concrete instance: `https://b/https://k` is read as object `k` instead of `https://k`. */
  lemma RepeatedSchemeExample(dropQuery: bool)
    ensures ParseUrl(HttpsUrl("b", Https + "k"), dropQuery) == Some(Location("b", Https + "k"))
    ensures ParseUrlAsWritten(HttpsUrl("b", Https + "k"), dropQuery) == Some(Location("b", "k"))
  {
    var b, k := "b", "k";
    TooLongToContain(b + "/" + Https + k, HostSuffix);
    TooLongToContain(k, Https);
    assert '/' !in b && 'h' !in b && '?' !in b && '?' !in k;
    RepeatedSchemeMisparsed(b, k, dropQuery);
  }

  // ---------------------------------------------------------------------------
  // Warehouse COPY path and list API entries
  // ---------------------------------------------------------------------------

  /** `temp/ai_image_variants_{YYYYmmddHHMMSS}.csv` */
  function StagingKey(stamp: string): string {
    "temp/ai_image_variants_" + stamp + ".csv"
  }

  /** `s3_url.replace('https://{bucket}/', 's3://{bucket}/')` */
  function CopyPath(url: string, bucket: string): string {
    ReplaceAll(url, "https://" + bucket + "/", "s3://" + bucket + "/")
  }

  /**
    The COPY path derived from the uploaded staging file's public URL is the
    `s3://` URL of that same object, and it parses back to bucket and key.
   */
  lemma CopyPathOfStagingUpload(bucket: string, stamp: string)
    requires '/' !in bucket && AllDigits(stamp)
    ensures CopyPath(HttpsUrl(bucket, StagingKey(stamp)), bucket) == S3Url(bucket, StagingKey(stamp))
    ensures ParseUrl(CopyPath(HttpsUrl(bucket, StagingKey(stamp)), bucket), false) == Some(Location(bucket, StagingKey(stamp)))
  {
    var key := StagingKey(stamp);
    var pat := "https://" + bucket + "/";
    assert HttpsUrl(bucket, key) == pat + key;
    ReplaceAllLeading(pat, key, "s3://" + bucket + "/");
    assert pat[5] == ':';
    assert ':' !in key by {
      assert forall i :: 0 <= i < |stamp| ==> IsDigit(stamp[i]);
    }
    MissingCharNotContained(key, pat, 5);
    ReplaceAllAbsent(key, pat, "s3://" + bucket + "/");
    assert S3Url(bucket, key) == "s3://" + bucket + "/" + key;
    ParseS3Url(bucket, key, false);
  }

  /** `f":{id}"`: one entry of the list API payload. */
  function ListEntry(imageId: nat): string {
    ":" + Decimal(imageId)
  }

  /** The id survives the list entry format: it is recovered from everything after the colon. */
  lemma ListEntryRoundTrip(imageId: nat)
    ensures ListEntry(imageId)[0] == ':'
    ensures AllDigits(ListEntry(imageId)[1..]) && ParseDigits(ListEntry(imageId)[1..]) == imageId
  {
    assert ListEntry(imageId)[1..] == Decimal(imageId);
    ParseDecimal(imageId);
  }
}

=== FILE: oracle_images.dfy ===
/**
  The older Oracle helpers: adding a gallery image at a given position, adding a
  main image in front of all others, copying an image's objects under a new id,
  and promoting an approved variant (copy its object, shift the gallery, insert
  at position 0).
 */
module OracleImages {
  import opened Wrappers
  import opened Text
  import opened Reorder
  import opened ObjectKeys

  const StaticImageRoot := "https://static.wowcher.co.uk/images/deal/"
  /** processImage adds nothing beyond gallery position 10. */
  const MaxGalleryPosition := 10
  /** The user id processImage records as creator. */
  const BulkCreatorUserId := 60448730

  /** RESOURCE_PATH of a deal's images on the public host. */
  function ResourcePath(deal: nat): string {
    StaticImageRoot + Decimal(deal)
  }

  /** `{deal}_{image}_{kind}_{unix seconds}.jpg` */
  function StampedFileName(deal: nat, imageId: nat, kind: string, ts: nat): string {
    Decimal(deal) + "_" + Decimal(imageId) + "_" + kind + "_" + Decimal(ts) + ".jpg"
  }

  /** The row these helpers insert: file name as caption and alt text, "jpg", iPhone flag 'Y'. */
  function FreshRow(newId: nat, deal: nat, fileName: string, position: int, createdBy: nat): ImageRow {
    ImageRow(newId, deal, ResourcePath(deal), ActiveStatus, fileName, fileName, position, fileName,
             Some("jpg"), Some("Y"), createdBy)
  }

  /** `UPDATE ... SET POSITION = POSITION + 1 WHERE DEAL_VOUCHER_ID = deal`, whatever the status. */
  function ShiftDeal(t: Table, deal: nat): (u: Table)
    ensures |u| == |t|
    ensures forall i :: 0 <= i < |t| ==> u[i].position == if t[i].dealId == deal then t[i].position + 1 else t[i].position
    ensures forall i :: 0 <= i < |t| ==> u[i].(position := t[i].position) == t[i]
  {
    seq(|t|, i requires 0 <= i < |t| => if t[i].dealId == deal then t[i].(position := t[i].position + 1) else t[i])
  }

  /**
    `processImage`: a gallery image inserted at position `n`, without moving
    any other row. Positions above 10 are refused before an id is drawn; an
    image that cannot be fetched or opened (`readable` false) is skipped after
    the id is drawn. The result pairs the table with whether an id was drawn.
   */
  function ProcessImage(t: Table, deal: nat, n: int, newId: nat, ts: nat, readable: bool): (r: (Table, bool))
    ensures r.1 <==> n <= MaxGalleryPosition
    ensures |r.0| == if n <= MaxGalleryPosition && readable then |t| + 1 else |t|
  {
    if n > MaxGalleryPosition then (t, false)
    else if !readable then (t, true)
    else (t + [FreshRow(newId, deal, StampedFileName(deal, newId, "original", ts), n, BulkCreatorUserId)], true)
  }

  /**
    processImage leaves every existing row alone and appends at most one row,
    at the requested position; when an active row of the deal already holds
    that position, two rows now share it.
   */
  lemma ProcessImageAppendsOnly(t: Table, deal: nat, n: int, newId: nat, ts: nat, readable: bool)
    ensures var u := ProcessImage(t, deal, n, newId, ts, readable).0;
      u[..|t|] == t && (|u| > |t| ==> u[|t|].position == n && Active(u[|t|], deal) && u[|t|].id == newId)
    ensures var u := ProcessImage(t, deal, n, newId, ts, readable).0;
      |u| > |t| ==> forall i :: 0 <= i < |t| && Active(t[i], deal) && t[i].position == n ==>
        Active(u[i], deal) && u[i].position == u[|t|].position
  {
  }

  /** `processMain`: every row of the deal moves down one place and the new image takes position 0. */
  function ProcessMain(t: Table, deal: nat, newId: nat, ts: nat, readable: bool): (u: Table)
    ensures |u| == if readable then |t| + 1 else |t|
  {
    if !readable then t
    else ShiftDeal(t, deal) + [FreshRow(newId, deal, StampedFileName(deal, newId, "original", ts), 0, CreatorUserId)]
  }

  /** Distinct, non-negative positions among all rows of a deal below `bound`. */
  predicate PositionsWithin(t: Table, deal: nat, bound: int) {
    && (forall i :: 0 <= i < |t| && t[i].dealId == deal ==> 0 <= t[i].position < bound)
    && (forall i, j :: 0 <= i < j < |t| && t[i].dealId == deal && t[j].dealId == deal ==> t[i].position != t[j].position)
  }

  /**
    Shift-then-insert at 0: other deals are untouched, the deal's rows keep
    their relative order, and a deal whose rows hold distinct positions below
    `bound` afterwards holds distinct positions below `bound + 1`, the new row
    alone at 0.
   */
  lemma ShiftInsertKeepsOrder(t: Table, deal: nat, row: ImageRow, bound: nat)
    requires row.dealId == deal && row.position == 0
    ensures var u := ShiftDeal(t, deal) + [row];
      && (forall i :: 0 <= i < |t| && t[i].dealId != deal ==> u[i] == t[i])
      && (forall i :: 0 <= i < |t| && t[i].dealId == deal ==> u[i] == t[i].(position := t[i].position + 1))
      && (forall i, j :: 0 <= i < |t| && 0 <= j < |t| && t[i].dealId == deal && t[j].dealId == deal ==>
            (t[i].position < t[j].position <==> u[i].position < u[j].position))
    ensures PositionsWithin(t, deal, bound) ==>
      var u := ShiftDeal(t, deal) + [row];
      PositionsWithin(u, deal, bound + 1) && forall i :: 0 <= i < |t| && u[i].dealId == deal ==> u[i].position > 0
  {
    var u := ShiftDeal(t, deal) + [row];
    if PositionsWithin(t, deal, bound) {
      forall i, j | 0 <= i < j < |u| && u[i].dealId == deal && u[j].dealId == deal
        ensures u[i].position != u[j].position
      {
        if j < |t| {
          assert t[i].position != t[j].position;
        }
      }
    }
  }

  /** processMain preserves distinct positions and puts the new image, alone, first. */
  lemma ProcessMainPutsFirst(t: Table, deal: nat, newId: nat, ts: nat, bound: nat)
    requires PositionsWithin(t, deal, bound)
    ensures var u := ProcessMain(t, deal, newId, ts, true);
      && PositionsWithin(u, deal, bound + 1)
      && u[|t|].id == newId && u[|t|].position == 0
      && forall i :: 0 <= i < |t| && u[i].dealId == deal ==> u[i].position > 0
  {
    ShiftInsertKeepsOrder(t, deal, FreshRow(newId, deal, StampedFileName(deal, newId, "original", ts), 0, CreatorUserId), bound);
  }

  // ---------------------------------------------------------------------------
  // copy_existing_s3_files
  // ---------------------------------------------------------------------------

  /**
    The new key of one listed key, as the source computes it: any key holding
    the original id's digits ANYWHERE (the deal folder included) is matched,
    and every occurrence is replaced.
   */
  function RenameAsWritten(key: string, orig: nat, target: nat): (r: Option<string>)
    ensures r.Some? <==> Contains(key, Decimal(orig))
  {
    if Contains(key, Decimal(orig)) then Some(ReplaceAll(key, Decimal(orig), Decimal(target))) else None
  }

  /**
    The new key of one listed key with the match confined to the file name
    below the deal folder: the folder is kept and only the file name is rewritten.
   */
  function RenameInDeal(key: string, deal: nat, orig: nat, target: nat): (r: Option<string>)
    ensures r.Some? ==> IsPrefix(DealPrefix(deal), r.value)
  {
    var p := DealPrefix(deal);
    if IsPrefix(p, key) && Contains(key[|p|..], Decimal(orig)) then
      var name := ReplaceAll(key[|p|..], Decimal(orig), Decimal(target));
      assert (p + name)[..|p|] == p;
      Some(p + name)
    else None
  }

  /** A catalogue object of the original image is renamed to the same catalogue object of the new image. */
  lemma RenameCatalogueObject(deal: nat, orig: nat, target: nat, suffix: string)
    requires !Contains(suffix + ".jpg", Decimal(orig))
    ensures RenameInDeal(VariantKey(deal, orig, suffix), deal, orig, target) == Some(VariantKey(deal, target, suffix))
  {
    var p := DealPrefix(deal);
    assert VariantKey(deal, orig, suffix) == p + (Decimal(orig) + (suffix + ".jpg"));
    assert VariantKey(deal, target, suffix) == p + (Decimal(target) + (suffix + ".jpg"));
    RenameFileName(p, Decimal(orig), suffix + ".jpg", Decimal(target));
  }

  /** Below a folder `p`, a file name that starts with `d` and holds it nowhere else has only that `d` replaced. */
  lemma RenameFileName(p: string, d: string, rest: string, e: string)
    requires 0 < |d| && !Contains(rest, d)
    ensures IsPrefix(p, p + (d + rest)) && (p + (d + rest))[|p|..] == d + rest
    ensures Contains(d + rest, d)
    ensures ReplaceAll(d + rest, d, e) == e + rest
  {
    assert (p + (d + rest))[..|p|] == p;
    assert (d + rest)[..|d|] == d;
    assert OccursAt(d + rest, d, 0);
    ReplaceAllLeading(d, rest, e);
    ReplaceAllAbsent(rest, d, e);
  }

  /** Replacing a one-character id that occurs twice, once in the folder and once in the file name. */
  lemma ReplaceBoth(a: string, b: string, c: string, x: char, y: char)
    requires x !in a && x !in b && x !in c
    ensures ReplaceAll(a + [x] + b + [x] + c, [x], [y]) == a + [y] + b + [y] + c
  {
    assert a + [x] + b + [x] + c == a + [x] + (b + [x] + c);
    ReplaceAllAfter(a, [x], b + [x] + c, [y]);
    ReplaceAllAfter(b, [x], c, [y]);
    MissingCharNotContained(c, [x], 0);
    ReplaceAllAbsent(c, [x], [y]);
  }

  lemma SharedDigitsDecimals()
    ensures Decimal(5) == "5" && Decimal(9) == "9" && Decimal(512) == "512"
  {
    assert Decimal(51) == "51";
  }

  /** A one-digit id occurring twice in a key is replaced in both places. */
  lemma RenameAsWrittenTwice(a: string, b: string, c: string, orig: nat, target: nat)
    requires orig < 10 && target < 10
    requires DigitChar(orig) !in a && DigitChar(orig) !in b && DigitChar(orig) !in c
    ensures RenameAsWritten(a + Decimal(orig) + b + Decimal(orig) + c, orig, target)
         == Some(a + Decimal(target) + b + Decimal(target) + c)
  {
    var key := a + Decimal(orig) + b + Decimal(orig) + c;
    ReplaceBoth(a, b, c, DigitChar(orig), DigitChar(target));
    assert key[|a|..|a| + 1] == Decimal(orig);
    assert OccursAt(key, Decimal(orig), |a|);
  }

  lemma SharedDigitsRenamed(deal: nat, orig: nat, target: nat)
    requires deal == 512 && orig == 5 && target == 9
    ensures RenameAsWritten(VariantKey(deal, orig, ""), orig, target) == Some("images/deal/912/9.jpg")
  {
    SharedDigitsSourceKey(deal, orig);
    FiveAbsent(orig);
    RenameAsWrittenTwice("images/deal/", "12/", ".jpg", orig, target);
    SharedDigitsRewritten(target);
  }

  lemma SharedDigitsSourceKey(deal: nat, orig: nat)
    requires deal == 512 && orig == 5
    ensures VariantKey(deal, orig, "") == "images/deal/" + Decimal(orig) + "12/" + Decimal(orig) + ".jpg"
  {
    SharedDigitsDecimals();
  }

  lemma FiveAbsent(orig: nat)
    requires orig == 5
    ensures orig < 10 && DigitChar(orig) == '5'
    ensures DigitChar(orig) !in "images/deal/" && DigitChar(orig) !in "12/" && DigitChar(orig) !in ".jpg"
  {
  }

  lemma SharedDigitsRewritten(target: nat)
    requires target == 9
    ensures "images/deal/" + Decimal(target) + "12/" + Decimal(target) + ".jpg" == "images/deal/912/9.jpg"
  {
    SharedDigitsDecimals();
  }

  lemma SharedDigitsOtherFolder(deal: nat)
    requires deal == 512
    ensures !IsPrefix(DealPrefix(deal), "images/deal/912/9.jpg")
  {
    SharedDigitsDecimals();
    assert DealPrefix(deal) == "images/deal/512/";
    assert "images/deal/912/9.jpg"[..16][12] == '9';
  }

  /**
    Copying image 5 of deal 512 as image 9: the source also rewrites the deal
    folder and writes `images/deal/912/9.jpg`, into another deal's folder.
   */
  lemma SharedDigitsLeaveDeal(deal: nat, orig: nat, target: nat)
    requires deal == 512 && orig == 5 && target == 9
    ensures var r := RenameAsWritten(VariantKey(deal, orig, ""), orig, target);
      r.Some? && !IsPrefix(DealPrefix(deal), r.value)
  {
    SharedDigitsRenamed(deal, orig, target);
    SharedDigitsOtherFolder(deal);
  }

  /** With the match confined to the file name, the same copy is `images/deal/512/9.jpg`. */
  lemma SharedDigitsStayInDeal(deal: nat, orig: nat, target: nat)
    requires deal == 512 && orig == 5 && target == 9
    ensures RenameInDeal(VariantKey(deal, orig, ""), deal, orig, target) == Some("images/deal/512/9.jpg")
  {
    NoFiveInExtension(orig);
    RenameCatalogueObject(deal, orig, target, "");
    SharedDigitsTargetKey(deal, target);
  }

  lemma NoFiveInExtension(orig: nat)
    requires orig == 5
    ensures !Contains("" + ".jpg", Decimal(orig))
  {
    SharedDigitsDecimals();
    assert "" + ".jpg" == ".jpg";
    MissingCharNotContained(".jpg", Decimal(orig), 0);
  }

  lemma SharedDigitsTargetKey(deal: nat, target: nat)
    requires deal == 512 && target == 9
    ensures VariantKey(deal, target, "") == "images/deal/512/9.jpg"
  {
    SharedDigitsDecimals();
  }

  /** One copied object: its old and its new public URL. */
  datatype CopiedFile = CopiedFile(original: string, copy: string)

  /**
    The new key of one listed key: as the source computes it (`confined` false)
    or with the match confined to the file name (`confined` true).
   */
  function Rename(key: string, deal: nat, orig: nat, target: nat, confined: bool): Option<string> {
    if confined then RenameInDeal(key, deal, orig, target) else RenameAsWritten(key, orig, target)
  }

  /** The (listed key, new key) pairs of the matched keys, in listing order. */
  function Renames(keys: seq<string>, deal: nat, orig: nat, target: nat, confined: bool): (r: seq<(string, string)>)
    ensures forall i :: 0 <= i < |r| ==> r[i].0 in keys && Rename(r[i].0, deal, orig, target, confined) == Some(r[i].1)
    ensures forall k :: k in keys && Rename(k, deal, orig, target, confined).Some? ==>
      (k, Rename(k, deal, orig, target, confined).value) in r
    ensures |r| <= |keys|
  {
    if |keys| == 0 then []
    else
      var rest := Renames(keys[1..], deal, orig, target, confined);
      assert forall k :: k in keys <==> k == keys[0] || k in keys[1..];
      match Rename(keys[0], deal, orig, target, confined)
      case None => rest
      case Some(k2) => [(keys[0], k2)] + rest
  }

  function NewObjects(bucket: string, pairs: seq<(string, string)>): set<Location> {
    set p | p in pairs :: Location(bucket, p.1)
  }

  /**
    `copy_existing_s3_files`: list the deal folder (`None` when the listing has
    no contents), copy every matched object to its new key, and report the
    pairs of URLs. A copy that raises at index `failAt` ends the loop: the
    copies before it stay, and the report is empty. With `confined` false the
    keys are matched and rewritten as the source does; with it true the match
    is confined to the file name, and every copy stays in the deal's folder.
   */
  function CopyExistingFiles(store: set<Location>, bucket: string, deal: nat, orig: nat, target: nat,
                             listing: Option<seq<string>>, failAt: Option<nat>, confined: bool): (r: (set<Location>, seq<CopiedFile>))
    ensures store <= r.0
    ensures forall l :: l in r.0 - store ==> l.bucket == bucket
    ensures confined ==> forall l :: l in r.0 - store ==> IsPrefix(DealPrefix(deal), l.key)
    ensures listing.None? ==> r == (store, [])
    ensures |r.1| > 0 ==> listing.Some? && (failAt.None? || failAt.value >= |r.1|)
    ensures listing.Some? && failAt.Some? && failAt.value < |Renames(listing.value, deal, orig, target, confined)| ==>
      r == (store + NewObjects(bucket, Renames(listing.value, deal, orig, target, confined)[..failAt.value]), [])
    ensures listing.Some? && (failAt.None? || failAt.value >= |Renames(listing.value, deal, orig, target, confined)|) ==>
      var pairs := Renames(listing.value, deal, orig, target, confined);
      && r.0 == store + NewObjects(bucket, pairs) && |r.1| == |pairs|
      && forall i :: 0 <= i < |pairs| ==> r.1[i] == CopiedFile(HttpsUrl(bucket, pairs[i].0), HttpsUrl(bucket, pairs[i].1))
  {
    match listing
    case None => (store, [])
    case Some(keys) =>
      var pairs := Renames(keys, deal, orig, target, confined);
      if failAt.Some? && failAt.value < |pairs| then
        (store + NewObjects(bucket, pairs[..failAt.value]), [])
      else
        (store + NewObjects(bucket, pairs),
         seq(|pairs|, i requires 0 <= i < |pairs| => CopiedFile(HttpsUrl(bucket, pairs[i].0), HttpsUrl(bucket, pairs[i].1))))
  }

  /**
    As written, with no failure, a listed key is reported iff it holds the
    original id's digits, and its copy is the key with every occurrence replaced.
   */
  lemma CopiedIffContains(store: set<Location>, bucket: string, deal: nat, orig: nat, target: nat, keys: seq<string>, key: string)
    requires key in keys
    ensures var r := CopyExistingFiles(store, bucket, deal, orig, target, Some(keys), None, false);
      && (Contains(key, Decimal(orig)) ==>
            CopiedFile(HttpsUrl(bucket, key), HttpsUrl(bucket, ReplaceAll(key, Decimal(orig), Decimal(target)))) in r.1
            && Location(bucket, ReplaceAll(key, Decimal(orig), Decimal(target))) in r.0)
      && (!Contains(key, Decimal(orig)) ==> forall c :: c in r.1 ==> c.original != HttpsUrl(bucket, key))
  {
    var pairs := Renames(keys, deal, orig, target, false);
    var r := CopyExistingFiles(store, bucket, deal, orig, target, Some(keys), None, false);
    if Contains(key, Decimal(orig)) {
      var p := (key, ReplaceAll(key, Decimal(orig), Decimal(target)));
      assert p in pairs;
      var i :| 0 <= i < |pairs| && pairs[i] == p;
      assert r.1[i] == CopiedFile(HttpsUrl(bucket, p.0), HttpsUrl(bucket, p.1));
    } else {
      forall c | c in r.1 ensures c.original != HttpsUrl(bucket, key) {
        var i :| 0 <= i < |r.1| && r.1[i] == c;
        HttpsUrlInjective(bucket, pairs[i].0, key);
      }
    }
  }

  /** When no copy fails, every catalogue object of the original image is reported and copied under the new id. */
  lemma CopyCoversCatalogue(store: set<Location>, bucket: string, deal: nat, orig: nat, target: nat,
                            keys: seq<string>, suffix: string)
    requires VariantKey(deal, orig, suffix) in keys && !Contains(suffix + ".jpg", Decimal(orig))
    ensures var r := CopyExistingFiles(store, bucket, deal, orig, target, Some(keys), None, true);
      && Location(bucket, VariantKey(deal, target, suffix)) in r.0
      && CopiedFile(HttpsUrl(bucket, VariantKey(deal, orig, suffix)), HttpsUrl(bucket, VariantKey(deal, target, suffix))) in r.1
  {
    RenameCatalogueObject(deal, orig, target, suffix);
    var pairs := Renames(keys, deal, orig, target, true);
    var p := (VariantKey(deal, orig, suffix), VariantKey(deal, target, suffix));
    assert p in pairs;
    var i :| 0 <= i < |pairs| && pairs[i] == p;
    var r := CopyExistingFiles(store, bucket, deal, orig, target, Some(keys), None, true);
    assert r.1[i] == CopiedFile(HttpsUrl(bucket, p.0), HttpsUrl(bucket, p.1));
  }

  // ---------------------------------------------------------------------------
  // insert_variant_image_oracle and process_approved_variant
  // ---------------------------------------------------------------------------

  /** The result dictionary of the insertion, with the table and the object store after it. */
  datatype VariantInsert = VariantInsert(table: Table, store: set<Location>, variantUrl: Option<string>, success: bool)

  /**
    `insert_variant_image_oracle`: parse the variant's URL, copy the object to
    `images/deal/{deal}/{new}.jpg`, then shift the deal and insert at 0 in one
    transaction. An unsupported URL, a URL that does not split, a missing
    source object or a `copy_object` that raises for another reason
    (`copyFault`) changes nothing; a database error (`dbFault`) after the copy
    keeps the copy but not the rows. With `asWritten` the URL is parsed as the
    source does; otherwise with the corrected parse.
   */
  function InsertVariantImage(t: Table, store: set<Location>, deal: nat, newId: nat, url: string,
                              bucket: string, ts: nat, copyFault: bool, dbFault: bool, asWritten: bool): (r: VariantInsert)
    ensures r.success <==> ParseUrlBy(url, true, asWritten).Some? && ParseUrlBy(url, true, asWritten).value in store
                           && !copyFault && !dbFault
    ensures (!IsPrefix(Https, url) && !IsPrefix(S3Scheme, url)) || copyFault ==> r == VariantInsert(t, store, None, false)
    ensures r.success <==> r.variantUrl.Some?
    ensures !r.success ==> r.table == t
    ensures store <= r.store <= store + {Location(bucket, VariantKey(deal, newId, ""))}
    ensures r.success ==> && r.variantUrl == Some(HttpsUrl(bucket, VariantKey(deal, newId, "")))
                          && Location(bucket, VariantKey(deal, newId, "")) in r.store
                          && r.table == ProcessMainRow(t, deal, newId, StampedFileName(deal, newId, "variant", ts))
  {
    match ParseUrlBy(url, true, asWritten)
    case None => VariantInsert(t, store, None, false)
    case Some(src) =>
      if src !in store || copyFault then VariantInsert(t, store, None, false)
      else
        var key := VariantKey(deal, newId, "");
        var copied := store + {Location(bucket, key)};
        if dbFault then VariantInsert(t, copied, None, false)
        else VariantInsert(ProcessMainRow(t, deal, newId, StampedFileName(deal, newId, "variant", ts)), copied, Some(HttpsUrl(bucket, key)), true)
  }

  /**
    A variant URL whose key itself starts with `https://`: as written the
    insertion copies object `k` of bucket `b` and succeeds when only that
    object exists; with the corrected parse it looks for `https://k` and fails.
   */
  lemma NestedSchemeInsert(t: Table, deal: nat, newId: nat, bucket: string, ts: nat)
    ensures InsertVariantImage(t, {Location("b", "k")}, deal, newId, HttpsUrl("b", Https + "k"), bucket, ts, false, false, true).success
    ensures !InsertVariantImage(t, {Location("b", "k")}, deal, newId, HttpsUrl("b", Https + "k"), bucket, ts, false, false, false).success
  {
    RepeatedSchemeExample(true);
    assert |Https + "k"| != |"k"|;
  }

  /** Shift the deal and insert a row named `fileName` at position 0. */
  function ProcessMainRow(t: Table, deal: nat, newId: nat, fileName: string): Table {
    ShiftDeal(t, deal) + [FreshRow(newId, deal, fileName, 0, CreatorUserId)]
  }

  /** The summary `process_approved_variant` returns. `newId` is `None` when drawing an id raised. */
  datatype ApprovedOutcome = ApprovedOutcome(
    dealId: nat, originalImageId: nat, newId: Option<nat>, copiedFiles: seq<CopiedFile>,
    table: Table, store: set<Location>, success: bool)

  /**
    `process_approved_variant`: draw an id (`None` when the sequence raised),
    copy the original image's objects under it, then insert the variant. With
    `asWritten` the copy matches and renames keys as the source does and the
    URL is parsed as the source does; otherwise both are the corrected ones,
    and everything the promotion writes stays in the deal's folder.
   */
  function ProcessApprovedVariant(t: Table, store: set<Location>, deal: nat, orig: nat, url: string, bucket: string,
                                  newId: Option<nat>, listing: Option<seq<string>>, failAt: Option<nat>,
                                  ts: nat, copyFault: bool, dbFault: bool, asWritten: bool): (r: ApprovedOutcome)
    ensures newId.None? ==> r == ApprovedOutcome(deal, orig, None, [], t, store, false)
    ensures r.newId == newId && store <= r.store
    ensures forall l :: l in r.store - store ==> l.bucket == bucket
    ensures !asWritten ==> forall l :: l in r.store - store ==> IsPrefix(DealPrefix(deal), l.key)
    ensures !r.success ==> r.table == t
    ensures r.success ==> && ParseUrlBy(url, true, asWritten).Some? && !copyFault && !dbFault && |r.table| == |t| + 1
                          && r.table[|t|].id == newId.value && r.table[|t|].position == 0
  {
    match newId
    case None => ApprovedOutcome(deal, orig, None, [], t, store, false)
    case Some(id) =>
      var copied := CopyExistingFiles(store, bucket, deal, orig, id, listing, failAt, !asWritten);
      var res := InsertVariantImage(t, copied.0, deal, id, url, bucket, ts, copyFault, dbFault, asWritten);
      VariantKeyInDeal(deal, id);
      ApprovedOutcome(deal, orig, Some(id), copied.1, res.table, res.store, res.success)
  }

  /** The base catalogue key of an image lies in its deal's folder. */
  lemma VariantKeyInDeal(deal: nat, id: nat)
    ensures IsPrefix(DealPrefix(deal), VariantKey(deal, id, ""))
  {
    VariantKeyLayout(deal, id, "", "");
  }

  /**
    As written, promoting a variant of image 5 of deal 512 under new id 9
    copies the deal's `images/deal/512/5.jpg` to `images/deal/912/9.jpg`,
    into another deal's folder; the corrected promotion writes nothing there.
   */
  lemma PromotionLeavesDealAsWritten(t: Table, store: set<Location>, deal: nat, orig: nat, target: nat,
                                     url: string, bucket: string, ts: nat, copyFault: bool, dbFault: bool)
    requires deal == 512 && orig == 5 && target == 9
    ensures var r := ProcessApprovedVariant(t, store, deal, orig, url, bucket, Some(target), Some([VariantKey(deal, orig, "")]), None, ts, copyFault, dbFault, true);
      Location(bucket, "images/deal/912/9.jpg") in r.store
    ensures var r := ProcessApprovedVariant(t, store, deal, orig, url, bucket, Some(target), Some([VariantKey(deal, orig, "")]), None, ts, copyFault, dbFault, false);
      Location(bucket, "images/deal/912/9.jpg") !in r.store - store
  {
    CopiedAsWritten(store, deal, orig, target, bucket);
    SharedDigitsOtherFolder(deal);
  }

  lemma CopiedAsWritten(store: set<Location>, deal: nat, orig: nat, target: nat, bucket: string)
    requires deal == 512 && orig == 5 && target == 9
    ensures Location(bucket, "images/deal/912/9.jpg") in CopyExistingFiles(store, bucket, deal, orig, target, Some([VariantKey(deal, orig, "")]), None, false).0
  {
    var key := VariantKey(deal, orig, "");
    SharedDigitsRenamed(deal, orig, target);
    var pairs := Renames([key], deal, orig, target, false);
    assert (key, "images/deal/912/9.jpg") in pairs;
  }

  /**
    A successful promotion puts the variant first: the deal's rows keep
    distinct positions, and the new image alone holds 0.
   */
  lemma ApprovedVariantFirst(t: Table, store: set<Location>, deal: nat, orig: nat, url: string, bucket: string,
                             newId: nat, listing: Option<seq<string>>, failAt: Option<nat>, ts: nat, bound: nat, asWritten: bool)
    requires PositionsWithin(t, deal, bound)
    requires ProcessApprovedVariant(t, store, deal, orig, url, bucket, Some(newId), listing, failAt, ts, false, false, asWritten).success
    ensures var u := ProcessApprovedVariant(t, store, deal, orig, url, bucket, Some(newId), listing, failAt, ts, false, false, asWritten).table;
      PositionsWithin(u, deal, bound + 1) && forall i :: 0 <= i < |t| && u[i].dealId == deal ==> u[i].position > 0
  {
    var fileName := StampedFileName(deal, newId, "variant", ts);
    ShiftInsertKeepsOrder(t, deal, FreshRow(newId, deal, fileName, 0, CreatorUserId), bound);
  }
}

=== FILE: prompts.dfy ===
/**
  The prompt catalogue of the web front end: templates are read from
  `*.txt` files into a cache keyed by a normalised file name; a prompt is
  looked up by sub-category, category, vertical and finally `default`, and its
  placeholders are filled in. The folder listing, the file contents and the
  random subject choice are parameters.
 */
module Prompts {
  import opened Wrappers
  import opened Text

  // ---------------------------------------------------------------------------
  // Keys
  // ---------------------------------------------------------------------------

  /** A key as the cache stores it: no upper-case ASCII letter, no space, no hyphen. */
  predicate IsNormalKey(k: string) {
    forall i :: 0 <= i < |k| ==> !('A' <= k[i] <= 'Z') && k[i] != ' ' && k[i] != '-'
  }

  function NormalChar(c: char): char {
    if c == ' ' || c == '-' then '_' else LowerChar(c)
  }

  /**
    `normalize_key`: lower-case, then spaces and hyphens become underscores
    (a one-character `str.replace` is a character map).
   */
  function NormalizeKey(text: string): (r: string)
    ensures |r| == |text|
    ensures forall i :: 0 <= i < |text| ==> r[i] == NormalChar(text[i])
    ensures IsNormalKey(r)
  {
    if text == "" then "" else ReplaceChar(ReplaceChar(Lower(text), ' ', '_'), '-', '_')
  }

  /** Normalising changes nothing exactly on normal keys; so it is idempotent. */
  lemma NormalizeFixesNormalKeys(k: string)
    ensures NormalizeKey(k) == k <==> IsNormalKey(k)
    ensures NormalizeKey(NormalizeKey(k)) == NormalizeKey(k)
  {
    if IsNormalKey(k) {
      assert forall i :: 0 <= i < |k| ==> NormalizeKey(k)[i] == k[i];
    }
  }

  /** The cache key of a prompt file: `.txt` removed, then normalised. */
  function FileKey(fileName: string): (r: string)
    ensures IsNormalKey(r)
  {
    NormalizeKey(ReplaceAll(fileName, ".txt", ""))
  }

  /** A normal key without dots is the key of its own `.txt` file. */
  lemma FileKeyRoundTrip(k: string)
    requires IsNormalKey(k) && '.' !in k
    ensures FileKey(k + ".txt") == k
  {
    ReplaceAllAfter(k, ".txt", "", "");
    assert k + ".txt" + "" == k + ".txt";
    NormalizeFixesNormalKeys(k);
  }

  // ---------------------------------------------------------------------------
  // Loading
  // ---------------------------------------------------------------------------

  /** A file of the listing with its content, or `None` when reading it failed. */
  datatype PromptFile = PromptFile(name: string, content: Option<string>)

  predicate Loads(f: PromptFile, k: string) {
    f.content.Some? && FileKey(f.name) == k
  }

  /**
    `load_all_prompts`: every readable file stores its stripped content under
    its key; an unreadable file is skipped; of two files with the same key
    the later one wins. A missing folder leaves the cache empty.
   */
  function LoadPrompts(folderExists: bool, files: seq<PromptFile>): map<string, string>
    decreases |files|
  {
    if !folderExists || |files| == 0 then map[]
    else
      var prev := LoadPrompts(true, files[..|files| - 1]);
      var f := files[|files| - 1];
      match f.content
      case None => prev
      case Some(text) => prev[FileKey(f.name) := Strip(text)]
  }

  /** The file a key was last loaded from. */
  predicate LastLoads(files: seq<PromptFile>, i: int, k: string) {
    0 <= i < |files| && Loads(files[i], k) && forall j :: i < j < |files| ==> !Loads(files[j], k)
  }

  /** Loading one more file: the key it loads is (re)written, every other key is kept. */
  lemma LoadStep(files: seq<PromptFile>, k: string)
    requires 0 < |files|
    ensures var prev := LoadPrompts(true, files[..|files| - 1]);
            var cache := LoadPrompts(true, files);
            && (Loads(files[|files| - 1], k) ==> k in cache && cache[k] == Strip(files[|files| - 1].content.value))
            && (!Loads(files[|files| - 1], k) ==> (k in cache <==> k in prev) && (k in cache ==> cache[k] == prev[k]))
  {
  }

  /** Which keys the cache holds: those of the readable files. */
  lemma {:induction false} LoadedKeys(folderExists: bool, files: seq<PromptFile>, k: string)
    ensures k in LoadPrompts(folderExists, files) <==> folderExists && exists i :: 0 <= i < |files| && Loads(files[i], k)
    decreases |files|
  {
    if folderExists && |files| > 0 {
      var n := |files| - 1;
      var init := files[..n];
      LoadedKeys(true, init, k);
      LoadStep(files, k);
      assert forall i :: 0 <= i < n ==> init[i] == files[i];
      if !Loads(files[n], k) {
        assert (exists i :: 0 <= i < |files| && Loads(files[i], k)) ==> exists i :: 0 <= i < n && Loads(init[i], k);
      }
    }
  }

  /** What the cache holds for one key: the stripped content of the last readable file with that key. */
  lemma {:induction false} LoadedFromLastFile(folderExists: bool, files: seq<PromptFile>, k: string)
    requires k in LoadPrompts(folderExists, files)
    ensures exists i :: LastLoads(files, i, k) && LoadPrompts(folderExists, files)[k] == Strip(files[i].content.value)
    decreases |files|
  {
    var n := |files| - 1;
    var init := files[..n];
    LoadStep(files, k);
    if Loads(files[n], k) {
      assert LastLoads(files, n, k);
    } else {
      LoadedFromLastFile(true, init, k);
      var i :| LastLoads(init, i, k) && LoadPrompts(true, init)[k] == Strip(init[i].content.value);
      assert init[i] == files[i];
      assert LastLoads(files, i, k);
    }
  }

  // ---------------------------------------------------------------------------
  // Subjects
  // ---------------------------------------------------------------------------

  /** A subject of the catalogue; an empty field counts as absent. */
  datatype Subject = Subject(subjectType: string, hair: string)

  const Subjects: seq<Subject> := [
    Subject("solo_female", "long, flowing, brunette"),
    Subject("solo_female", "short, pixie cut, blonde"),
    Subject("solo_female", "braided, shoulder length, black"),
    Subject("solo_female", "tied back, ponytail, red"),
    Subject("solo_female", "wavy, loose, auburn"),
    Subject("solo_female", "straight, long, dark brown"),
    Subject("solo_female", "bob cut, chestnut"),
    Subject("solo_female", "curly, tied up, light brown"),
    Subject("solo_female", "layered, shoulder length, blonde"),
    Subject("solo_female", "straight, medium length, black"),
    Subject("solo_female", "bob cut, red"),
    Subject("solo_female", "curly, long, dark brown"),
    Subject("solo_female", "wavy, shoulder length, light brown"),
    Subject("solo_female", "short, undercut, platinum"),
    Subject("solo_female", "long, curly, silver"),
    Subject("solo_female", "medium length, wavy, pink"),
    Subject("solo_female", "asymmetrical bob, blue"),
    Subject("solo_female", "long, straight, green"),
    Subject("solo_male", "curly, medium length, dark blonde"),
    Subject("solo_male", "buzz cut, black")
  ]

  function SubjectLines(s: Subject): seq<string> {
    (if s.subjectType != "" then ["Subject: " + s.subjectType] else [])
      + (if s.hair != "" then ["Hair: " + s.hair] else [])
  }

  /** The description of one subject: its present fields, one per line. */
  function SubjectDescription(s: Subject): string {
    Join(SubjectLines(s), "\n")
  }

  /** `get_random_subject_description`, with the random choice given as `pick`. */
  function RandomSubjectDescription(subjects: seq<Subject>, pick: nat): (r: string)
    requires |subjects| == 0 || pick < |subjects|
    ensures |subjects| == 0 ==> r == ""
    ensures |subjects| > 0 ==> r == SubjectDescription(subjects[pick])
  {
    if |subjects| == 0 then "" else SubjectDescription(subjects[pick])
  }

  /** A subject with both fields, neither spanning lines, reads back as two lines. */
  lemma DescriptionLines(s: Subject)
    requires s.subjectType != "" && s.hair != ""
    requires '\n' !in s.subjectType && '\n' !in s.hair
    ensures SplitOn(SubjectDescription(s), '\n') == ["Subject: " + s.subjectType, "Hair: " + s.hair]
  {
    var lines := ["Subject: " + s.subjectType, "Hair: " + s.hair];
    assert SubjectLines(s) == lines;
    assert '\n' !in lines[0] by {
      forall i | 0 <= i < |lines[0]| ensures lines[0][i] != '\n' {
        if i >= 9 { assert lines[0][i] == s.subjectType[i - 9]; }
      }
    }
    assert '\n' !in lines[1] by {
      forall i | 0 <= i < |lines[1]| ensures lines[1][i] != '\n' {
        if i >= 6 { assert lines[1][i] == s.hair[i - 6]; }
      }
    }
    SplitJoin(lines, '\n');
  }

  /** Every subject of the catalogue has both fields. */
  lemma CatalogueSubjectsComplete(i: nat)
    requires i < |Subjects|
    ensures Subjects[i].subjectType != "" && Subjects[i].hair != ""
    ensures SubjectDescription(Subjects[i]) == "Subject: " + Subjects[i].subjectType + "\n" + "Hair: " + Subjects[i].hair
  {
  }

  // ---------------------------------------------------------------------------
  // Lookup
  // ---------------------------------------------------------------------------

  /** The keys tried, most specific first; an empty argument is not tried. */
  function Candidates(vertical: string, category: string, subCategory: string): (r: seq<string>)
    ensures 0 < |r| && r[|r| - 1] == "default"
  {
    (if subCategory != "" then [NormalizeKey(subCategory)] else [])
      + (if category != "" then [NormalizeKey(category)] else [])
      + (if vertical != "" then [NormalizeKey(vertical)] else [])
      + ["default"]
  }

  /** The index of the first candidate the cache holds. */
  function FirstCached(cands: seq<string>, cache: map<string, string>): (r: Option<nat>)
    ensures r.None? <==> forall i :: 0 <= i < |cands| ==> cands[i] !in cache
    ensures r.Some? ==> r.value < |cands| && cands[r.value] in cache
                        && forall j :: 0 <= j < r.value ==> cands[j] !in cache
    decreases |cands|
  {
    if |cands| == 0 then None
    else if cands[0] in cache then Some(0)
    else match FirstCached(cands[1..], cache)
      case None => None
      case Some(i) => Some(i + 1)
  }

  const EmailSubjectSlot := "{email_subject}"
  const HighlightsSlot := "{formatted_highlights}"
  const SubjectSlot := "{subject}"

  /** The placeholders filled in order; `{subject}` only when present, as its filler is drawn at random. */
  function Fill(template: string, emailSubject: string, highlights: string, subject: string): string {
    var p := ReplaceAll(ReplaceAll(template, EmailSubjectSlot, emailSubject), HighlightsSlot, highlights);
    if Contains(p, SubjectSlot) then ReplaceAll(p, SubjectSlot, subject) else p
  }

  function FallbackPrompt(emailSubject: string): string {
    "Create a high-quality promotional image for: " + emailSubject
  }

  /**
    `get_prompt`: the template of the first cached candidate with its
    placeholders filled, named by that candidate; with no cached candidate,
    the fallback sentence named `fallback`.
   */
  function GetPrompt(cache: map<string, string>, vertical: string, category: string, subCategory: string,
                     emailSubject: string, highlights: string, subject: string): (r: (string, string))
    ensures var c := Candidates(vertical, category, subCategory);
            (forall i :: 0 <= i < |c| ==> c[i] !in cache) ==> r == (FallbackPrompt(emailSubject), "fallback")
    ensures var c := Candidates(vertical, category, subCategory);
            forall i :: 0 <= i < |c| && c[i] in cache && (forall j :: 0 <= j < i ==> c[j] !in cache) ==>
              r == (Fill(cache[c[i]], emailSubject, highlights, subject), c[i])
  {
    var c := Candidates(vertical, category, subCategory);
    match FirstCached(c, cache)
    case None => (FallbackPrompt(emailSubject), "fallback")
    case Some(i) =>
      assert forall k :: 0 <= k < |c| && c[k] in cache && (forall j :: 0 <= j < k ==> c[j] !in cache) ==> k == i;
      (Fill(cache[c[i]], emailSubject, highlights, subject), c[i])
  }

  /** With a `default` template the fallback is never reached. */
  lemma DefaultAnswersEverything(cache: map<string, string>, vertical: string, category: string, subCategory: string,
                                 emailSubject: string, highlights: string, subject: string)
    requires "default" in cache
    ensures GetPrompt(cache, vertical, category, subCategory, emailSubject, highlights, subject).1 in cache
  {
    var c := Candidates(vertical, category, subCategory);
    var i :| i == FirstCached(c, cache).value;
  }

  /** A cached sub-category wins over its category and vertical. */
  lemma SubCategoryFirst(cache: map<string, string>, vertical: string, category: string, subCategory: string,
                         emailSubject: string, highlights: string, subject: string)
    requires subCategory != "" && NormalizeKey(subCategory) in cache
    ensures GetPrompt(cache, vertical, category, subCategory, emailSubject, highlights, subject)
            == (Fill(cache[NormalizeKey(subCategory)], emailSubject, highlights, subject), NormalizeKey(subCategory))
  {
    assert Candidates(vertical, category, subCategory)[0] == NormalizeKey(subCategory);
  }

  lemma NoBraceNoSlot(s: string, slot: string)
    requires 0 < |slot| && slot[0] == '{' && '{' !in s
    ensures !Contains(s, slot)
  {
    MissingCharNotContained(s, slot, 0);
  }

  /** A template without placeholders is returned verbatim. */
  lemma FillPlain(template: string, emailSubject: string, highlights: string, subject: string)
    requires '{' !in template
    ensures Fill(template, emailSubject, highlights, subject) == template
  {
    NoBraceNoSlot(template, EmailSubjectSlot);
    ReplaceAllAbsent(template, EmailSubjectSlot, emailSubject);
    NoBraceNoSlot(template, HighlightsSlot);
    ReplaceAllAbsent(template, HighlightsSlot, highlights);
    NoBraceNoSlot(template, SubjectSlot);
  }

  /** A single `{email_subject}` slot is replaced by the e-mail subject and nothing else changes. */
  lemma FillEmailSubject(a: string, b: string, emailSubject: string, highlights: string, subject: string)
    requires '{' !in a && '{' !in b && '{' !in emailSubject
    ensures Fill(a + EmailSubjectSlot + b, emailSubject, highlights, subject) == a + emailSubject + b
  {
    ReplaceAllAfter(a, EmailSubjectSlot, b, emailSubject);
    NoBraceNoSlot(b, EmailSubjectSlot);
    ReplaceAllAbsent(b, EmailSubjectSlot, emailSubject);
    var p := a + emailSubject + b;
    assert '{' !in p;
    NoBraceNoSlot(p, HighlightsSlot);
    ReplaceAllAbsent(p, HighlightsSlot, highlights);
    NoBraceNoSlot(p, SubjectSlot);
  }

  /** In `a + "{subject}" + b`, the only brace is the slot's own. */
  lemma OneBrace(a: string, b: string, i: nat)
    requires '{' !in a && '{' !in b
    requires i < |a + SubjectSlot + b| && i != |a|
    ensures (a + SubjectSlot + b)[i] != '{'
  {
    var t := a + SubjectSlot + b;
    if i < |a| {
      assert t[i] == a[i];
    } else if i < |a| + |SubjectSlot| {
      assert t[i] == SubjectSlot[i - |a|];
    } else {
      assert t[i] == b[i - |a| - |SubjectSlot|];
    }
  }

  /** Only the `{subject}` slot occurs in `a + "{subject}" + b`. */
  lemma OtherSlotAbsent(a: string, b: string, slot: string)
    requires '{' !in a && '{' !in b
    requires 1 < |slot| && slot[0] == '{' && slot[1] != 's'
    ensures !Contains(a + SubjectSlot + b, slot)
  {
    var t := a + SubjectSlot + b;
    forall i: nat | i + |slot| <= |t| ensures !OccursAt(t, slot, i) {
      assert t[i..i + |slot|][0] == t[i];
      assert t[i..i + |slot|][1] == t[i + 1];
      if i == |a| {
        assert t[i + 1] == 's';
      } else {
        OneBrace(a, b, i);
      }
    }
  }

  /** A single `{subject}` slot receives the drawn subject description. */
  lemma FillSubject(a: string, b: string, emailSubject: string, highlights: string, subject: string)
    requires '{' !in a && '{' !in b
    ensures Fill(a + SubjectSlot + b, emailSubject, highlights, subject) == a + subject + b
  {
    var t := a + SubjectSlot + b;
    OtherSlotAbsent(a, b, EmailSubjectSlot);
    ReplaceAllAbsent(t, EmailSubjectSlot, emailSubject);
    OtherSlotAbsent(a, b, HighlightsSlot);
    ReplaceAllAbsent(t, HighlightsSlot, highlights);
    ContainsInfix(a, SubjectSlot, b);
    ReplaceAllAfter(a, SubjectSlot, b, subject);
    NoBraceNoSlot(b, SubjectSlot);
    ReplaceAllAbsent(b, SubjectSlot, subject);
  }
}

=== FILE: reorder.dfy ===
/**
  The position-0 replacement engine of the deal image table: a new image takes
  position 0, the image it replaces drops to position 2, the image at position 1
  stays, and every other active image of the deal moves down one place. The
  table is a sequence of rows; the two passes of UPDATE statements and the
  INSERT are modelled, and a failure rolls the whole transaction back.
 */
module Reorder {
  import opened Wrappers
  import opened Text

  /** One row of DEAL_VOUCHER_IMAGE. `extension` and `hasIphone` may be NULL. */
  datatype ImageRow = ImageRow(
    id: nat, dealId: nat, resourcePath: string, statusId: int, fileName: string,
    caption: string, position: int, altTag: string, extension: Option<string>,
    hasIphone: Option<string>, createdBy: nat)

  type Table = seq<ImageRow>

  /** Rows with STATUS_ID = 1 are the ones a deal page shows. */
  const ActiveStatus := 1
  /** The user id recorded as creator of inserted rows. */
  const CreatorUserId := 18282217
  /** The offset of the first, collision-avoiding pass. */
  const TempOffset := 1000

  predicate Active(r: ImageRow, deal: nat) {
    r.dealId == deal && r.statusId == ActiveStatus
  }

  /** The active rows of a deal, in table order (the query reads them sorted by position; order does not matter below). */
  function Snapshot(t: Table, deal: nat): (s: Table)
    ensures forall r :: r in s <==> r in t && Active(r, deal)
    ensures |s| <= |t|
  {
    if |t| == 0 then []
    else
      var last := t[|t| - 1];
      assert forall r :: r in t <==> r in t[..|t| - 1] || r == last;
      Snapshot(t[..|t| - 1], deal) + (if Active(last, deal) then [last] else [])
  }

  lemma SnapshotAppend(t: Table, deal: nat, r: ImageRow)
    ensures Snapshot(t + [r], deal) == Snapshot(t, deal) + (if Active(r, deal) then [r] else [])
  {
    assert (t + [r])[..|t|] == t;
  }

  function Ids(t: Table): set<nat> {
    set r | r in t :: r.id
  }

  predicate DistinctIds(t: Table) {
    forall i, j :: 0 <= i < j < |t| ==> t[i].id != t[j].id
  }

  /** `UPDATE ... SET POSITION = m[ID] WHERE ID in m AND DEAL_VOUCHER_ID = deal`, whatever the status. */
  function Move(r: ImageRow, deal: nat, m: map<nat, int>): ImageRow {
    if r.dealId == deal && r.id in m then r.(position := m[r.id]) else r
  }

  function Reposition(t: Table, deal: nat, m: map<nat, int>): (u: Table)
    ensures |u| == |t|
  {
    seq(|t|, i requires 0 <= i < |t| => Move(t[i], deal, m))
  }

  /** Two passes of updates over the same deal compose: the later pass wins on shared ids. */
  lemma RepositionTwice(t: Table, deal: nat, m1: map<nat, int>, m2: map<nat, int>)
    ensures Reposition(Reposition(t, deal, m1), deal, m2) == Reposition(t, deal, m1 + m2)
  {
  }

  /** Repositioning keeps deal and status, so it commutes with taking the snapshot. */
  lemma {:induction false} SnapshotReposition(t: Table, deal: nat, m: map<nat, int>)
    ensures Snapshot(Reposition(t, deal, m), deal) == Reposition(Snapshot(t, deal), deal, m)
    decreases |t|
  {
    if |t| > 0 {
      var init, last := t[..|t| - 1], t[|t| - 1];
      var u := Reposition(t, deal, m);
      assert u[..|t| - 1] == Reposition(init, deal, m);
      SnapshotReposition(init, deal, m);
      var tail := if Active(last, deal) then [last] else [];
      RepositionConcat(Snapshot(init, deal), tail, deal, m);
      assert u[|t| - 1] == Move(last, deal, m);
      assert Snapshot(u, deal) == Snapshot(Reposition(init, deal, m), deal) + (if Active(last, deal) then [Move(last, deal, m)] else []);
    }
  }

  lemma RepositionConcat(a: Table, b: Table, deal: nat, m: map<nat, int>)
    ensures Reposition(a + b, deal, m) == Reposition(a, deal, m) + Reposition(b, deal, m)
  {
  }

  // ---------------------------------------------------------------------------
  // The position policy
  // ---------------------------------------------------------------------------

  /**
    The target of one row in the second pass: the replaced image goes to 2, the
    image at 1 stays, an image at 0 (only possible when two share position 0)
    goes to 3, every other image moves down by one.
   */
  function NewPos(r: ImageRow, orig: nat): int {
    if r.id == orig then 2
    else if r.position == 1 then 1
    else if r.position == 0 then 3
    else r.position + 1
  }

  /** The target of a row in the first (`temp`) pass or the second pass. */
  function Target(r: ImageRow, orig: nat, temp: bool): int {
    if temp then r.position + TempOffset else NewPos(r, orig)
  }

  /** The updates a pass issues over the snapshot, in order; a later update of the same id wins. */
  function Plan(snap: Table, orig: nat, temp: bool): (m: map<nat, int>)
    ensures m.Keys == Ids(snap)
  {
    if |snap| == 0 then map[]
    else
      var last := snap[|snap| - 1];
      assert forall r :: r in snap <==> r in snap[..|snap| - 1] || r == last;
      Plan(snap[..|snap| - 1], orig, temp)[last.id := Target(last, orig, temp)]
  }

  /** With distinct ids, each snapshot row receives its own target. */
  lemma {:induction false} PlanLookup(snap: Table, orig: nat, temp: bool, k: nat)
    requires DistinctIds(snap) && k < |snap|
    ensures Plan(snap, orig, temp)[snap[k].id] == Target(snap[k], orig, temp)
    decreases |snap|
  {
    if k < |snap| - 1 {
      var init := snap[..|snap| - 1];
      assert init[k] == snap[k];
      PlanLookup(init, orig, temp, k);
    }
  }

  /** The temporary pass leaves no trace: the second pass overwrites every row the first touched. */
  lemma TempPassLeavesNoTrace(t: Table, deal: nat, snap: Table, orig: nat)
    ensures Reposition(Reposition(t, deal, Plan(snap, orig, true)), deal, Plan(snap, orig, false))
         == Reposition(t, deal, Plan(snap, orig, false))
  {
    RepositionTwice(t, deal, Plan(snap, orig, true), Plan(snap, orig, false));
    UnionSubsumed(Plan(snap, orig, true), Plan(snap, orig, false));
  }

  lemma PlanStep(snap: Table, orig: nat, temp: bool, i: nat)
    requires i < |snap|
    ensures Plan(snap[..i + 1], orig, temp) == Plan(snap[..i], orig, temp) + map[snap[i].id := Target(snap[i], orig, temp)]
  {
    assert snap[..i + 1][..i] == snap[..i];
  }

  lemma UnionSubsumed(m1: map<nat, int>, m2: map<nat, int>)
    requires m1.Keys <= m2.Keys
    ensures m1 + m2 == m2
  {
  }

  /** One pass of UPDATE statements, one statement per snapshot row, in snapshot order. */
  method ApplyPass(t: Table, deal: nat, snap: Table, orig: nat, temp: bool) returns (u: Table)
    ensures u == Reposition(t, deal, Plan(snap, orig, temp))
  {
    u := t;
    var i := 0;
    assert Plan(snap[..0], orig, temp) == map[];
    assert Reposition(t, deal, map[]) == t;
    while i < |snap|
      invariant 0 <= i <= |snap|
      invariant u == Reposition(t, deal, Plan(snap[..i], orig, temp))
    {
      var r := snap[i];
      var step := map[r.id := Target(r, orig, temp)];
      PlanStep(snap, orig, temp, i);
      RepositionTwice(t, deal, Plan(snap[..i], orig, temp), step);
      u := Reposition(u, deal, step);
      i := i + 1;
    }
    assert snap[..|snap|] == snap;
  }

  /**
    The two passes: first every snapshot row is parked at position + 1000, then
    each gets its final position.
   */
  method RenumberPositions(t: Table, deal: nat, snap: Table, orig: nat) returns (u: Table)
    ensures u == Reposition(t, deal, Plan(snap, orig, false))
  {
    var parked := ApplyPass(t, deal, snap, orig, true);
    u := ApplyPass(parked, deal, snap, orig, false);
    TempPassLeavesNoTrace(t, deal, snap, orig);
  }

  // ---------------------------------------------------------------------------
  // The whole transaction
  // ---------------------------------------------------------------------------

  /** The first snapshot row with the given id. */
  function FindRow(snap: Table, id: nat): (r: Option<ImageRow>)
    ensures r.Some? ==> r.value in snap && r.value.id == id
    ensures r.None? <==> id !in Ids(snap)
  {
    if |snap| == 0 then None
    else if snap[0].id == id then Some(snap[0])
    else
      assert forall x :: x in snap <==> x == snap[0] || x in snap[1..];
      FindRow(snap[1..], id)
  }

  /** Python's `value or default` on a nullable text column: NULL and "" give the default. */
  function FalsyOr(v: Option<string>, default: string): (r: string)
    ensures default != "" ==> r != ""
    ensures r == default || v == Some(r)
  {
    match v
    case Some(x) => if x == "" then default else x
    case None => default
  }

  function VariantCaption(newId: nat): string {
    "Variant image " + Decimal(newId)
  }

  /** The inserted row copies resource path, extension and iPhone flag from the replaced row. */
  function InsertedRow(replaced: ImageRow, deal: nat, newId: nat, fileName: string): ImageRow {
    ImageRow(newId, deal, replaced.resourcePath, ActiveStatus, fileName,
             VariantCaption(newId), 0, VariantCaption(newId),
             Some(FalsyOr(replaced.extension, "jpg")), Some(FalsyOr(replaced.hasIphone, "0")), CreatorUserId)
  }

  /**
    `update_image_positions_and_insert_new` as a transaction on the table. It
    fails, leaving the table as it was, when the deal has no active image, when
    the replaced image is not among them, or when the database raises (`fault`).
   */
  function ReplacePositionZero(t: Table, deal: nat, orig: nat, newId: nat, fileName: string, fault: bool): (res: (Table, bool))
    ensures !res.1 <==> |Snapshot(t, deal)| == 0 || orig !in Ids(Snapshot(t, deal)) || fault
    ensures !res.1 ==> res.0 == t
    ensures res.1 ==> |res.0| == |t| + 1 && res.0[|t|].id == newId && res.0[|t|].position == 0
  {
    var snap := Snapshot(t, deal);
    if |snap| == 0 then (t, false)
    else
      match FindRow(snap, orig)
      case None => (t, false)
      case Some(replaced) =>
        if fault then (t, false)
        else (Reposition(t, deal, Plan(snap, orig, false)) + [InsertedRow(replaced, deal, newId, fileName)], true)
  }

  /** The statement sequence of the transaction: snapshot, two passes, insert. */
  method UpdatePositionsAndInsert(t: Table, deal: nat, orig: nat, newId: nat, fileName: string, fault: bool)
    returns (u: Table, ok: bool)
    ensures (u, ok) == ReplacePositionZero(t, deal, orig, newId, fileName, fault)
  {
    var snap := Snapshot(t, deal);
    if |snap| == 0 {
      return t, false;
    }
    var found := FindRow(snap, orig);
    if found.None? || fault {
      return t, false;
    }
    u := RenumberPositions(t, deal, snap, orig);
    u := u + [InsertedRow(found.value, deal, newId, fileName)];
    ok := true;
  }

  // ---------------------------------------------------------------------------
  // What the transaction guarantees
  // ---------------------------------------------------------------------------

  /** On success the new row is exactly the template built from the replaced row. */
  lemma InsertedRowFields(t: Table, deal: nat, orig: nat, newId: nat, fileName: string)
    requires ReplacePositionZero(t, deal, orig, newId, fileName, false).1
    ensures var u := ReplacePositionZero(t, deal, orig, newId, fileName, false).0;
      exists r :: r in Snapshot(t, deal) && r.id == orig && u[|t|] == InsertedRow(r, deal, newId, fileName)
    ensures var n := ReplacePositionZero(t, deal, orig, newId, fileName, false).0[|t|];
      && n.dealId == deal && n.statusId == 1 && n.fileName == fileName && n.createdBy == 18282217
      && n.caption == n.altTag == "Variant image " + Decimal(newId)
      && n.extension.Some? && n.extension.value != "" && n.hasIphone.Some? && n.hasIphone.value != ""
  {
    var r := FindRow(Snapshot(t, deal), orig).value;
    assert ReplacePositionZero(t, deal, orig, newId, fileName, false).0[|t|] == InsertedRow(r, deal, newId, fileName);
  }

  /**
    Nothing but positions changes, and only rows of the deal that the snapshot
    holds move: other deals and inactive rows keep their positions (given unique ids).
   */
  lemma OnlySnapshotRowsMove(t: Table, deal: nat, orig: nat, newId: nat, fileName: string, fault: bool, i: nat)
    requires DistinctIds(t) && i < |t|
    ensures var u := ReplacePositionZero(t, deal, orig, newId, fileName, fault).0;
      && u[i].(position := t[i].position) == t[i]
      && (!Active(t[i], deal) ==> u[i] == t[i])
  {
    var snap := Snapshot(t, deal);
    if !Active(t[i], deal) && t[i].dealId == deal && t[i].id in Ids(snap) {
      var r :| r in snap && r.id == t[i].id;
      var j :| 0 <= j < |t| && t[j] == r;
      assert false;
    }
  }

  /** On success every snapshot row lands on the position the policy gives it. */
  lemma FinalSnapshot(t: Table, deal: nat, orig: nat, newId: nat, fileName: string)
    requires DistinctIds(Snapshot(t, deal))
    requires ReplacePositionZero(t, deal, orig, newId, fileName, false).1
    ensures var s := Snapshot(t, deal);
      var f := Snapshot(ReplacePositionZero(t, deal, orig, newId, fileName, false).0, deal);
      && |f| == |s| + 1
      && (forall k :: 0 <= k < |s| ==> f[k] == s[k].(position := NewPos(s[k], orig)))
      && f[|s|].id == newId && f[|s|].position == 0
  {
    var s := Snapshot(t, deal);
    var m := Plan(s, orig, false);
    var replaced := FindRow(s, orig).value;
    var n := InsertedRow(replaced, deal, newId, fileName);
    SnapshotAppend(Reposition(t, deal, m), deal, n);
    SnapshotReposition(t, deal, m);
    PlannedSnapshot(s, deal, orig);
  }

  /** The second pass applied to the snapshot itself moves each row to its policy position. */
  lemma PlannedSnapshot(s: Table, deal: nat, orig: nat)
    requires DistinctIds(s) && forall r :: r in s ==> Active(r, deal)
    ensures forall k :: 0 <= k < |s| ==> Reposition(s, deal, Plan(s, orig, false))[k] == s[k].(position := NewPos(s[k], orig))
  {
    forall k | 0 <= k < |s| ensures Reposition(s, deal, Plan(s, orig, false))[k] == s[k].(position := NewPos(s[k], orig)) {
      assert s[k] in s;
      PlanLookup(s, orig, false, k);
    }
  }

  /** Positions 0..n-1, each held by exactly one row. */
  predicate Ranked(s: Table) {
    && (forall k :: 0 <= k < |s| ==> 0 <= s[k].position < |s|)
    && (forall i, j :: 0 <= i < j < |s| ==> s[i].position != s[j].position)
  }

  /** Where a row other than the replaced one goes, when positions are ranked and the replaced row holds 0. */
  lemma OtherRowTarget(s: Table, orig: nat, k0: nat, k: nat)
    requires DistinctIds(s) && Ranked(s) && k0 < |s| && k < |s| && k != k0
    requires s[k0].id == orig && s[k0].position == 0
    ensures 1 <= s[k].position
    ensures NewPos(s[k], orig) == if s[k].position == 1 then 1 else s[k].position + 1
  {
    if k < k0 {
      assert s[k].id != s[k0].id && s[k].position != s[k0].position;
    } else {
      assert s[k0].id != s[k].id && s[k0].position != s[k].position;
    }
  }

  /** The position arithmetic behind the promise below, on the rows alone. */
  lemma PolicyKeepsRanking(s: Table, f: Table, orig: nat, k0: nat)
    requires DistinctIds(s) && Ranked(s) && |s| >= 2 && k0 < |s| && s[k0].id == orig && s[k0].position == 0
    requires |f| == |s| + 1 && f[|s|].position == 0
    requires forall k :: 0 <= k < |s| ==> f[k] == s[k].(position := NewPos(s[k], orig))
    ensures Ranked(f)
    ensures f[k0].id == orig && f[k0].position == 2
    ensures forall k :: 0 <= k < |s| && k != k0 ==>
      f[k].id == s[k].id && f[k].position == (if s[k].position == 1 then 1 else s[k].position + 1)
  {
    var n := |s|;
    forall k | 0 <= k < n && k != k0
      ensures f[k].position == (if s[k].position == 1 then 1 else s[k].position + 1)
      ensures 1 <= s[k].position < n
    {
      OtherRowTarget(s, orig, k0, k);
    }
    forall i, j | 0 <= i < j < |f| ensures f[i].position != f[j].position {
      if j < n && i != k0 && j != k0 {
        assert s[i].position != s[j].position;
      }
    }
  }

  /**
    The design's promise: when a deal's active images hold positions 0..n-1
    with n >= 2 and the replaced image is the one at 0, afterwards the n+1
    images hold positions 0..n, the new image at 0 and the replaced one at 2.
   */
  lemma RankingPreserved(t: Table, deal: nat, orig: nat, newId: nat, fileName: string, k0: nat)
    requires var s := Snapshot(t, deal);
      DistinctIds(s) && Ranked(s) && |s| >= 2 && k0 < |s| && s[k0].id == orig && s[k0].position == 0
    ensures ReplacePositionZero(t, deal, orig, newId, fileName, false).1
    ensures var f := Snapshot(ReplacePositionZero(t, deal, orig, newId, fileName, false).0, deal);
      Ranked(f) && |f| == |Snapshot(t, deal)| + 1
    ensures var s := Snapshot(t, deal);
      var f := Snapshot(ReplacePositionZero(t, deal, orig, newId, fileName, false).0, deal);
      && f[|s|].id == newId && f[|s|].position == 0
      && f[k0].id == orig && f[k0].position == 2
      && forall k :: 0 <= k < |s| && k != k0 ==>
           f[k].id == s[k].id && f[k].position == (if s[k].position == 1 then 1 else s[k].position + 1)
  {
    var s := Snapshot(t, deal);
    assert s[k0] in s;
    FinalSnapshot(t, deal, orig, newId, fileName);
    PolicyKeepsRanking(s, Snapshot(ReplacePositionZero(t, deal, orig, newId, fileName, false).0, deal), orig, k0);
  }

  /** With a single active image, the replaced image lands at 2 and position 1 stays empty. */
  lemma SingleImageLeavesGap(t: Table, deal: nat, orig: nat, newId: nat, fileName: string)
    requires var s := Snapshot(t, deal); |s| == 1 && s[0].id == orig
    ensures var f := Snapshot(ReplacePositionZero(t, deal, orig, newId, fileName, false).0, deal);
      |f| == 2 && f[0].position == 2 && f[1].position == 0 && !Ranked(f)
  {
    assert Snapshot(t, deal)[0] in Snapshot(t, deal);
    FinalSnapshot(t, deal, orig, newId, fileName);
  }

  /**
    The policy relies on the replaced image being at 0: if it is not, and the
    deal has other images at 0 and 2, both of those end up at 3.
   */
  lemma CollisionWhenReplacedNotAtZero(t: Table, deal: nat, orig: nat, newId: nat, fileName: string, a: nat, b: nat)
    requires var s := Snapshot(t, deal);
      && DistinctIds(s) && orig in Ids(s)
      && a < |s| && b < |s| && s[a].id != orig && s[b].id != orig
      && s[a].position == 0 && s[b].position == 2
    ensures |Snapshot(ReplacePositionZero(t, deal, orig, newId, fileName, false).0, deal)| == |Snapshot(t, deal)| + 1
    ensures var f := Snapshot(ReplacePositionZero(t, deal, orig, newId, fileName, false).0, deal);
      f[a].position == 3 && f[b].position == 3 && a != b && !Ranked(f)
  {
    var s := Snapshot(t, deal);
    assert s[0] in s;
    FinalSnapshot(t, deal, orig, newId, fileName);
  }

  /** Unique ids survive the transaction when the new id is fresh. */
  lemma DistinctIdsPreserved(t: Table, deal: nat, orig: nat, newId: nat, fileName: string, fault: bool)
    requires DistinctIds(t) && newId !in Ids(t)
    ensures DistinctIds(ReplacePositionZero(t, deal, orig, newId, fileName, fault).0)
  {
    var res := ReplacePositionZero(t, deal, orig, newId, fileName, fault);
    if res.1 {
      var snap := Snapshot(t, deal);
      var r := Reposition(t, deal, Plan(snap, orig, false));
      var u := r + [InsertedRow(FindRow(snap, orig).value, deal, newId, fileName)];
      assert res.0 == u;
      forall i, j | 0 <= i < j < |u| ensures u[i].id != u[j].id {
        assert u[i] == Move(t[i], deal, Plan(snap, orig, false));
        if j == |t| {
          assert t[i] in t;
        } else {
          assert u[j] == Move(t[j], deal, Plan(snap, orig, false));
        }
      }
    }
  }
}

=== FILE: replacement.dfy ===
/**
  The replacement orchestrator: for one image, fetch its approved AI candidate
  from the object store, draw a new image id, render the size catalogue from the
  candidate, upload it under the new id, and run the position-0 transaction;
  then the batch driver that tallies many such replacements, and the reader of
  a plain-text list of image ids.

  The object store is one bucket, a map from key to the stored image's size.
  Everything the database, the store client and the id sequences may raise is
  an input (`Services`), so each failure path can be reached.
 */
module Replacement {
  import opened Wrappers
  import opened Text
  import opened Geometry
  import opened ObjectKeys
  import opened Reorder

  type Store = map<string, Dims>

  // ---------------------------------------------------------------------------
  // get_new_oracle_image_id
  // ---------------------------------------------------------------------------

  const PrimarySequence := "deal_voucher_image_seq"
  const FallbackSequence := "product_image_seq"

  /** The message raised when neither sequence can be read, naming both and what each raised. */
  function NoSequenceError(e1: string, e2: string): string {
    "Could not find a suitable sequence for images. Tried " + PrimarySequence + ": " + e1
      + ", " + FallbackSequence + ": " + e2
  }

  /**
    Draw a new image id: the image sequence's next value, or, when reading it
    raises, the product sequence's. Each argument is what `NEXTVAL` of that
    sequence yields or raises.
   */
  function AllocateId(primary: Result<nat>, fallback: Result<nat>): (r: Result<nat>)
    ensures primary.Ok? ==> r == primary
    ensures primary.Err? && fallback.Ok? ==> r == fallback
    ensures r.Err? <==> primary.Err? && fallback.Err?
    ensures r.Err? ==> && Contains(r.error, PrimarySequence) && Contains(r.error, primary.error)
                       && Contains(r.error, FallbackSequence) && Contains(r.error, fallback.error)
  {
    match primary
    case Ok(_) => primary
    case Err(e1) =>
      match fallback
      case Ok(_) => fallback
      case Err(e2) =>
        NoSequenceErrorNames(e1, e2);
        Err(NoSequenceError(e1, e2))
  }

  /** The message names both sequences and carries what each raised. */
  lemma NoSequenceErrorNames(e1: string, e2: string)
    ensures var msg := NoSequenceError(e1, e2);
      && Contains(msg, PrimarySequence) && Contains(msg, e1) && Contains(msg, FallbackSequence) && Contains(msg, e2)
  {
    var msg := NoSequenceError(e1, e2);
    var a := "Could not find a suitable sequence for images. Tried ";
    var p1 := a + PrimarySequence + ": ";
    var p2 := p1 + e1 + ", ";
    var p3 := p2 + FallbackSequence + ": ";
    assert msg == a + PrimarySequence + (": " + e1 + ", " + FallbackSequence + ": " + e2);
    assert msg == p1 + e1 + (", " + FallbackSequence + ": " + e2);
    assert msg == p2 + FallbackSequence + (": " + e2);
    assert msg == p3 + e2 + "";
    ContainsInfix(a, PrimarySequence, ": " + e1 + ", " + FallbackSequence + ": " + e2);
    ContainsInfix(p1, e1, ", " + FallbackSequence + ": " + e2);
    ContainsInfix(p2, FallbackSequence, ": " + e2);
    ContainsInfix(p3, e2, "");
  }

  // ---------------------------------------------------------------------------
  // get_deal_id_from_image_id and download_variant_image
  // ---------------------------------------------------------------------------

  /** The deal of the first row with the given id, whatever its status. */
  function GetDealId(t: Table, imageId: nat): (r: Result<nat>)
    ensures r.Ok? <==> imageId in Ids(t)
    ensures r.Ok? ==> exists i :: 0 <= i < |t| && t[i].id == imageId && t[i].dealId == r.value
    ensures r.Err? ==> r.error == "No deal found for image_id " + Decimal(imageId)
  {
    if |t| == 0 then Err("No deal found for image_id " + Decimal(imageId))
    else if t[0].id == imageId then Ok(t[0].dealId)
    else
      var rest := GetDealId(t[1..], imageId);
      assert forall x :: x in t <==> x == t[0] || x in t[1..];
      assert rest.Ok? ==> exists i :: 0 <= i < |t[1..]| && t[1..][i].id == imageId && t[1..][i].dealId == rest.value;
      assert forall i :: 0 <= i < |t[1..]| ==> t[1..][i] == t[i + 1];
      rest
  }

  /**
    Fetch the AI candidate `images/deal/{deal}/{image_id}00000.jpg`; a missing
    object raises the store client's `notFound` message.
   */
  function DownloadCandidate(store: Store, deal: nat, imageId: nat, notFound: string): (r: Result<Dims>)
    ensures r.Ok? <==> CandidateKey(deal, imageId) in store
    ensures r.Ok? ==> r.value == store[CandidateKey(deal, imageId)]
    ensures r.Err? ==> r.error == notFound
  {
    if CandidateKey(deal, imageId) in store then Ok(store[CandidateKey(deal, imageId)]) else Err(notFound)
  }

  // ---------------------------------------------------------------------------
  // upload_variants_to_s3
  // ---------------------------------------------------------------------------

  /** Within one image, distinct suffixes name distinct objects. */
  lemma VariantKeysDistinct(deal: nat, imageId: nat)
    ensures forall s, t :: VariantKey(deal, imageId, s) == VariantKey(deal, imageId, t) ==> s == t
  {
    forall s, t | VariantKey(deal, imageId, s) == VariantKey(deal, imageId, t) ensures s == t {
      VariantKeyLayout(deal, imageId, s, t);
    }
  }

  /** The store after uploading the variants of `suffixes`, in order, under the new id. */
  function Upload(store: Store, deal: nat, newId: nat, variants: map<string, Variant>, suffixes: seq<string>): (r: Store)
    requires forall s :: s in suffixes ==> s in variants
    ensures r.Keys == store.Keys + set s | s in suffixes :: VariantKey(deal, newId, s)
    ensures forall s :: s in suffixes ==> r[VariantKey(deal, newId, s)] == variants[s].size
    ensures forall k :: k in store && (forall s :: s in suffixes ==> k != VariantKey(deal, newId, s)) ==> r[k] == store[k]
    decreases |suffixes|
  {
    if |suffixes| == 0 then store
    else
      var init := suffixes[..|suffixes| - 1];
      var last := suffixes[|suffixes| - 1];
      assert forall s :: s in suffixes <==> s in init || s == last;
      assert forall s :: s != last ==> VariantKey(deal, newId, s) != VariantKey(deal, newId, last) by {
        VariantKeysDistinct(deal, newId);
      }
      Upload(store, deal, newId, variants, init)[VariantKey(deal, newId, last) := variants[last].size]
  }

  /** An upload adds or overwrites only the objects of the uploaded suffixes. */
  lemma UploadChangesOnlyVariants(store: Store, deal: nat, newId: nat, variants: map<string, Variant>, suffixes: seq<string>)
    requires forall s :: s in suffixes ==> s in variants
    ensures var r := Upload(store, deal, newId, variants, suffixes);
      forall k :: k in r && (k !in store || r[k] != store[k]) ==> exists s :: s in suffixes && k == VariantKey(deal, newId, s)
  {
    var r := Upload(store, deal, newId, variants, suffixes);
    forall k | k in r && (k !in store || r[k] != store[k]) ensures exists s :: s in suffixes && k == VariantKey(deal, newId, s) {
      if k !in store {
        assert k in set s | s in suffixes :: VariantKey(deal, newId, s);
      }
    }
  }

  /** The `https://` URL of every catalogue object of the new image, keyed by suffix. */
  function VariantUrls(bucket: string, deal: nat, newId: nat): (r: map<string, string>)
    ensures r.Keys == TargetSizes.Keys
    ensures forall s :: s in r ==> r[s] == HttpsUrl(bucket, VariantKey(deal, newId, s))
  {
    map s | s in TargetSizes :: HttpsUrl(bucket, VariantKey(deal, newId, s))
  }

  /**
    `upload_variants_to_s3`: upload each rendered file, in catalogue order, to
    `images/deal/{deal}/{new_id}{suffix}.jpg`. An upload raising at index `i`
    (`fault`) ends the loop with the objects before it stored.
   */
  function UploadVariants(store: Store, bucket: string, deal: nat, newId: nat, variants: map<string, Variant>,
                          fault: Option<(nat, string)>): (r: (Store, Result<map<string, string>>))
    requires variants.Keys == TargetSizes.Keys
    ensures store.Keys <= r.0.Keys
    ensures forall k :: k in r.0 && k !in store ==> exists s :: s in TargetSizes && k == VariantKey(deal, newId, s)
    ensures r.1.Ok? <==> fault.None? || fault.value.0 >= |Suffixes|
    ensures r.1.Err? ==> r.1.error == fault.value.1
    ensures r.1.Ok? ==> && r.1.value == VariantUrls(bucket, deal, newId)
                        && forall s :: s in TargetSizes ==> VariantKey(deal, newId, s) in r.0 && r.0[VariantKey(deal, newId, s)] == variants[s].size
  {
    SuffixesAreKeys();
    if fault.Some? && fault.value.0 < |Suffixes| then
      var done := Suffixes[..fault.value.0];
      assert forall s :: s in done ==> s in Suffixes;
      (Upload(store, deal, newId, variants, done), Err(fault.value.1))
    else
      (Upload(store, deal, newId, variants, Suffixes), Ok(VariantUrls(bucket, deal, newId)))
  }

  // ---------------------------------------------------------------------------
  // process_image_replacement
  // ---------------------------------------------------------------------------

  /**
    What the outside world does during one replacement: the bucket, what each
    id sequence yields or raises, the store client's message for a missing
    object, an upload that raises (index and message), and whether the
    position transaction hits a database error.
   */
  datatype Services = Services(
    bucket: string, primarySeq: Result<nat>, fallbackSeq: Result<nat>, notFound: string,
    uploadFault: Option<(nat, string)>, dbFault: bool)

  /** The result dictionary. A failure's `error` is optional as far as its readers know. */
  datatype ReplacementResult =
    | Replaced(originalImageId: nat, newImageId: nat, dealId: nat, uploadedUrls: map<string, string>, variantsCount: nat)
    | NotReplaced(error: Option<string>)

  /** The result together with the table and the store afterwards. */
  datatype Replacement = Replacement(result: ReplacementResult, table: Table, store: Store)

  const OracleFailure := "Failed to update Oracle records"

  /** The new image's file name, `{new_id}.jpg`. */
  function NewFileName(newId: nat): string {
    Decimal(newId) + ".jpg"
  }

  /**
    `process_image_replacement`: every step that raises ends the replacement
    with that message; the position transaction failing ends it with
    `OracleFailure`. Uploads already made stay in the store.
   */
  function ProcessImageReplacement(t: Table, store: Store, imageId: nat, env: Services): (r: Replacement)
    ensures r.table == t || r.result.Replaced?
    ensures r.result.NotReplaced? ==> r.table == t && r.result.error.Some?
    ensures store.Keys <= r.store.Keys
    ensures GetDealId(t, imageId).Err? ==> r == Replacement(NotReplaced(Some(GetDealId(t, imageId).error)), t, store)
  {
    match GetDealId(t, imageId)
    case Err(e) => Replacement(NotReplaced(Some(e)), t, store)
    case Ok(deal) =>
      match DownloadCandidate(store, deal, imageId, env.notFound)
      case Err(e) => Replacement(NotReplaced(Some(e)), t, store)
      case Ok(candidate) => RenderAndSwap(t, store, imageId, deal, candidate, env)
  }

  /** The steps after the download: draw the id, render and upload, run the transaction. */
  function RenderAndSwap(t: Table, store: Store, imageId: nat, deal: nat, candidate: Dims, env: Services): (r: Replacement)
    ensures r.table == t || r.result.Replaced?
    ensures r.result.NotReplaced? ==> r.table == t && r.result.error.Some?
    ensures store.Keys <= r.store.Keys
    ensures r.result.Replaced? <==>
      && AllocateId(env.primarySeq, env.fallbackSeq).Ok?
      && (env.uploadFault.None? || env.uploadFault.value.0 >= |Suffixes|)
      && imageId in Ids(Snapshot(t, deal))
      && !env.dbFault
    ensures r.result.Replaced? ==>
      var newId := AllocateId(env.primarySeq, env.fallbackSeq).value;
      && r.result == Replaced(imageId, newId, deal, VariantUrls(env.bucket, deal, newId), 14)
      && r.table == ReplacePositionZero(t, deal, imageId, newId, NewFileName(newId), false).0
      && forall s :: s in TargetSizes ==> VariantKey(deal, newId, s) in r.store && r.store[VariantKey(deal, newId, s)] == TargetSizes[s]
  {
    match AllocateId(env.primarySeq, env.fallbackSeq)
    case Err(e) => Replacement(NotReplaced(Some(e)), t, store)
    case Ok(newId) =>
      var variants := GenerateVariants(newId, candidate);
      VariantCompleteness(newId, candidate);
      var (uploaded, urls) := UploadVariants(store, env.bucket, deal, newId, variants, env.uploadFault);
      match urls
      case Err(e) => Replacement(NotReplaced(Some(e)), t, uploaded)
      case Ok(u) =>
        var (table, ok) := ReplacePositionZero(t, deal, imageId, newId, NewFileName(newId), env.dbFault);
        if ok then Replacement(Replaced(imageId, newId, deal, u, |variants|), table, uploaded)
        else Replacement(NotReplaced(Some(OracleFailure)), t, uploaded)
  }

  /**
    A replacement succeeds exactly when every step does; the new image then
    has its whole catalogue in the store, and the gallery is the one the
    position transaction writes.
   */
  lemma ReplacementOutcome(t: Table, store: Store, imageId: nat, env: Services)
    ensures var r := ProcessImageReplacement(t, store, imageId, env);
      r.result.Replaced? <==>
        && GetDealId(t, imageId).Ok?
        && CandidateKey(GetDealId(t, imageId).value, imageId) in store
        && AllocateId(env.primarySeq, env.fallbackSeq).Ok?
        && (env.uploadFault.None? || env.uploadFault.value.0 >= |Suffixes|)
        && imageId in Ids(Snapshot(t, GetDealId(t, imageId).value))
        && !env.dbFault
    ensures var r := ProcessImageReplacement(t, store, imageId, env);
      r.result.Replaced? ==>
        var deal := GetDealId(t, imageId).value;
        var newId := AllocateId(env.primarySeq, env.fallbackSeq).value;
        && r.result == Replaced(imageId, newId, deal, VariantUrls(env.bucket, deal, newId), 14)
        && r.table == ReplacePositionZero(t, deal, imageId, newId, NewFileName(newId), false).0
        && forall s :: s in TargetSizes ==> VariantKey(deal, newId, s) in r.store && r.store[VariantKey(deal, newId, s)] == TargetSizes[s]
  {
  }

  /**
    The object a replacement renders from is the one the approval step wrote:
    the base catalogue object of image id `image_id * 100000`.
   */
  lemma ReplacesFromApprovedCopy(t: Table, store: Store, imageId: nat, env: Services)
    requires imageId > 0
    requires ProcessImageReplacement(t, store, imageId, env).result.Replaced?
    ensures VariantKey(GetDealId(t, imageId).value, imageId * 100000, "") in store
  {
    ReplacementOutcome(t, store, imageId, env);
    CandidateKeyIsScaledId(GetDealId(t, imageId).value, imageId);
  }

  /** The new row's file name is the base catalogue object's file name. */
  lemma NewFileNameIsBaseVariant(newId: nat)
    ensures NewFileName(newId) == VariantFileName(newId, "")
  {
  }

  /**
    A replacement of the image at position 0 of a deal whose active images
    hold positions 0..n-1 (n >= 2) succeeds whenever every service does, and
    leaves the deal's images at positions 0..n.
   */
  lemma ReplacementKeepsRanking(t: Table, store: Store, imageId: nat, env: Services)
    requires GetDealId(t, imageId).Ok?
    requires var s := Snapshot(t, GetDealId(t, imageId).value);
      DistinctIds(s) && Ranked(s) && |s| >= 2 && exists k :: 0 <= k < |s| && s[k].id == imageId && s[k].position == 0
    requires CandidateKey(GetDealId(t, imageId).value, imageId) in store
    requires AllocateId(env.primarySeq, env.fallbackSeq).Ok? && env.uploadFault.None? && !env.dbFault
    ensures var r := ProcessImageReplacement(t, store, imageId, env);
      r.result.Replaced? && Ranked(Snapshot(r.table, GetDealId(t, imageId).value))
  {
    var deal := GetDealId(t, imageId).value;
    var newId := AllocateId(env.primarySeq, env.fallbackSeq).value;
    var s := Snapshot(t, deal);
    var k0 :| 0 <= k0 < |s| && s[k0].id == imageId && s[k0].position == 0;
    RankingPreserved(t, deal, imageId, newId, NewFileName(newId), k0);
    ReplacementOutcome(t, store, imageId, env);
  }

  // ---------------------------------------------------------------------------
  // process_image_replacement_with_redshift
  // ---------------------------------------------------------------------------

  /**
    The replacement followed by the single-row status update, which runs only
    after a success and when requested; `redshiftOk` is whether that update
    changed a row (it reports failure rather than raising). The status is
    marked exactly when the update was requested and succeeded and every stage
    of the replacement did, and only once the gallery holds the new image at 0.
   */
  function ReplaceAndSync(t: Table, store: Store, imageId: nat, env: Services, updateRedshift: bool, redshiftOk: bool)
    : (r: (Replacement, bool))
    ensures r.0 == ProcessImageReplacement(t, store, imageId, env)
    ensures r.1 <==>
      && updateRedshift && redshiftOk
      && GetDealId(t, imageId).Ok?
      && CandidateKey(GetDealId(t, imageId).value, imageId) in store
      && AllocateId(env.primarySeq, env.fallbackSeq).Ok?
      && (env.uploadFault.None? || env.uploadFault.value.0 >= |Suffixes|)
      && imageId in Ids(Snapshot(t, GetDealId(t, imageId).value))
      && !env.dbFault
    ensures r.1 ==>
      var deal := GetDealId(t, imageId).value;
      var newId := AllocateId(env.primarySeq, env.fallbackSeq).value;
      r.0.table == ReplacePositionZero(t, deal, imageId, newId, NewFileName(newId), false).0
  {
    var res := ProcessImageReplacement(t, store, imageId, env);
    ReplacementOutcome(t, store, imageId, env);
    (res, res.result.Replaced? && updateRedshift && redshiftOk)
  }

  // ---------------------------------------------------------------------------
  // process_batch_with_workers
  // ---------------------------------------------------------------------------

  /** How one submitted replacement completed: with a result dictionary, or by raising. */
  datatype Completion = Returned(result: ReplacementResult) | Raised(message: string)

  datatype FailedImage = FailedImage(imageId: nat, error: string)

  /** The running state of the batch loop. */
  datatype Tally = Tally(mapping: map<nat, nat>, failed: seq<FailedImage>, results: seq<(nat, ReplacementResult)>)

  const UnknownError := "Unknown error"

  /** The error recorded for a completion that is not a success. */
  function FailureMessage(c: Completion): string {
    match c
    case Raised(m) => m
    case Returned(res) => if res.NotReplaced? then res.error.GetOr(UnknownError) else UnknownError
  }

  /** One completed job folded into the tally. */
  function Record(s: Tally, imageId: nat, c: Completion): Tally {
    match c
    case Returned(Replaced(_, newId, _, _, _)) =>
      Tally(s.mapping[imageId := newId], s.failed, s.results + [(imageId, c.result)])
    case Returned(res) =>
      Tally(s.mapping, s.failed + [FailedImage(imageId, FailureMessage(c))], s.results + [(imageId, res)])
    case Raised(m) =>
      Tally(s.mapping, s.failed + [FailedImage(imageId, m)], s.results)
  }

  /** Every completion adds its image id to exactly the successes or the failures, and keeps what was there. */
  lemma RecordAdds(s: Tally, imageId: nat, c: Completion)
    ensures var u := Record(s, imageId, c);
      && u.mapping.Keys + FailedIds(u.failed) == s.mapping.Keys + FailedIds(s.failed) + {imageId}
      && forall k :: k in u.mapping ==> (k == imageId && c.Returned? && c.result.Replaced? && u.mapping[k] == c.result.newImageId)
                                         || (k in s.mapping && u.mapping[k] == s.mapping[k])
  {
    var u := Record(s, imageId, c);
    if |u.failed| > |s.failed| {
      assert u.failed == s.failed + [FailedImage(imageId, u.failed[|s.failed|].error)];
      assert FailedIds(u.failed) == FailedIds(s.failed) + {imageId};
    }
  }

  function CompletedIds(done: seq<(nat, Completion)>): (r: seq<nat>)
    ensures |r| == |done| && forall i :: 0 <= i < |done| ==> r[i] == done[i].0
  {
    seq(|done|, i requires 0 <= i < |done| => done[i].0)
  }

  /** The image ids of the completed jobs. */
  function DoneIds(done: seq<(nat, Completion)>): set<nat> {
    set i | 0 <= i < |done| :: done[i].0
  }

  function FailedIds(failed: seq<FailedImage>): set<nat> {
    set f | f in failed :: f.imageId
  }

  /** Job `d` is image `k`'s replacement by new image `newId`. */
  predicate SucceededAs(d: (nat, Completion), k: nat, newId: nat) {
    d.0 == k && d.1.Returned? && d.1.result.Replaced? && d.1.result.newImageId == newId
  }

  /** The tally after the jobs of `done` completed, in that order. */
  function TallyOf(done: seq<(nat, Completion)>): (s: Tally)
    ensures s.mapping.Keys + FailedIds(s.failed) == DoneIds(done)
    ensures forall k :: k in s.mapping ==> exists i :: 0 <= i < |done| && SucceededAs(done[i], k, s.mapping[k])
    decreases |done|
  {
    if |done| == 0 then Tally(map[], [], [])
    else
      var init := done[..|done| - 1];
      var last := done[|done| - 1];
      var s := TallyOf(init);
      DoneIdsSnoc(done);
      RecordAdds(s, last.0, last.1);
      var u := Record(s, last.0, last.1);
      assert forall k :: k in u.mapping ==> exists i :: 0 <= i < |done| && SucceededAs(done[i], k, u.mapping[k]) by {
        forall k | k in u.mapping ensures exists i :: 0 <= i < |done| && SucceededAs(done[i], k, u.mapping[k]) {
          if k in s.mapping && u.mapping[k] == s.mapping[k] {
            var i :| 0 <= i < |init| && SucceededAs(init[i], k, s.mapping[k]);
            assert done[i] == init[i];
          } else {
            assert SucceededAs(done[|done| - 1], k, u.mapping[k]);
          }
        }
      }
      u
  }

  /** The ids of a run of jobs are those of all but the last, plus the last one's. */
  lemma DoneIdsSnoc(done: seq<(nat, Completion)>)
    requires |done| > 0
    ensures DoneIds(done) == DoneIds(done[..|done| - 1]) + {done[|done| - 1].0}
  {
    var init := done[..|done| - 1];
    forall k | k in DoneIds(done) ensures k in DoneIds(init) + {done[|done| - 1].0} {
      var i :| 0 <= i < |done| && done[i].0 == k;
      if i < |init| { assert init[i].0 == k; }
    }
    forall k | k in DoneIds(init) ensures k in DoneIds(done) {
      var i :| 0 <= i < |init| && init[i].0 == k;
      assert done[i].0 == k;
    }
  }

  /** No image id completes twice. */
  predicate NoRepeats(ids: seq<nat>) {
    forall x | x in multiset(ids) :: multiset(ids)[x] <= 1
  }

  /** Without repeats, the last job's id is new, and the earlier jobs have no repeats either. */
  lemma LastIsNew(done: seq<(nat, Completion)>)
    requires |done| > 0 && NoRepeats(CompletedIds(done))
    ensures NoRepeats(CompletedIds(done[..|done| - 1]))
    ensures done[|done| - 1].0 !in DoneIds(done[..|done| - 1])
  {
    var init := done[..|done| - 1];
    var last := done[|done| - 1];
    assert CompletedIds(done) == CompletedIds(init) + [last.0];
    var m := multiset(CompletedIds(done));
    assert m == multiset(CompletedIds(init)) + multiset{last.0};
    forall x | x in multiset(CompletedIds(init)) ensures multiset(CompletedIds(init))[x] <= 1 {
      assert m[x] <= 1;
    }
    assert m[last.0] <= 1;
    forall i | 0 <= i < |init| ensures init[i].0 != last.0 {
      assert CompletedIds(init)[i] == init[i].0;
      assert init[i].0 in multiset(CompletedIds(init));
    }
  }

  /** A job with a new id adds one entry to exactly one of the two lists. */
  lemma RecordCounts(s: Tally, imageId: nat, c: Completion)
    requires imageId !in s.mapping && imageId !in FailedIds(s.failed) && s.mapping.Keys !! FailedIds(s.failed)
    ensures var u := Record(s, imageId, c);
      |u.mapping| + |u.failed| == |s.mapping| + |s.failed| + 1 && u.mapping.Keys !! FailedIds(u.failed)
  {
    var u := Record(s, imageId, c);
    if |u.failed| > |s.failed| {
      assert u.failed == s.failed + [FailedImage(imageId, u.failed[|s.failed|].error)];
      assert FailedIds(u.failed) == FailedIds(s.failed) + {imageId};
    }
  }

  /**
    With distinct image ids, every completed job lands in exactly one of the
    successes and the failures, so the two counts add up to the jobs.
   */
  lemma {:induction false} BatchAccounting(done: seq<(nat, Completion)>)
    requires NoRepeats(CompletedIds(done))
    ensures var s := TallyOf(done);
      |s.mapping| + |s.failed| == |done| && s.mapping.Keys !! FailedIds(s.failed)
    decreases |done|
  {
    if |done| > 0 {
      var init := done[..|done| - 1];
      var last := done[|done| - 1];
      LastIsNew(done);
      BatchAccounting(init);
      RecordCounts(TallyOf(init), last.0, last.1);
    }
  }

  /**
    The counts do not add up when an id is submitted twice: two successful
    replacements of the same image leave one entry in the mapping.
   */
  lemma DuplicateIdUndercounts(imageId: nat, r1: ReplacementResult, r2: ReplacementResult)
    requires r1.Replaced? && r2.Replaced?
    ensures var s := TallyOf([(imageId, Returned(r1)), (imageId, Returned(r2))]);
      |s.mapping| + |s.failed| == 1 && s.mapping[imageId] == r2.newImageId
  {
    var done := [(imageId, Returned(r1)), (imageId, Returned(r2))];
    assert done[..1] == [(imageId, Returned(r1))];
    assert done[..1][..0] == done[..0];
    var s0 := TallyOf(done[..0]);
    assert s0 == Tally(map[], [], []);
    var s1 := TallyOf(done[..1]);
    assert s1 == Record(s0, imageId, Returned(r1));
    assert s1.mapping == map[imageId := r1.newImageId] && s1.failed == [];
    assert TallyOf(done) == Record(s1, imageId, Returned(r2));
  }

  /** Every recorded failure is a completed job's error, with `UnknownError` for a result that carries none. */
  lemma {:induction false} FailuresCarryMessages(done: seq<(nat, Completion)>, f: FailedImage)
    requires f in TallyOf(done).failed
    ensures exists i :: 0 <= i < |done| && done[i].0 == f.imageId && FailureMessage(done[i].1) == f.error
                        && !(done[i].1.Returned? && done[i].1.result.Replaced?)
    decreases |done|
  {
    var init := done[..|done| - 1];
    var last := done[|done| - 1];
    assert forall i :: 0 <= i < |init| ==> init[i] == done[i];
    if f in TallyOf(init).failed {
      FailuresCarryMessages(init, f);
      var i :| 0 <= i < |init| && init[i].0 == f.imageId && FailureMessage(init[i].1) == f.error
               && !(init[i].1.Returned? && init[i].1.result.Replaced?);
      assert done[i] == init[i];
    } else {
      assert done[|done| - 1] == last;
    }
  }

  /** The orchestrator always names its error, so the `UnknownError` default never shows for its results. */
  lemma NoUnknownErrorFromReplacement(t: Table, store: Store, imageId: nat, env: Services)
    requires ProcessImageReplacement(t, store, imageId, env).result.NotReplaced?
    ensures var res := ProcessImageReplacement(t, store, imageId, env).result;
      FailureMessage(Returned(res)) == res.error.value
  {
  }

  /** Each submitted id completes once: the two id lists hold the same ids, and repeats alike. */
  lemma SubmittedAreCompleted(imageIds: seq<nat>, done: seq<(nat, Completion)>)
    requires multiset(CompletedIds(done)) == multiset(imageIds)
    ensures forall id :: id in imageIds <==> id in DoneIds(done)
    ensures NoRepeats(imageIds) <==> NoRepeats(CompletedIds(done))
  {
    forall id ensures id in imageIds <==> id in DoneIds(done) {
      assert id in imageIds <==> id in multiset(imageIds);
      assert id in CompletedIds(done) <==> id in multiset(CompletedIds(done));
      if id in CompletedIds(done) {
        var i :| 0 <= i < |done| && CompletedIds(done)[i] == id;
      }
    }
  }

  /** The result dictionaries of the jobs that returned one, in completion order; a job that raised has none. */
  function ReturnedResults(done: seq<(nat, Completion)>): (r: seq<(nat, ReplacementResult)>)
    ensures |r| <= |done|
    decreases |done|
  {
    if |done| == 0 then []
    else
      var last := done[|done| - 1];
      ReturnedResults(done[..|done| - 1]) + (if last.1.Returned? then [(last.0, last.1.result)] else [])
  }

  /** The tally's `results` list holds exactly the returned jobs' dictionaries, in completion order. */
  lemma {:induction false} ResultsAreReturned(done: seq<(nat, Completion)>)
    ensures TallyOf(done).results == ReturnedResults(done)
    decreases |done|
  {
    if |done| > 0 {
      var init := done[..|done| - 1];
      var last := done[|done| - 1];
      ResultsAreReturned(init);
      RecordResults(TallyOf(init), last.0, last.1);
    }
  }

  /** A completion adds its dictionary to `results` exactly when it returned one. */
  lemma RecordResults(s: Tally, imageId: nat, c: Completion)
    ensures Record(s, imageId, c).results == s.results + (if c.Returned? then [(imageId, c.result)] else [])
  {
  }

  /** The loop over completions, in completion order. */
  method FoldCompletions(done: seq<(nat, Completion)>) returns (tally: Tally)
    ensures tally == TallyOf(done)
  {
    tally := Tally(map[], [], []);
    for i := 0 to |done|
      invariant tally == TallyOf(done[..i])
    {
      assert done[..i + 1][..i] == done[..i];
      tally := Record(tally, done[i].0, done[i].1);
    }
    assert done[..|done|] == done;
  }

  /** The dictionary `process_batch_with_workers` returns. */
  datatype BatchSummary = BatchSummary(
    totalProcessed: nat, successfulCount: nat, failedCount: nat, successfulMapping: map<nat, nat>,
    failedImages: seq<FailedImage>, redshiftUpdated: bool, results: seq<(nat, ReplacementResult)>)

  /**
    `process_batch_with_workers`: the jobs complete in some order (`done`, one
    completion per submitted id); each is folded into the tally as it
    completes. The batch status update runs only when something succeeded and
    it was requested; `redshiftOk` is whether it changed a row.
   */
  method ProcessBatchWithWorkers(imageIds: seq<nat>, done: seq<(nat, Completion)>, updateRedshift: bool, redshiftOk: bool)
    returns (s: BatchSummary)
    requires multiset(CompletedIds(done)) == multiset(imageIds)
    ensures s.totalProcessed == |imageIds|
    ensures s.successfulCount == |s.successfulMapping| && s.failedCount == |s.failedImages|
    ensures s.successfulMapping == TallyOf(done).mapping && s.failedImages == TallyOf(done).failed
    ensures forall id :: id in imageIds <==> id in s.successfulMapping || id in FailedIds(s.failedImages)
    ensures forall k :: k in s.successfulMapping ==> exists i :: 0 <= i < |done| && SucceededAs(done[i], k, s.successfulMapping[k])
    ensures NoRepeats(imageIds) ==> s.successfulCount + s.failedCount == s.totalProcessed
    ensures NoRepeats(imageIds) ==> s.successfulMapping.Keys !! FailedIds(s.failedImages)
    ensures s.redshiftUpdated <==> |s.successfulMapping| > 0 && updateRedshift && redshiftOk
    ensures s.results == ReturnedResults(done)
  {
    var tally := FoldCompletions(done);
    ResultsAreReturned(done);
    SubmittedAreCompleted(imageIds, done);
    if NoRepeats(imageIds) {
      BatchAccounting(done);
    }
    var synced := |tally.mapping| > 0 && updateRedshift && redshiftOk;
    s := BatchSummary(|imageIds|, |tally.mapping|, |tally.failed|, tally.mapping, tally.failed, synced, tally.results);
  }

  // ---------------------------------------------------------------------------
  // load_image_ids_from_file, plain-text branch
  // ---------------------------------------------------------------------------

  /** The id on one line: the stripped line when it is non-empty and all digits. */
  function LineId(line: string): (r: Option<nat>)
    ensures r.Some? <==> |Strip(line)| > 0 && AllDigits(Strip(line))
  {
    var l := Strip(line);
    if |l| > 0 && AllDigits(l) then Some(ParseDigits(l)) else None
  }

  /** The ids of the lines that hold one, in file order. */
  function ParseIdLines(lines: seq<string>): (r: seq<nat>)
    ensures |r| <= |lines|
    decreases |lines|
  {
    if |lines| == 0 then []
    else
      match LineId(lines[0])
      case Some(id) => [id] + ParseIdLines(lines[1..])
      case None => ParseIdLines(lines[1..])
  }

  /**
    Read a text file of ids, one per line. Reading in text mode turns "\r\n"
    and a lone "\r" into line ends; mapping every "\r" to "\n" only adds
    blank lines, which are skipped.
   */
  function LoadIdsFromText(text: string): seq<nat> {
    ParseIdLines(SplitOn(ReplaceChar(text, '\r', '\n'), '\n'))
  }

  /** A file listing the ids, one per line. */
  function IdsText(ids: seq<nat>): string {
    Join(seq(|ids|, i requires 0 <= i < |ids| => Decimal(ids[i])), "\n")
  }

  lemma {:induction false} JoinLacks(parts: seq<string>, sep: string, c: char)
    requires c !in sep && forall i :: 0 <= i < |parts| ==> c !in parts[i]
    ensures c !in Join(parts, sep)
    decreases |parts|
  {
    if |parts| > 1 {
      JoinLacks(parts[1..], sep, c);
    }
  }

  lemma {:induction false} ParseRenderedIds(ids: seq<nat>)
    ensures ParseIdLines(seq(|ids|, i requires 0 <= i < |ids| => Decimal(ids[i]))) == ids
    decreases |ids|
  {
    if |ids| > 0 {
      var lines := seq(|ids|, i requires 0 <= i < |ids| => Decimal(ids[i]));
      StripDigits(Decimal(ids[0]));
      ParseDecimal(ids[0]);
      ParseRenderedIds(ids[1..]);
      assert lines[1..] == seq(|ids[1..]|, i requires 0 <= i < |ids[1..]| => Decimal(ids[1..][i]));
      assert [ids[0]] + ids[1..] == ids;
    }
  }

  /** Reading back a file of rendered ids gives the ids, in order. */
  lemma IdsTextRoundTrip(ids: seq<nat>)
    ensures LoadIdsFromText(IdsText(ids)) == ids
  {
    var lines := seq(|ids|, i requires 0 <= i < |ids| => Decimal(ids[i]));
    var text := IdsText(ids);
    assert forall i :: 0 <= i < |lines| ==> '\r' !in lines[i] && '\n' !in lines[i] by {
      forall i | 0 <= i < |lines| ensures '\r' !in lines[i] && '\n' !in lines[i] {
        assert AllDigits(lines[i]);
      }
    }
    JoinLacks(lines, "\n", '\r');
    assert ReplaceChar(text, '\r', '\n') == text;
    if |ids| == 0 {
      assert text == "";
    } else {
      SplitJoin(lines, '\n');
    }
    ParseRenderedIds(ids);
  }

  /** A blank line, or one that is not all digits once stripped, contributes nothing. */
  lemma {:induction false} JunkLineIgnored(before: seq<string>, junk: string, after: seq<string>)
    requires LineId(junk).None?
    ensures ParseIdLines(before + [junk] + after) == ParseIdLines(before + after)
    decreases |before|
  {
    if |before| == 0 {
      assert before + [junk] + after == [junk] + after;
      assert ([junk] + after)[1..] == after;
      assert before + after == after;
    } else {
      JunkLineIgnored(before[1..], junk, after);
      assert (before + [junk] + after)[1..] == before[1..] + [junk] + after;
      assert (before + after)[1..] == before[1..] + after;
    }
  }
}

=== FILE: text.dfy ===
/**
  The parts of Python's `str` that the pipeline relies on, over ASCII text:
  `str()` of a non-negative integer and `int()` of a digit string, substring
  search (`in`, `find`), `replace`, `split(sep, 1)`, `split`/`join` on one
  character, `strip`, `lower`.
 */
module Text {
  import opened Wrappers

  // ---------------------------------------------------------------------------
  // Decimal rendering and parsing of identifiers
  // ---------------------------------------------------------------------------

  predicate IsDigit(c: char) {
    '0' <= c <= '9'
  }

  predicate AllDigits(s: string) {
    forall i :: 0 <= i < |s| ==> IsDigit(s[i])
  }

  function DigitChar(d: nat): (c: char)
    requires d < 10
    ensures IsDigit(c)
  {
    (48 + d) as char
  }

  function DigitValue(c: char): (d: nat)
    requires IsDigit(c)
    ensures d < 10 && DigitChar(d) == c
  {
    c as int - 48
  }

  /** `str(n)` for a non-negative integer: no sign, no leading zero. */
  function Decimal(n: nat): (s: string)
    ensures 0 < |s| && AllDigits(s)
    decreases n
  {
    if n < 10 then [DigitChar(n)] else Decimal(n / 10) + [DigitChar(n % 10)]
  }

  /** `int(s)` for a string that `str.isdigit` accepts (ASCII digits only). */
  function ParseDigits(s: string): nat
    requires AllDigits(s)
    decreases |s|
  {
    if |s| == 0 then 0 else 10 * ParseDigits(s[..|s| - 1]) + DigitValue(s[|s| - 1])
  }

  /** Concatenation of sequences is associative. */
  lemma ConcatAssoc<T>(x: seq<T>, y: seq<T>, z: seq<T>)
    ensures x + (y + z) == (x + y) + z
  {
  }

  /** Reading back a rendered identifier yields the identifier. */
  lemma {:induction false} ParseDecimal(n: nat)
    ensures ParseDigits(Decimal(n)) == n
    decreases n
  {
    if n >= 10 {
      var s := Decimal(n);
      assert s[..|s| - 1] == Decimal(n / 10);
      ParseDecimal(n / 10);
    }
  }

  /** Distinct identifiers render to distinct strings. */
  lemma DecimalInjective(m: nat, n: nat)
    requires Decimal(m) == Decimal(n)
    ensures m == n
  {
    ParseDecimal(m);
    ParseDecimal(n);
  }

  lemma DecimalTimesTen(n: nat)
    requires n > 0
    ensures Decimal(n * 10) == Decimal(n) + "0"
  {
    assert (n * 10) / 10 == n && (n * 10) % 10 == 0;
  }

  /**
    Multiplying a positive identifier by 100000 appends five zero digits to its
    decimal form; for 0 the two differ ("0" against "000000").
   */
  lemma DecimalTimes100000(n: nat)
    ensures Decimal(n * 100000) == Decimal(n) + "00000" <==> n > 0
  {
    if n > 0 {
      DecimalTimesTen(n);
      DecimalTimesTen(n * 10);
      DecimalTimesTen(n * 100);
      DecimalTimesTen(n * 1000);
      DecimalTimesTen(n * 10000);
      assert n * 10 * 10 == n * 100;
      assert n * 100 * 10 == n * 1000;
      assert n * 1000 * 10 == n * 10000;
      assert n * 10000 * 10 == n * 100000;
      assert Decimal(n) + "0" + "0" + "0" + "0" + "0" == Decimal(n) + "00000";
    } else {
      assert |Decimal(0)| == 1;
    }
  }

  // ---------------------------------------------------------------------------
  // Substring search
  // ---------------------------------------------------------------------------

  /** `pat` occurs in `s` starting at index `i`. */
  predicate OccursAt(s: string, pat: string, i: nat) {
    i + |pat| <= |s| && s[i..i + |pat|] == pat
  }

  /** Python's `pat in s`. */
  predicate Contains(s: string, pat: string) {
    exists i: nat | i <= |s| :: OccursAt(s, pat, i)
  }

  lemma ContainsInfix(a: string, x: string, b: string)
    ensures Contains(a + x + b, x)
  {
    assert (a + x + b)[|a|..|a| + |x|] == x;
    assert OccursAt(a + x + b, x, |a|);
  }

  lemma OccursInTail(s: string, pat: string, j: nat)
    requires 0 < |s|
    ensures OccursAt(s, pat, j + 1) <==> OccursAt(s[1..], pat, j)
  {
    if j + 1 + |pat| <= |s| {
      assert s[1..][j..j + |pat|] == s[j + 1..j + 1 + |pat|];
    }
  }

  /** Python's `s.find(pat)`, with `None` for -1: the first occurrence. */
  function IndexOf(s: string, pat: string): (r: Option<nat>)
    ensures r.Some? ==> OccursAt(s, pat, r.value)
    ensures r.Some? ==> forall j: nat :: j < r.value ==> !OccursAt(s, pat, j)
    ensures r.None? ==> forall j: nat :: !OccursAt(s, pat, j)
    decreases |s|
  {
    if |s| < |pat| then None
    else if s[..|pat|] == pat then Some(0)
    else
      var tail := IndexOf(s[1..], pat);
      assert !OccursAt(s, pat, 0) by {
        assert s[0..|pat|] == s[..|pat|];
      }
      assert forall j: nat | 0 < j :: OccursAt(s, pat, j) <==> OccursAt(s[1..], pat, j - 1) by {
        forall j: nat | 0 < j ensures OccursAt(s, pat, j) <==> OccursAt(s[1..], pat, j - 1) {
          OccursInTail(s, pat, j - 1);
        }
      }
      match tail
      case None => None
      case Some(j) => Some(j + 1)
  }

  lemma IndexOfContains(s: string, pat: string)
    ensures IndexOf(s, pat).Some? <==> Contains(s, pat)
  {
    if IndexOf(s, pat).Some? {
      assert OccursAt(s, pat, IndexOf(s, pat).value);
    }
  }

  /**
    An occurrence of `pat` in `p + x` lies entirely inside `x` when `p` never
    holds the first character of `pat`.
   */
  lemma ContainsPastPrefix(p: string, x: string, pat: string)
    requires 0 < |pat|
    requires forall i :: 0 <= i < |p| ==> p[i] != pat[0]
    requires Contains(p + x, pat)
    ensures Contains(x, pat)
  {
    var i: nat :| i <= |p + x| && OccursAt(p + x, pat, i);
    assert (p + x)[i] == pat[0];
    assert i >= |p|;
    assert x[i - |p|..i - |p| + |pat|] == (p + x)[i..i + |pat|];
    assert OccursAt(x, pat, i - |p|);
  }

  /** Python's `s.startswith(p)`. */
  predicate IsPrefix(p: string, s: string) {
    |p| <= |s| && s[..|p|] == p
  }

  /** A text that lacks one of the characters of `pat` cannot contain `pat`. */
  lemma MissingCharNotContained(s: string, pat: string, k: nat)
    requires k < |pat| && pat[k] !in s
    ensures !Contains(s, pat)
  {
    forall i: nat | i + |pat| <= |s| ensures !OccursAt(s, pat, i) {
      assert s[i + k] in s;
      assert s[i..i + |pat|][k] == s[i + k];
    }
  }

  /** An occurrence in a prefix is an occurrence in the whole text. */
  lemma ContainsInPrefix(p: string, s: string, pat: string)
    requires IsPrefix(p, s) && Contains(p, pat)
    ensures Contains(s, pat)
  {
    var i: nat :| i <= |p| && OccursAt(p, pat, i);
    assert s[i..i + |pat|] == p[i..i + |pat|];
    assert OccursAt(s, pat, i);
  }

  /** Text cut before a separator is a prefix of the whole. */
  lemma BeforeIsPrefix(s: string, pat: string)
    ensures IsPrefix(Before(s, pat), s)
  {
    match SplitOnce(s, pat)
    case None =>
    case Some(parts) =>
      assert s == parts.0 + pat + parts.1;
      assert s[..|parts.0|] == parts.0;
  }

  /** Cutting before a one-character separator commutes with a prefix lacking it. */
  lemma BeforePastPrefix(p: string, x: string, c: char)
    requires c !in p
    ensures Before(p + x, [c]) == p + Before(x, [c])
  {
    match IndexOf(x, [c])
    case None =>
      IndexOfContains(x, [c]);
      if Contains(p + x, [c]) {
        ContainsPastPrefix(p, x, [c]);
      }
    case Some(i) =>
      BeforeFound(p, x, c, i);
  }

  /** The case of `BeforePastPrefix` where `x` holds the separator, first at `i`. */
  lemma BeforeFound(p: string, x: string, c: char, i: nat)
    requires c !in p && IndexOf(x, [c]) == Some(i)
    ensures Before(p + x, [c]) == p + x[..i]
  {
    BeforeFirstLacks(x, c, i);
    var a, rest := p + x[..i], x[i + 1..];
    assert x[i..i + 1] == [c];
    assert p + x == a + [c] + rest;
    BeforeSeparator(a, c, rest);
  }

  /** Cutting at a character that the head lacks yields the head. */
  lemma BeforeSeparator(a: string, c: char, rest: string)
    requires c !in a
    ensures Before(a + [c] + rest, [c]) == a
  {
    SplitOnceAfter(a, [c], rest);
  }

  /** No character before the first occurrence of `c` is `c`. */
  lemma BeforeFirstLacks(x: string, c: char, i: nat)
    requires IndexOf(x, [c]) == Some(i)
    ensures forall j :: 0 <= j < i ==> x[j] != c
  {
    forall j | 0 <= j < i ensures x[j] != c {
      assert !OccursAt(x, [c], j);
      assert x[j..j + 1][0] == x[j];
    }
  }

  /** When `a` never holds the first character of `pat`, the first occurrence in `a + pat + b` follows `a`. */
  lemma SplitOnceAfter(a: string, pat: string, b: string)
    requires 0 < |pat|
    requires forall i :: 0 <= i < |a| ==> a[i] != pat[0]
    ensures IndexOf(a + pat + b, pat) == Some(|a|)
    ensures SplitOnce(a + pat + b, pat) == Some((a, b))
  {
    var s := a + pat + b;
    assert s[|a|..|a| + |pat|] == pat;
    assert OccursAt(s, pat, |a|);
    forall j: nat | j < |a| ensures !OccursAt(s, pat, j) {
      assert s[j..j + |pat|][0] == s[j] == a[j];
    }
    var k := IndexOf(s, pat).value;
    assert k == |a|;
    assert s[..|a|] == a;
    assert s[|a| + |pat|..] == b;
  }

  /** Equal texts with a common prefix and suffix have equal middles. */
  lemma SameMiddle(p: string, s: string, t: string, q: string)
    requires p + s + q == p + t + q
    ensures s == t
  {
    assert |s| == |t|;
    assert s == (p + s + q)[|p|..|p| + |s|];
    assert t == (p + t + q)[|p|..|p| + |t|];
  }

  /** A pattern longer than the text cannot occur in it. */
  lemma TooLongToContain(s: string, pat: string)
    requires |s| < |pat|
    ensures !Contains(s, pat)
  {
  }

  // ---------------------------------------------------------------------------
  // replace and split
  // ---------------------------------------------------------------------------

  /** Python's `s.replace(pat, rep)`: every non-overlapping occurrence, left to right. */
  function ReplaceAll(s: string, pat: string, rep: string): string
    requires 0 < |pat|
    decreases |s|
  {
    match IndexOf(s, pat)
    case None => s
    case Some(i) => s[..i] + rep + ReplaceAll(s[i + |pat|..], pat, rep)
  }

  lemma ReplaceAllAbsent(s: string, pat: string, rep: string)
    requires 0 < |pat|
    requires !Contains(s, pat)
    ensures ReplaceAll(s, pat, rep) == s
  {
    IndexOfContains(s, pat);
  }

  /** Replacement proceeds past a first occurrence that follows `a`. */
  lemma ReplaceAllAfter(a: string, pat: string, rest: string, rep: string)
    requires 0 < |pat|
    requires forall i :: 0 <= i < |a| ==> a[i] != pat[0]
    ensures ReplaceAll(a + pat + rest, pat, rep) == a + rep + ReplaceAll(rest, pat, rep)
  {
    var s := a + pat + rest;
    SplitOnceAfter(a, pat, rest);
    assert s[..|a|] == a;
    assert s[|a| + |pat|..] == rest;
  }

  lemma ReplaceAllLeading(pat: string, s: string, rep: string)
    requires 0 < |pat|
    ensures ReplaceAll(pat + s, pat, rep) == rep + ReplaceAll(s, pat, rep)
  {
    assert (pat + s)[..|pat|] == pat;
    assert IndexOf(pat + s, pat) == Some(0);
    assert (pat + s)[|pat|..] == s;
  }

  /**
    Python's `s.split(pat, 1)`: `Some((before, after))` when the pattern occurs,
    `None` when the split yields the single piece `[s]`.
   */
  function SplitOnce(s: string, pat: string): (r: Option<(string, string)>)
    ensures r.Some? ==> s == r.value.0 + pat + r.value.1
    ensures r.None? <==> !Contains(s, pat)
  {
    IndexOfContains(s, pat);
    match IndexOf(s, pat)
    case None => None
    case Some(i) =>
      assert s == s[..i] + pat + s[i + |pat|..] by {
        assert s[i..i + |pat|] == pat;
      }
      Some((s[..i], s[i + |pat|..]))
  }

  /** Python's `s.split(pat)[0]`: the text before the first occurrence, or all of it. */
  function Before(s: string, pat: string): string {
    match SplitOnce(s, pat)
    case None => s
    case Some(parts) => parts.0
  }

  /**
    When the last character of `pat` appears neither in `a` nor earlier in
    `pat`, the first occurrence of `pat` in `a + pat + b` is the one after `a`.
   */
  lemma SplitOnceAt(a: string, pat: string, b: string)
    requires 0 < |pat|
    requires forall i :: 0 <= i < |a| ==> a[i] != pat[|pat| - 1]
    requires forall i :: 0 <= i < |pat| - 1 ==> pat[i] != pat[|pat| - 1]
    ensures SplitOnce(a + pat + b, pat) == Some((a, b))
  {
    var s := a + pat + b;
    assert s[|a|..|a| + |pat|] == pat;
    assert OccursAt(s, pat, |a|);
    forall j: nat | j < |a| ensures !OccursAt(s, pat, j) {
      var m := j + |pat| - 1;
      assert s[j..j + |pat|][|pat| - 1] == s[m];
      if m < |a| {
        assert s[m] == a[m];
      } else {
        assert s[m] == pat[m - |a|];
      }
    }
    var k := IndexOf(s, pat).value;
    assert k == |a|;
    assert s[..|a|] == a;
    assert s[|a| + |pat|..] == b;
  }

  lemma BeforeAbsent(s: string, pat: string)
    requires !Contains(s, pat)
    ensures Before(s, pat) == s
  {
  }

  // ---------------------------------------------------------------------------
  // Lines: split on one character, join, strip
  // ---------------------------------------------------------------------------

  /** Python's `s.split(sep)` for a one-character separator: never empty. */
  function SplitOn(s: string, sep: char): (r: seq<string>)
    ensures 0 < |r|
    ensures forall i :: 0 <= i < |r| ==> sep !in r[i]
    decreases |s|
  {
    if |s| == 0 then [""]
    else
      var rest := SplitOn(s[1..], sep);
      if s[0] == sep then [""] + rest else [[s[0]] + rest[0]] + rest[1..]
  }

  /** Python's `sep.join(parts)`. */
  function Join(parts: seq<string>, sep: string): string
    decreases |parts|
  {
    if |parts| == 0 then ""
    else if |parts| == 1 then parts[0]
    else parts[0] + sep + Join(parts[1..], sep)
  }

  lemma {:induction false} SplitOnPiece(a: string, sep: char, rest: string)
    requires sep !in a
    ensures SplitOn(a + [sep] + rest, sep) == [a] + SplitOn(rest, sep)
    ensures SplitOn(a, sep) == [a]
    decreases |a|
  {
    if |a| > 0 {
      assert (a + [sep] + rest)[1..] == a[1..] + [sep] + rest;
      SplitOnPiece(a[1..], sep, rest);
      assert [a[0]] + a[1..] == a;
    } else {
      assert a + [sep] + rest == [sep] + rest;
    }
  }

  /** Splitting a join on its separator gives back the pieces. */
  lemma {:induction false} SplitJoin(parts: seq<string>, sep: char)
    requires 0 < |parts|
    requires forall i :: 0 <= i < |parts| ==> sep !in parts[i]
    ensures SplitOn(Join(parts, [sep]), sep) == parts
    decreases |parts|
  {
    if |parts| == 1 {
      SplitOnPiece(parts[0], sep, "");
    } else {
      SplitJoin(parts[1..], sep);
      SplitOnPiece(parts[0], sep, Join(parts[1..], [sep]));
      assert [parts[0]] + parts[1..] == parts;
    }
  }

  /** The characters `str.isspace` accepts among ASCII. */
  predicate IsSpace(c: char) {
    c == ' ' || 9 <= c as int <= 13 || 28 <= c as int <= 31
  }

  function StripLeft(s: string): string
    decreases |s|
  {
    if 0 < |s| && IsSpace(s[0]) then StripLeft(s[1..]) else s
  }

  function StripRight(s: string): string
    decreases |s|
  {
    if 0 < |s| && IsSpace(s[|s| - 1]) then StripRight(s[..|s| - 1]) else s
  }

  /** Python's `s.strip()`. */
  function Strip(s: string): string {
    StripRight(StripLeft(s))
  }

  lemma StripDigits(s: string)
    requires AllDigits(s)
    ensures Strip(s) == s
  {
  }

  // ---------------------------------------------------------------------------
  // Character-wise maps
  // ---------------------------------------------------------------------------

  function LowerChar(c: char): char {
    if 'A' <= c <= 'Z' then (c as int + 32) as char else c
  }

  /** Python's `s.lower()` on ASCII text. */
  function Lower(s: string): (r: string)
    ensures |r| == |s|
    ensures forall i :: 0 <= i < |s| ==> r[i] == LowerChar(s[i])
  {
    seq(|s|, i requires 0 <= i < |s| => LowerChar(s[i]))
  }

  /** Python's `s.replace(a, b)` for one-character `a` and `b`. */
  function ReplaceChar(s: string, a: char, b: char): (r: string)
    ensures |r| == |s|
    ensures forall i :: 0 <= i < |s| ==> r[i] == (if s[i] == a then b else s[i])
  {
    seq(|s|, i requires 0 <= i < |s| => if s[i] == a then b else s[i])
  }

  /** The characters of `s` that satisfy `keep`, in order (a generator filter). */
  function FilterChars(s: string, keep: char -> bool): (r: string)
    ensures forall i :: 0 <= i < |r| ==> keep(r[i])
    ensures |r| <= |s|
    decreases |s|
  {
    if |s| == 0 then ""
    else (if keep(s[0]) then [s[0]] else "") + FilterChars(s[1..], keep)
  }
}

=== FILE: wrappers.dfy ===
/** Failure-compatible wrapper types used throughout the model. */
module Wrappers {

  /** A value that may be absent: Python's `None` or a missing dictionary key. */
  datatype Option<+T> = None | Some(value: T) {

    /** Returns the wrapped value, or `default` when absent. */
    function GetOr(default: T): T {
      match this
      case Some(v) => v
      case None => default
    }
  }

  /** The outcome of an operation that may raise: `Err` carries the error message. */
  datatype Result<+T> = Ok(value: T) | Err(error: string)
}
